=== FILE: README.md ===
# fauth-backend-go core, modelled in Dafny

This project models the core of an authentication backend written in Go. The backend
registers users and logs them in. It issues EdDSA-signed JWT access and refresh tokens. Its
administrators can ban, unban, kick and unkick users, and can force a mass logout. The model
covers these parts:

- **Cache and repository.** The in-memory cache has expiring records. The user repository
  keeps its kick, ban and mass-logout markers in that cache. The admin service works through
  the repository. The SQL table is modelled as a map from id to user, plus an optional
  database fault.
- **Registration validation.** The registration request is checked for email, username and
  password. The email regular expression is modelled by a matcher, and an independent
  grammar is proved equal to it. The allowed-character lists are modelled as written. The
  Latin list lacks 'n' and 'N'. The password list lacks the digits 0, 7, 8 and 9, and the backslash.
- **Tokens.** JWT encoding and decoding are modelled with the `kid` header check, jwt/v5's
  expiry check and the token-type check. The claim structure's JSON layout is modelled as
  declared: its own `iat` and `exp` fields hide the registered dates, so issued tokens never
  expire (see Findings). Signing, verification, JSON and base64url are passed in as a record
  of functions, together with the laws they are assumed to obey.
- **Passwords.** The plaintext and Django PBKDF2 comparers are modelled, with the combined
  comparer and the password manager. PBKDF2 and base64 are passed in as functions.
  `strconv.Atoi` is modelled concretely.
- **HTTP helpers.** The handler error wrapper maps errors to HTTP responses. The body
  writer and body reader of the request logger keep at most `maxSize` bytes.
- **Logging.** The ring buffer pool is modelled, and so is the coloured `slog` handler:
  levels and their labels, quoting, and the prefixes that `WithAttrs` and `WithGroup` build.
- **Configuration.** Command-line flags are derived from a configuration struct and its
  tags. The struct is described as data: fields, tags as a map, and types. The case
  conversions `toSnakeCase`, `toKebabCase` and `toScreamingSnakeCase` are modelled as the
  left-to-right regular-expression replacements they perform. The help-text helpers of the
  flag printer are modelled too.

Time is a parameter `now`, in nanoseconds. Go's `time.Now().Unix()` is `now / 10^9`.
Strings are sequences of runes. Go's `len` on a string is the UTF-8 byte length
(`Unicode.ByteLen`).

## Model

| member | source | states |
|---|---|---|
| MemoryCache.NewMemoryCache | internal/storage/memory.go:14-18 | A new cache holds no records, and its not-found error is the memory cache's own `ErrNil`. |
| MemoryCache.Get | internal/storage/memory.go:55-72 | A key is found exactly when it is present and not expired, and then its value comes back. Otherwise the reply is empty with the cache's not-found error. |
| MemoryCache.Set | internal/storage/memory.go:74-90 | The key now maps to the value, expiring at `now + expiration`. Every other key keeps its presence and record. The reply echoes the value with no error. |
| MemoryCache.Del | internal/storage/memory.go:92-106 | The listed keys are removed. The count is the number of distinct listed keys that were present, expired or not. |
| MemoryCache.DelKeysRemoves | internal/storage/memory.go:92-106 | Deleting key by key removes exactly the set of listed keys. |
| MemoryCache.DelKeysCounts | internal/storage/memory.go:92-106 | Deleting key by key counts the present keys among the listed ones, each once. |
| MemoryCache.KeySetMember | internal/storage/memory.go:92-106 | A key is in the set of listed keys exactly when it is listed. |
| MemoryCache.GetAfterSet | internal/storage/memory.go:55-90 | A value set is read back until its expiry. |
| MemoryCache.GetAfterExpiry | internal/storage/memory.go:55-90 | After its expiry, a value set reads as not found. |
| MemoryCache.OtherKeysUnchanged | internal/storage/memory.go:55-106 | Setting one key, or deleting other keys, does not change what another key reads. |
| MemoryCache.GetAfterDel | internal/storage/memory.go:55-106 | A deleted key reads as not found. |
| MemoryCache.ExpiredStillDeleted | internal/storage/memory.go:55-106 | An expired record still present reads as not found, yet deleting it counts one. |
| MemoryCache.DelDuplicate | internal/storage/memory.go:92-106 | A key listed twice is counted once. |
| UserRepo.UnixSeconds | internal/repo/user.go:146-149 | The Unix time in seconds is the floor of the nanosecond clock divided by 10^9. |
| UserRepo.Get | internal/repo/user.go:61-75 | A database fault is returned as the error. Otherwise a present id gives its user, and an absent id gives no user and no error. |
| UserRepo.SetActive | internal/repo/user.go:155-163 | Ban and unban set only the `active` flag of that id. A database fault changes nothing and is returned. An absent id changes nothing and is no error. |
| UserRepo.Ban | internal/repo/user.go:155-158 | Ban clears the `active` flag of a known user and keeps the set of users. A database fault is the error. |
| UserRepo.Unban | internal/repo/user.go:160-163 | Unban sets the `active` flag of a known user and keeps the set of users. A database fault is the error. |
| UserRepo.GetByLogin | internal/repo/user.go:106-119 | A login containing '@' is looked up by email first. An error or a found user from that lookup is returned. Otherwise the login is looked up by username. |
| UserRepo.GetByLoginUsernameOnly | internal/repo/user.go:106-119 | Without '@', the email lookup has no effect on the result. |
| UserRepo.GetByLoginEmailDecides | internal/repo/user.go:106-119 | With '@', when the email lookup errs or finds a user, the username lookup has no effect. |
| UserRepo.MassLogoutFromReply | internal/repo/user.go:127-144 | Only the Redis not-found error means "no mass logout". Any other cache error is returned. A stored text that parses as a 64-bit decimal gives exactly that second, and one that does not gives the parser's error. |
| UserRepo.PresenceFromReply | internal/repo/user.go:176-200 | A marker is present on a successful read and absent on Redis not-found. Every other error is an error. |
| UserRepo.GetMassLogout | internal/repo/user.go:127-144 | "No mass logout" exactly when no live record exists and the cache's not-found error is Redis's. Any other not-found error is returned. A live record whose text parses as a 64-bit decimal gives exactly that second, and one whose text does not gives the parser's error. |
| UserRepo.ActivateMassLogout | internal/repo/user.go:146-149 | The key then holds the current Unix second as decimal text, expiring after the TTL. No other key changes, and no error is reported. |
| UserRepo.DeactivateMassLogout | internal/repo/user.go:151-153 | Exactly the mass-logout key is removed, and no error is reported. |
| UserRepo.Kick | internal/repo/user.go:165-169 | The user's kick key then holds the current Unix second for six hours. No other key changes, and no error is reported. |
| UserRepo.Unkick | internal/repo/user.go:171-174 | Exactly the user's kick key is removed, and no error is reported. |
| UserRepo.IsKicked | internal/repo/user.go:189-200 | Kicked exactly when a live kick marker exists. Not kicked exactly when none exists and the not-found error is Redis's. Otherwise the cache's not-found error is returned. |
| UserRepo.WasRecentlyBanned | internal/repo/user.go:176-187 | The same reading for the ban marker. |
| UserRepo.MassLogoutRoundTrip | internal/repo/user.go:127-149 | The decimal text that activation stores parses back to the same timestamp. |
| UserRepo.KeysDistinct | internal/repo/user.go:127-200 | The kick, ban and mass-logout keys never collide, and distinct ids get distinct keys. |
| UserRepo.ActivateThenGet | internal/repo/user.go:127-149 | After activation, reading the mass logout gives the activation's Unix second until the TTL passes. |
| UserRepo.DeactivateThenGet | internal/repo/user.go:127-153 | After deactivation, a Redis backend reads "no mass logout". The memory backend reports an error, because its not-found error is not Redis's. |
| UserRepo.KickThenIsKicked | internal/repo/user.go:165-200 | A kicked user is kicked for six hours. After that, the cache's not-found answer applies. |
| UserRepo.UnkickThenIsKicked | internal/repo/user.go:171-200 | After unkick, the user reads as the cache's not-found answer. |
| UserRepo.KickIsolated | internal/repo/user.go:165-200 | Kicking or unkicking one user changes no other user's kick marker and no ban marker, the user's own included. |
| UserRepo.MemoryBackendAbsentIsError | internal/repo/user.go:127-200 | On a fresh memory cache, every marker read is an error rather than "absent". |
| AdminService.GetMassLogout | internal/service/admin.go:33-47 | A repository error gives the inactive status with that error. The status is active exactly when it carries a date. |
| AdminService.StatusFromRepo | internal/service/admin.go:33-47 | No stored time means inactive. A stored time means active with that date. A repository error is passed on. |
| AdminService.ActivateMassLogout | internal/service/admin.go:49-51 | Activation touches only the cache. |
| AdminService.ActivateThenStatus | internal/service/admin.go:33-51 | After activation, the status is active with the activation time for 31 days. |
| AdminService.MassLogoutTtlIs31Days | internal/service/admin.go:49-51 | The mass-logout TTL is 31 days, which is 2,678,400 seconds. |
| AdminService.DeactivateMassLogout | internal/service/admin.go:53-55 | Deactivation touches only the cache. |
| AdminService.DeactivateThenStatus | internal/service/admin.go:33-55 | After deactivation the status is inactive, with an error on the memory backend. |
| AdminService.Run | internal/service/admin.go:78-92 | Ban and unban change only the user table. Kick and unkick change only the cache. |
| AdminService.ActionOnId | internal/service/admin.go:57-76 | A lookup error is returned and nothing changes. An unknown id gives "user not found" and nothing changes. Otherwise the action runs. |
| AdminService.Ban | internal/service/admin.go:78-80 | "User not found" exactly for an unknown id with no database fault. A known user ends up inactive, with no error. The cache and the set of users are unchanged. |
| AdminService.Unban | internal/service/admin.go:82-84 | "User not found" exactly for an unknown id with no database fault. A known user ends up active, with no error. The cache and the set of users are unchanged. |
| AdminService.Kick | internal/service/admin.go:86-88 | "User not found" exactly for an unknown id with no database fault. A known user then reads as kicked. The user table is unchanged. |
| AdminService.Unkick | internal/service/admin.go:90-92 | "User not found" exactly for an unknown id with no database fault. A known user's kick marker is gone. The user table is unchanged. |
| AdminService.UnknownIdChangesNothing | internal/service/admin.go:57-76 | Every action on an unknown id leaves the state as it was. |
| AdminService.BanDeactivates | internal/service/admin.go:78-84 | Ban sets the user inactive and unban sets it active. Neither writes a ban marker. |
| AdminService.KickThenIsKicked | internal/service/admin.go:86-92 | An admin kick marks the user as kicked for six hours, and unkick clears the marker. |
| ApiWrapper.Respond | internal/api/wrapper.go:15-38 | No error gives no response. Every error becomes 400 with its text, or 401, 404 or 500 with a fixed body. |
| ApiWrapper.StatusByPriority | internal/api/wrapper.go:19-34 | The cases apply in the source's order: a bad path parameter, then "not found", then conflict or input errors, then authentication failures. Everything else is 500. |
| ApiWrapper.AuthFailuresIndistinguishable | internal/api/wrapper.go:29-31 | An inactive user and a wrong password get the same 401 response. |
| ApiWrapper.TextOnlyIn400 | internal/api/wrapper.go:19-34 | The error text reaches the client only in a 400 response. |
| Captcha.NewDebugCaptchaClient | internal/captcha/debug.go:7-11 | The client keeps the configured captcha. |
| Captcha.IsValid | internal/captcha/debug.go:13-15 | A captcha is valid exactly when it is the configured text. |
| Captcha.AcceptsExactly | internal/captcha/debug.go:13-15 | The debug client accepts exactly the configured captcha string. |
| Claims.UserPayloadFromUserClaims | internal/token/claims.go:30-36 | The payload copies the id, username and roles of the claims. |
| Claims.ProjectionIgnoresTypeAndDates | internal/token/claims.go:14-36 | Two claims give the same payload exactly when their id, username and roles agree. |
| Claims.TokenTypesDistinct | internal/token/claims.go:5-8 | The access and refresh token types differ. |
| Jwt.ObjectRoundTrip | internal/token/claims.go:14-22 | Through JSON, the declared structure loses the registered dates and keeps its own `iat` and `exp`. Without those two fields, the dates survive and the fields read as zero. The identity and type always survive. |
| Jwt.HeaderFor | internal/token/jwt.go:68-69 | The header names the current `kid` and the EdDSA method. |
| Jwt.ClaimsFor | internal/token/jwt.go:71-80 | The claims carry the payload and the token type. `IssuedAt` and `ExpiresAt` are `now` and `now + expiration`, each cut to its whole second. The structure's own `Iat` and `Exp` stay zero. |
| Jwt.Encode | internal/token/jwt.go:63-90 | Encoding fails exactly when signing fails, and then the token is empty. |
| Jwt.EncodedSegments | internal/token/jwt.go:84-89 | A token splits at '.' into the encoded header, the encoded claims and the signature. |
| Jwt.KeyFor | internal/token/jwt.go:107-118 | The public key is used only for the current `kid`. A missing `kid` is its own error. |
| Jwt.Parse | internal/token/jwt.go:103-123 | A token is accepted exactly when it has three segments, its header decodes and names EdDSA and the current kid, its claims decode, its signature over the first two segments verifies under the public key, and its claims pass jwt/v5's check at that instant (an `exp` that is present lies in the future). The result is the decoded claim set. |
| Jwt.Decode | internal/token/jwt.go:99-130 | An unparsable, unverifiable or expired token is "invalid token". A token of the wrong type is "invalid token type". Otherwise the verified claims come back. |
| Jwt.DecodeIssued | internal/token/jwt.go:63-130 | An issued token decodes to the claims that survive JSON. It is "invalid token" once those claims have expired, and "invalid token type" when another type is asked for. |
| Jwt.RoundTripAsWritten | internal/token/jwt.go:63-130 | As written, an issued token decodes at every later instant, so it never expires. The decoded claims keep the payload and the type, and carry `iat` and `exp` of 0. |
| Jwt.RoundTripIntended | internal/token/jwt.go:63-130 | With the registered dates written, a token decodes to the issued claims exactly until its expiry second. From then on it is "invalid token", in particular once `expiration` has elapsed. |
| Jwt.WrongKidRejected | internal/token/jwt.go:107-123 | A token signed under another `kid` is rejected as invalid. |
| Jwt.WrongTypeRejected | internal/token/jwt.go:125-127 | As written, a token of another type is rejected with "invalid token type" at every later instant. |
| Jwt.ForgedRejected | internal/token/jwt.go:103-123 | A token whose signature does not verify, or whose header names another algorithm or kid, decodes to `InvalidToken`, whatever its claims. |
| Jwt.MissingKidCollapses | internal/token/jwt.go:107-123 | A header without `kid` makes the token invalid. |
| Password.TextOf | internal/password/django.go:24 | Converting bytes to a string keeps each byte as one character. |
| Password.PlainTextHash | internal/password/plaintext.go:25-27 | The plaintext hasher never fails. |
| Password.PlainTextCompare | internal/password/plaintext.go:14-23 | The plaintext comparer accepts exactly equal bytes, and otherwise reports a mismatch. |
| Password.PlainTextRoundTrip | internal/password/plaintext.go:14-27 | A plaintext hash is the password itself and is accepted for that password. |
| Password.PlainTextSymmetric | internal/password/plaintext.go:14-23 | The plaintext comparison does not depend on argument order. |
| Password.DjangoHash | internal/password/django.go:34-36 | Django hashing is unimplemented and always errs. |
| Password.DjangoCompare | internal/password/django.go:19-45 | A hasher prefix other than `pbkdf2_sha256` is unimplemented. That prefix with fewer than four `$` fields panics on an index. Otherwise the result is accept or "wrong password". |
| Password.CheckPbkdf2Sha256 | internal/password/django.go:38-45 | The record is accepted exactly when its decoded key is PBKDF2 of the password, with the record's salt and 32 bytes. The iteration count is the decimal value of the second field, or 0 when that field does not start like a number. |
| Password.RecordFields | internal/password/django.go:39-42 | A stored record splits into the tag, the iterations, the salt and the key. |
| Password.DjangoRecordCompare | internal/password/django.go:19-45 | A well-formed record is accepted exactly when the decoded key equals PBKDF2 of the password, with the record's salt and iteration count and 32 bytes. |
| Password.NonNumericIterations | internal/password/django.go:40 | Iterations that do not start like a number are read as 0, because the `Atoi` error is ignored. |
| Password.CombinedCompare | internal/password/password.go:27-35 | As written, the combined comparer accepts exactly when some comparer rejects. |
| Password.CombinedCompareIntended | internal/password/password.go:27-35 | The corrected combined comparer accepts exactly when some comparer accepts. |
| Password.CombinedInverted | internal/password/password.go:27-35 | With two plaintext comparers, the as-written comparer rejects the right password and accepts a wrong one. The corrected one does the opposite. |
| Password.CombinedPrefixDecides | internal/password/password.go:27-35 | The first comparer that decides settles the result. Later comparers are never consulted. |
| Password.IntendedSingle | internal/password/password.go:27-35 | The corrected combination of one comparer agrees with that comparer. |
| Password.NewPasswordManager | internal/password/password.go:37-47 | No comparer is an error, since the source panics. One comparer is used directly. Two or more are combined. |
| Password.Hash | internal/password/password.go:18-21 | The plaintext hasher returns the password. The Django hasher always errs. |
| Password.Compare | internal/password/password.go:18-45 | A plaintext comparer accepts exactly the stored bytes. A chain accepts exactly when some comparer rejects, as written, and otherwise answers "wrong password". |
| Password.PlainTextManagerRoundTrip | internal/password/password.go:37-47 | A plaintext manager accepts exactly the password it hashed. |
| AuthModel.ValidateEmail | internal/model/auth.go:54-78 | The input is trimmed. An empty email fails first, then one without '@'. A local part over 64 bytes or a domain over 255 bytes fails next. An accepted email is the trimmed text and matches the pattern. |
| AuthModel.AcceptedEmail | internal/model/auth.go:40-78 | An accepted email has exactly one '@', not at the start, with a dot after it. |
| AuthModel.EmailTrimIdempotent | internal/model/auth.go:54-55 | Validating the trimmed email is the same as validating the original. |
| AuthModel.TrimSpaceIdempotent | internal/model/auth.go:55 | Trimming twice is trimming once. |
| AuthModel.ScanUsername | internal/model/auth.go:108-129 | The scan fails exactly when some rune is in neither alphabet. It records whether Latin and Cyrillic letters occur. |
| AuthModel.ValidateUsername | internal/model/auth.go:102-141 | The trimmed name is refused when it is forbidden. "Must contain a letter" is never returned. An accepted name is the trimmed text. |
| AuthModel.UsernameAccepted | internal/model/auth.go:102-141 | A name is accepted exactly when it is not forbidden, uses only one alphabet, and is 4 to 20 bytes long. |
| AuthModel.UsernameCheckOrder | internal/model/auth.go:102-141 | A foreign rune is reported before mixed alphabets, and mixed alphabets before length. |
| AuthModel.ByteLenCyrillic | internal/model/auth.go:138 | A Cyrillic name takes two bytes per rune. |
| AuthModel.ByteLenLatin | internal/model/auth.go:138 | A Latin name takes one byte per rune. |
| AuthModel.CyrillicUsernameLength | internal/model/auth.go:137-141 | A Cyrillic name is accepted with 2 to 10 runes. |
| AuthModel.LatinUsernameLength | internal/model/auth.go:137-141 | A Latin name is accepted with 4 to 20 runes. |
| AuthModel.ValidatePassword | internal/model/auth.go:159-183 | A mismatch is reported first, then a length outside 6 to 32 bytes. Success means both are fine and every rune is in the allowed set. |
| AuthModel.AcceptedPasswordIsAscii | internal/model/auth.go:150-183 | An accepted password is ASCII, so its rune count is within 6 to 32. |
| AuthModel.Validate | internal/model/auth.go:20-38 | The checks run in order: email, username, password. The first failure is returned. The normalised email and username are written back as each check passes. |
| AuthModel.ValidateIdempotent | internal/model/auth.go:20-38 | Validating an already validated request succeeds and changes nothing. |
| AuthModel.EmailFixed | internal/model/auth.go:54-78 | An accepted email validates to itself. |
| AuthModel.UsernameFixed | internal/model/auth.go:102-141 | An accepted username validates to itself. |
| AuthModel.MeFromUser | internal/model/auth.go:199-206 | The profile copies the id, email, username and verified flag. |
| AuthModel.MeCopiesOnlyFourFields | internal/model/auth.go:199-206 | Two users give the same profile exactly when those four fields agree. |
| EmailPattern.MatchEmail | internal/model/auth.go:40 | A matched email has exactly one '@', not first, with a dot after it. |
| EmailPattern.EmailEquivalence | internal/model/auth.go:40 | The pattern matcher accepts exactly the strings of the email grammar. |
| EmailPattern.EmailSound | internal/model/auth.go:40 | What the matcher accepts is in the grammar. |
| EmailPattern.EmailComplete | internal/model/auth.go:40 | A word-character local part, '@' and a grammatical domain are matched. |
| EmailPattern.DomainEquivalence | internal/model/auth.go:40 | The domain matcher accepts exactly dot-separated labels whose last label has 2 to 6 characters. |
| EmailPattern.DomainSound | internal/model/auth.go:40 | A matched domain is grammatical. |
| EmailPattern.DomainComplete | internal/model/auth.go:40 | Good labels joined by dots are matched. |
| EmailPattern.SplitForm | internal/model/auth.go:40 | A domain is its dot-split parts put back together. |
| EmailPattern.SplitDotted | internal/model/auth.go:40 | Dot-free labels written with dots split back into the same labels. |
| EmailPattern.JoinDotted | internal/model/auth.go:40 | Joining with '.' is the dotted prefix followed by the last part. |
| EmailPattern.DomainShape | internal/model/auth.go:40 | A matched domain has no '@' and has a dot. |
| EmailPattern.LabelNoDot | internal/model/auth.go:40 | Label characters include neither '.' nor '@'. |
| EmailPattern.DottedChars | internal/model/auth.go:40 | Labels joined by dots contain no '@'. |
| Unicode.IsSpace | internal/model/auth.go:55 | Among ASCII runes, exactly tab, line feed, vertical tab, form feed, carriage return and space are white space. No letter or digit is, and none above U+3000. |
| Unicode.RuneLen | internal/model/auth.go:69 | A rune takes 1 to 4 UTF-8 bytes, and exactly one when it is ASCII. |
| Unicode.ByteLen | internal/model/auth.go:69 | A string's byte length lies between its rune count and four times that. |
| Unicode.ByteLenAppend | internal/model/auth.go:69 | Byte length adds up over concatenation. |
| Unicode.ByteLenAscii | internal/model/auth.go:166 | An ASCII string's byte length is its rune count. |
| GoStrings.Find | internal/model/auth.go:64-67 | The index of the first occurrence, or the length when there is none. |
| GoStrings.Split | internal/config/tags.go:130 | Splitting always yields at least one part. |
| GoStrings.SplitN | internal/password/django.go:39 | Splitting into at most n parts yields between 1 and n parts. |
| GoStrings.SplitJoin | internal/config/tags.go:130 | Joining the split parts with the separator gives the input back, and no part holds the separator. |
| GoStrings.JoinSplit | internal/config/tags.go:130 | Separator-free parts, joined and split again, come back unchanged. |
| GoStrings.SplitAt | internal/config/tags.go:130 | A split takes the text before the first separator, then splits the rest. |
| GoStrings.SplitCons | internal/config/tags.go:130 | A separator-free head before a separator becomes the first part. |
| GoStrings.SplitNone | internal/config/tags.go:130 | Text without the separator is one part. |
| GoStrings.SplitThree | internal/token/jwt.go:84-89 | Three separator-free segments become the first three parts. |
| GoStrings.SplitNFour | internal/password/django.go:39 | A split into four parts yields the three separator-free fields and the rest. |
| GoStrings.SplitNTwo | internal/model/auth.go:64-67 | A split into two parts is the text before and after the first separator. |
| GoStrings.SplitNJoin | internal/password/django.go:39 | Joining a split into n parts gives the input back. |
| GoStrings.SplitNParts | internal/password/django.go:39 | Only the last part of a split into n parts may hold the separator. With fewer than n parts, none does. |
| GoStrings.SplitNHead | internal/password/django.go:20 | The first part is the text before the first separator. |
| GoStrings.SplitNShort | internal/password/django.go:39 | With at most n separator-delimited parts, splitting into n parts equals a full split. |
| GoStrings.SplitNLong | internal/password/django.go:39 | With more parts, the last of n parts rejoins the rest. |
| GoStrings.Replace | internal/config/tags.go:791-793 | Each occurrence is replaced and every other rune kept. |
| GoStrings.ToLower | internal/config/tags.go:785-789 | Lower-casing maps each rune and leaves no capital. |
| GoStrings.ToUpper | internal/config/tags.go:795-797 | Upper-casing maps each rune and leaves no lowercase letter. |
| GoStrings.LowerAppend | internal/config/tags.go:785-789 | Lower-casing distributes over concatenation. |
| GoStrings.UpperAppend | internal/config/tags.go:795-797 | Upper-casing distributes over concatenation. |
| GoStrings.ReplaceAppend | internal/config/tags.go:791-793 | Replacing distributes over concatenation. |
| GoStrings.TrimSpace | internal/model/auth.go:55 | The result is a slice of the input with only white space cut from both ends. It neither starts nor ends with white space, and text without white space is unchanged. |
| GoStrings.LeadingSpaces | internal/model/auth.go:55 | The leading white-space run is maximal. |
| GoStrings.TrailingSpaces | internal/model/auth.go:55 | The trailing white-space run is maximal. |
| Strconv.Digits | internal/repo/user.go:146-149 | The decimal digits of a natural number have no leading zero and denote it. |
| Strconv.FormatInt | internal/repo/user.go:146-149 | The decimal form is never empty. |
| Strconv.ParseFormatInt | internal/repo/user.go:137-142 | Parsing the decimal form of a 64-bit integer gives it back. |
| Strconv.FormatIntInjective | internal/repo/user.go:146-149 | Distinct 64-bit integers have distinct decimal forms. |
| Strconv.ParseDigits | internal/repo/user.go:137-140 | Digit accumulation stays within the bound, and is 0 on a syntax error and the bound on overflow. |
| Strconv.ParseDigitsValue | internal/repo/user.go:137-140 | Digits within range accumulate to their decimal value. |
| Strconv.ParseUint | internal/repo/user.go:137-140 | An unsigned parse lies within its bit size, and saturates on overflow. |
| Strconv.ParseInt | internal/repo/user.go:137-140 | A signed parse lies within its bit size and saturates on overflow. Empty text, or text starting with neither a sign nor a digit, is a syntax error. |
| Strconv.ParseIntSigned | internal/repo/user.go:137-140 | A minus sign before a parsable magnitude of at most 2^63 negates it. |
| Strconv.Atoi | internal/password/django.go:40 | A successful result is a 64-bit integer, and a syntax error gives 0. Decimal digits below 2^63 give their value with no error. |
| Strconv.ValueCons | internal/repo/user.go:137-140 | The value of a leading digit and the rest is that digit times the place value, plus the rest. |
| Strconv.Pow2Add | internal/repo/user.go:137-140 | Powers of two multiply by adding exponents. |
| Strconv.Quote | internal/logger/logger.go:395-401 | A quoted string starts and ends with a double quote. |
| Strconv.EscapeRune | internal/logger/logger.go:395-401 | An escape is the rune itself or starts with a backslash. |
| Strconv.Hex | internal/logger/logger.go:395-401 | A hex escape has the requested width of lowercase hex digits. |
| Strconv.EscapeAllPlain | internal/logger/logger.go:395-401 | Printable text without quotes or backslashes is not escaped. |
| Strconv.EscapeAllLength | internal/logger/logger.go:395-401 | Escaping never shortens text. |
| LogPool.NewBufPool | internal/log/pool.go:9-16 | A new pool has `len` empty buffers of capacity `size`, and the cursor before the first. |
| LogPool.Next | internal/log/pool.go:18-25 | Next advances the cursor cyclically and returns that buffer emptied. An empty pool has no buffer to give, since the source panics. |
| LogPool.NextMany | internal/log/pool.go:9-25 | Successive calls visit the buffers round-robin: call i gets buffer i mod len. |
| BodyCapture.Capture | internal/api/logger.go:91-96 | One write keeps the body within `maxSize`, as the prefix of the old body and the new bytes. |
| BodyCapture.NewBodyWriter | internal/api/logger.go:98-103 | A new writer has an empty body. |
| BodyCapture.Write | internal/api/logger.go:91-96 | A write appends what fits and reports the number of bytes taken. |
| BodyCapture.WriteAll | internal/api/logger.go:91-96 | Successive writes keep the writer within its limit. |
| BodyCapture.WriteAllCaptures | internal/api/logger.go:91-96 | Successive writes capture the chunks as the capture function says. |
| BodyCapture.CaptureAllPrefix | internal/api/logger.go:91-124 | Capturing chunk by chunk keeps the first `maxSize` bytes of everything written. |
| BodyCapture.CaptureAllStep | internal/api/logger.go:91-124 | One chunk's capture feeds the next. |
| BodyCapture.WriterKeepsPrefix | internal/api/logger.go:91-103 | A body writer ends with the first `maxSize` bytes of everything written. |
| BodyCapture.NewBodyReader | internal/api/logger.go:126-137 | A new reader has counted no bytes, and records a body exactly when asked to. |
| BodyCapture.Read | internal/api/logger.go:113-124 | A read passes the count and error through, adds the count, and never starts or stops recording. |
| BodyCapture.ReadAll | internal/api/logger.go:113-124 | Successive reads keep the reader within its limit. |
| BodyCapture.ReadAllEffect | internal/api/logger.go:113-124 | Successive reads count every byte and record the capture of the chunks. |
| BodyCapture.ReaderKeepsPrefix | internal/api/logger.go:113-137 | A body reader counts every byte read and records the first `maxSize` of them when asked to. |
| Logger.NewColoredHandler | internal/logger/logger.go:78-110 | Without options: level INFO, the StampMilli layout, colour and no source. Options set source and colour, and set the level and layout when given. |
| Logger.Enabled | internal/logger/logger.go:126-128 | A record passes exactly when its level is at least the handler's level. |
| Logger.EnabledThreshold | internal/logger/logger.go:126-128 | A level is enabled exactly from the configured one upward. |
| Logger.DefaultLevel | internal/logger/logger.go:40-52 | By default INFO passes, and DEBUG and TRACE do not. |
| Logger.WriteStringIf | internal/logger/logger.go:464-469 | The text is appended only when the flag is set. |
| Logger.DeltaText | internal/logger/logger.go:296-303 | A zero offset prints nothing. A positive one gets '+', and a negative one its minus sign. Only digits and signs appear. |
| Logger.FormatIntChars | internal/logger/logger.go:296-303 | A decimal form is digits after an optional minus, which is present exactly for negatives. |
| Logger.DeltaRoundTrip | internal/logger/logger.go:296-303 | The printed offset parses back to the offset. |
| Logger.DeltaTextInjective | internal/logger/logger.go:296-303 | Distinct offsets print differently. |
| Logger.Label | internal/logger/logger.go:261-303 | A label is at least four runes long, and its first letter names the band: T, D, I, W and E for the five bands, F exactly for FATAL. |
| Logger.LabelExamples | internal/logger/logger.go:261-294 | The labels below TRACE, the five bands, and FATAL as an exception inside the ERROR band. |
| Logger.AppendLevel | internal/logger/logger.go:261-294 | The level is written as its label, wrapped in its colour and a reset unless colour is off. |
| Logger.LabelSplit | internal/logger/logger.go:261-303 | A label is the band's header followed by the offset from the band's base. |
| Logger.LabelInjective | internal/logger/logger.go:261-303 | Distinct levels get distinct labels. |
| Logger.LabelNoEscape | internal/logger/logger.go:261-303 | A label holds no escape character. |
| Logger.HeaderNoEscape | internal/logger/logger.go:261-294 | Band headers hold no escape and are at least four letters long. |
| Logger.HeaderInitial | internal/logger/logger.go:261-294 | A header's first letter identifies the band. |
| Logger.LabelParts | internal/logger/logger.go:261-303 | A label starts with its band's initial and continues with the offset text. |
| Logger.DeltaInRange | internal/logger/logger.go:261-294 | A 64-bit level's offset from its base is also 64-bit. |
| Logger.HasSpecial | internal/logger/logger.go:403-413 | The scan finds a space, quote, '=' or non-printable rune exactly when one occurs. |
| Logger.NeedsQuoting | internal/logger/logger.go:403-413 | Quoting is needed exactly for empty text or text with a special rune. |
| Logger.AppendString | internal/logger/logger.go:395-401 | With quoting on, empty text and text with a special rune are Go-quoted. Other text, or any text with quoting off, is written verbatim. |
| Logger.AppendStringCases | internal/logger/logger.go:395-401 | Quoted text is Go-quoted when it needs quoting, and written verbatim otherwise or when quoting is off. |
| Logger.TokenDelimited | internal/logger/logger.go:395-413 | A written token is never empty. It is quoted or made only of plain runes. |
| Logger.QuoteWrapsPlainText | internal/logger/logger.go:395-401 | Quoting plain printable text only adds the two quotes. |
| Logger.EscapeAllNoEscape | internal/logger/logger.go:395-401 | Escaping leaves no raw escape character. |
| Logger.TokenNoEscape | internal/logger/logger.go:395-413 | A written token holds no raw escape character. |
| Logger.AppendKey | internal/logger/logger.go:345-350 | A key is the group prefix and key as one token, followed by '='. With colour, this sits between the faint code and a reset. |
| Logger.AttrTextShape | internal/logger/logger.go:315-343 | A string attribute is the key token, '=', the value token and a space. With colour, the key and '=' are faint. |
| Logger.RenderAttrs | internal/logger/logger.go:228-243 | Rendering is empty exactly when there are no attributes. Otherwise it ends with a space. |
| Logger.RenderAttrsAppend | internal/logger/logger.go:228-243 | Rendering a list of attributes is rendering each part in turn. |
| Logger.RenderAttrsNoEscape | internal/logger/logger.go:228-243 | Rendering without colour writes no escape character. |
| Logger.WithAttrs | internal/logger/logger.go:228-243 | No attributes give the same handler. Otherwise only the attribute prefix grows, keeping the old prefix in front. |
| Logger.WithAttrsTwice | internal/logger/logger.go:228-243 | Adding attributes in two steps equals adding them in one. |
| Logger.WithGroup | internal/logger/logger.go:245-253 | An empty name gives the same handler. Otherwise the name is appended to the groups, and with a dot to the group prefix. Nothing else changes. |
| Logger.GroupPrefixDotted | internal/logger/logger.go:245-253 | The group prefix is the groups, each followed by a dot, as long as `groups` is a private copy (see Left out). |
| Logger.DerivedWellformed | internal/logger/logger.go:228-253 | Derived handlers keep the prefix invariant (for a private `groups` list, see Left out) and colourless escape-freedom. |
| Logger.AttrsUnderGroup | internal/logger/logger.go:228-253 | An attribute added under a group is written with the dotted group path before its key. |
| ConfigTags.LowerRun | internal/config/tags.go:782 | The lowercase run at the start is maximal. |
| ConfigTags.MatchFirstCap | internal/config/tags.go:782 | The first replacement keeps the first rune and at most doubles the length. It never shortens the text. |
| ConfigTags.MatchAllCap | internal/config/tags.go:783 | The second replacement keeps the first rune and at most doubles the length. It never shortens the text. |
| ConfigTags.ToSnakeCase | internal/config/tags.go:785-789 | Snake case has no capitals. |
| ConfigTags.ToKebabCase | internal/config/tags.go:791-793 | Kebab case has no underscores. |
| ConfigTags.ToScreamingSnakeCase | internal/config/tags.go:795-797 | Screaming snake case has no lowercase letters. |
| ConfigTags.SnakeOnlyInsertsUnderscores | internal/config/tags.go:782-789 | Without underscores, the snake case is the lowercased input without underscores. |
| ConfigTags.StripFirstCap | internal/config/tags.go:782-787 | The first replacement only inserts underscores. |
| ConfigTags.StripAllCap | internal/config/tags.go:783-788 | The second replacement only inserts underscores. |
| ConfigTags.StripLower | internal/config/tags.go:788 | Lower-casing commutes with dropping underscores. |
| ConfigTags.StripAppend | internal/config/tags.go:785-789 | Dropping underscores distributes over concatenation. |
| ConfigTags.StripMatchStep | internal/config/tags.go:782-787 | An inserted underscore vanishes when underscores are dropped. |
| ConfigTags.KebabFromScreaming | internal/config/tags.go:791-797 | Kebab case is screaming snake case lowercased, with dashes for underscores. |
| ConfigTags.FirstCapAt | internal/config/tags.go:782 | At a match, the first replacement puts '_' before the capitalised word. |
| ConfigTags.FirstCapSkip | internal/config/tags.go:782 | Where no match starts, the rune is copied. |
| ConfigTags.FirstCapPlain | internal/config/tags.go:782 | Text with no capital after its first rune is unchanged by the first replacement. |
| ConfigTags.AllCapPlain | internal/config/tags.go:783 | Text with no lowercase letter or digit before a capital is unchanged by the second replacement. |
| ConfigFlags.FlagName | internal/config/tags.go:94-97 | The `name` tag, when present, is the flag name. |
| ConfigFlags.EnvName | internal/config/tags.go:99-110 | The environment is disabled exactly when the options disable it or the `env` tag is `-`; a disabled environment has no name. Otherwise the `env` tag, when present, is the name. |
| ConfigFlags.CliRequired | internal/config/tags.go:124-137 | An empty `cli` tag follows the inherited default. A single option makes the field required when it is `required`, or when it is not `optional` and the default requires it. |
| ConfigFlags.CommonOptions | internal/config/tags.go:139-147 | The shared settings keep the category and usage text. A disabled environment gives no variable. Without a `cli` tag, the default decides required-ness. |
| ConfigFlags.GeneratedNameShapes | internal/config/tags.go:86-110 | A generated flag name starts with the flag prefix and a dash, and a generated environment name with the environment prefix and an underscore. Without a prefix, a generated flag name has no underscore and a generated environment name no lowercase letter. A nested struct's prefixes extend its parent's. |
| ConfigFlags.ChildOptions | internal/config/tags.go:185-207 | A nested struct's category is the field name. Its environment is disabled by the parent or by `env:"-"`. Without a `cli` tag it inherits required-ness. Already-present defaults are not inherited. |
| ConfigFlags.MakeFlag | internal/config/tags.go:617-648 | A flag is required only when asked to be, has no default and is not boolean. Its environment source is dropped when the environment is disabled. |
| ConfigFlags.ScalarFlagKind | internal/config/tags.go:210-615 | A scalar type is accepted by the corrected dispatch, and by the as-written one unless it is `int64`. An accepted type gets a flag writing to its own type. A non-scalar kind is unsupported. Any other failure is the cast error for the field. |
| ConfigFlags.NamedInt64Fails | internal/config/tags.go:210-615 | A defined int64 type fails the duration cast as written, and the int64 cast corrected. |
| ConfigFlags.Int64AsWrittenFails | internal/config/tags.go:210-214 | As written, an int64 field reaches the duration case and fails its cast. The corrected dispatch gives it an int64 flag. |
| ConfigFlags.AsWrittenAgreesElsewhere | internal/config/tags.go:210-615 | On every type but int64, the as-written and corrected dispatches agree. |
| ConfigFlags.ParseField | internal/config/tags.go:81-615 | An unexported field is an error. Every flag produced is sound. A disabled environment yields no environment sources. |
| ConfigFlags.LeafFlags | internal/config/tags.go:155-615 | A slice or scalar field yields exactly one sound flag, with no environment source when the environment is disabled. |
| ConfigFlags.NamedTypesFail | internal/config/tags.go:155-615 | A field of a defined type such as `type Mode string` fails its pointer cast under both dispatches. |
| ConfigFlags.Int64FieldAsWritten | internal/config/tags.go:210-214 | As written, a configuration with an `int64` field is refused with "failed to cast *time.Duration". |
| ConfigFlags.ScalarWithoutDefault | internal/config/tags.go:210-615 | An accepted scalar field without a default yields one flag with its shared settings, its kind and no value. |
| ConfigFlags.TwoScalarFields | internal/config/tags.go:53-62 | A struct of two accepted scalar fields without defaults yields their two flags in field order. |
| ConfigFlags.Int64FieldCorrected | internal/config/tags.go:210-615 | With the corrected dispatch, an `int64` field gets an int64 flag and a duration field a duration flag. |
| ConfigFlags.ParseFields | internal/config/tags.go:53-62 | Fields are parsed in order. The walk succeeds exactly when every field does. |
| ConfigFlags.ParseFlags | internal/config/tags.go:34-63 | A nil, non-pointer or non-struct configuration is refused, each with its own error; a typed nil pointer gets the struct error. Otherwise its fields are walked. |
| ConfigFlags.ScalarFlagNames | internal/config/tags.go:86-110 | The flag name is the `name` tag or the prefixed kebab case of the field name. The environment variable is the `env` tag (`-` disables it) or the prefixed screaming snake case. |
| ConfigFlags.FlagNameFollowsEnv | internal/config/tags.go:86-110 | With matching prefixes, the flag name is the environment name lowercased with dashes. |
| ConfigFlags.PrefixesCorrespond | internal/config/tags.go:86-92 | Prefixing commutes with the environment-to-flag spelling. |
| ConfigFlags.ChildPrefixesCorrespond | internal/config/tags.go:185-208 | A nested struct keeps flag and environment prefixes corresponding. |
| ConfigFlags.CliRequiredOptions | internal/config/tags.go:124-137 | A field is required when `cli` lists `required`, or when it does not list `optional` and fields are required by default. |
| ConfigFlags.ScalarRequired | internal/config/tags.go:124-137 | A scalar without a default is required exactly under that rule, and never when boolean. |
| ConfigFlags.ScalarDefault | internal/config/tags.go:210-263 | A `default` tag becomes the flag's value and makes it optional. A string default is taken verbatim. A non-string default that does not parse is an error; its message is abstracted. |
| ConfigFlags.CurrentValueIsDefault | internal/config/tags.go:116-120 | When values are already present, the current value is the default and the flag is optional. |
| ConfigFlags.SliceDefault | internal/config/tags.go:155-183 | A string slice default is split at commas, which rejoin to the tag. |
| ConfigFlags.Unsupported | internal/config/tags.go:155-183 | A non-string slice and an unknown type are refused. |
| ConfigFlags.NestedOptions | internal/config/tags.go:185-208 | A nested struct walks its fields under its own category and prefixes. Its `env` tag of `-` disables the environment. It inherits required-ness, and not the already-present defaults. |
| ConfigFlags.EnvDashDisablesNested | internal/config/tags.go:185-208 | Under `env:"-"`, no nested flag reads the environment. |
| ConfigFlags.NestedFieldNames | internal/config/tags.go:185-208 | A nested field's names are the parent's tags joined to its own kebab and screaming names. |
| ConfigFlags.FirstError | internal/config/tags.go:53-59 | The walk returns the error of the first failing field. |
| ConfigFlags.ParseFieldsAppend | internal/config/tags.go:53-62 | The flags of consecutive fields concatenate. |
| ConfigFlags.TwoFields | internal/config/tags.go:53-62 | Two fields that parse give their flags in order. |
| ConfigFlags.ParseFieldsCons | internal/config/tags.go:53-62 | The first field's flags come first. |
| ConfigExamples.SnakeThreeWords | internal/config/tags.go:782-789 | Three capitalised words become three lowercase words joined by underscores. |
| ConfigExamples.FirstCapThreeWords | internal/config/tags.go:782 | The first replacement splits off the second word only. The third is adjacent to the match and left for the second replacement. |
| ConfigExamples.AllCapThreeWords | internal/config/tags.go:783 | The second replacement splits off the third word. |
| ConfigExamples.FirstCapPlainPrefix | internal/config/tags.go:782 | A prefix with no match is copied by the first replacement. |
| ConfigExamples.AllCapPlainPrefix | internal/config/tags.go:783 | A prefix with no match is copied by the second replacement. |
| ConfigExamples.CapitalsStayOneWord | internal/config/tags.go:782-789 | An all-capitals name becomes one lowercase word. |
| ConfigExamples.MaxIdleConnsExample | internal/config/tags.go:785-789 | `MaxIdleConns` becomes `max_idle_conns`. |
| ConfigExamples.JwtKidExample | internal/config/tags.go:785-789 | `JWTKID` becomes `jwtkid`. |
| ConfigExamples.DatabaseUrlExample | internal/config/tags.go:185-208 | A `Database` struct tagged `flag:"db" env:"DB"` gives its `URL` field the flag `db-url` and the variable `DB_URL`. |
| ConfigCli.UnquoteUsage | internal/config/cli.go:139-153 | The placeholder holds no backtick. When one is found, the usage loses exactly its two backticks. |
| ConfigCli.UnquoteQuoted | internal/config/cli.go:139-153 | A placeholder between the first two backticks is returned, and the usage is given back without the backticks. |
| ConfigCli.UnquoteUnpaired | internal/config/cli.go:139-153 | Without a backtick pair, there is no placeholder and the usage is unchanged. |
| ConfigCli.PrefixFor | internal/config/cli.go:177-185 | One dash exactly for a single ASCII rune, and two otherwise. |
| ConfigCli.OneByteName | internal/config/cli.go:177-185 | A name is one byte exactly when it is a single ASCII rune. |
| ConfigCli.PrefixedNames | internal/config/cli.go:159-175 | The loop builds the rendered names. |
| ConfigCli.NamePiece | internal/config/cli.go:163-172 | One name renders as prefix, name, optional placeholder, and a comma when not last. |
| ConfigCli.RenderedJoins | internal/config/cli.go:159-175 | With no empty name, the names are their entries joined by ", ". |
| ConfigCli.TrailingSeparator | internal/config/cli.go:159-175 | An empty last name leaves a trailing ", ". |
| ConfigCli.Entries | internal/config/cli.go:163-172 | One entry per name, in order. |
| ConfigCli.FormatDefault | internal/config/cli.go:155-157 | The default hint is the value between ` [default: ` and `]`. |
| ConfigCli.EnvFormat | internal/config/cli.go:201-206 | No variables give no hint. Otherwise the hint opens with ` [env: ` and closes with `]`. |
| ConfigCli.DefaultEnvHint | internal/config/cli.go:187-199 | The default hint lists the variables joined by ", ". |
| ConfigCli.WindowsEnvHint | internal/config/cli.go:187-195 | On the Windows prompt, each variable appears as %NAME%. |
| ConfigCli.PercentJoin | internal/config/cli.go:187-195 | Wrapping the whole joined list equals wrapping each variable. |
| ConfigCli.PercentAll | internal/config/cli.go:187-195 | Each variable is wrapped in percent signs. |

## Left out

- Database access through SQL (create, the email and username lookups, `UpdateLastLogin`) is abstract. Lookups are function parameters and the table is a map.
- Redis itself is not modelled. For the positive whole-second TTLs the repository uses (31 days and 6 hours), a Redis backend is the same cache with Redis's not-found error, `redis.Nil`. Redis treats a zero expiration as "no expiry" and keeps millisecond precision; neither is modelled.
- The memory cache stores the `%v` text of a value. The model's values are that text already: the repository's `int64` timestamps as decimal text.
- `NewJwtBackend`'s PEM key parsing is not modelled. Ed25519 signing and verification, JSON and base64url are function parameters, constrained by laws in `Jwt.Lawful` and `Jwt.KeyPair`.
- jwt/v5's claim validation is modelled for `exp` only (`Jwt.Valid`). The backend never sets `nbf`, `iss`, `sub`, `aud` or `jti`, and `iat` is not checked by default.
- Jwt.ClaimsFor: the source writes `ID: payload.ID`, but the payload's field is `Id` and the claim structure's `ID` is the registered `jti` string. The model copies the id into the `id` claim, as the decoder and `UserPayloadFromUserClaims` read it.
- Jwt.ObjectRoundTrip: JSON numbers are integers here. `jwt.NumericDate`'s fractional seconds are not modelled, because the default precision is one second.
- Password.Compare: `passwordManager` declares no `Compare` method of its own. The model delegates to its comparer `c`, which is the only comparer it holds.
- PBKDF2-SHA256 and standard base64 decoding are function parameters. The bcrypt comparer is not part of this model.
- JSON binding and rendering, HTTP routing, and middleware wiring are not modelled. The request logger's line formatting and `slog` output are not modelled either. Only the body capture is.
- The logger's `Handle` is not modelled. It writes whole records through a mutex and an `io.Writer`.
- The logger does not model time formatting (`appendTime`), source locations (`appendSource`), `tintError`, or the attribute-replacement hook.
- Logger.AttrTextShape: attribute values are strings. Nested group attributes and the other value kinds are not modelled, nor is `appendValue`'s formatting of numbers, times and `TextMarshaler`s.
- Logger.WithGroup: the model's `groups` is what a private copy of the list would hold. In the source, `append` (logger.go line 251) may write into an array that handlers derived from the same parent share, because `clone` copies only the slice header (line 116). Two group derivations from one parent can then overwrite each other's last group, and `groups` no longer spells `groupPrefix`. The group prefix, a string, is never affected. `groups` is read only by the replace-attribute hook, which is not modelled.
- Logger.Enabled: the source compares against `opts.Level`, a `slog.Leveler` whose level may change while the handler runs. The model fixes the level when the handler is built.
- `unicode.IsPrint` is a parameter `isPrint`, because the Unicode tables are not modelled. `unicode.IsSpace` is modelled on its list of space runes.
- Case mapping (`strings.ToLower` / `ToUpper`) is ASCII only.
- ConfigFlags.ParseField: typed default parsing is a parameter `parses(type, text)`. This covers `strconv.ParseInt` and the others, `time.ParseDuration` and `strconv.ParseFloat`. A default keeps its text.
- ConfigFlags.ParseField: the reflection walk runs over a description of the struct. The configuration's Go type is not modelled beyond its kind, and the `usage` tag is carried as text without any check.
- ConfigFlags.ParseField: pointer fields are not represented; `FieldType` has no pointer case, and such a field can only be described as an unsupported type. The source (tags.go lines 149-152) dereferences a non-nil pointer field and builds the flag of the value it points to; on a nil pointer, `v.Addr()` panics.
- ApiWrapper.Respond: the 500 case also writes the error to the standard logger (`log.Println`, wrapper.go line 33). Logging is a side effect outside the response and is not modelled.
- ConfigFlags.ScalarDefault: a default that does not parse gives `BadDefault(field)`. The source's message names the field only for durations (tags.go lines 225-228); the other cases return strconv's error unchanged, which names the text.
- ConfigFlags.ScalarFlagKind: a defined type such as `type Mode string` fails its pointer cast under both dispatches, as in the source. The corrected dispatch repairs only the `int64` case.
- The per-type flag constructors (`stringFlag` through `durationFlag`) are folded into `ConfigFlags.MakeFlag`, which keeps their shared fields.
- `CustomizeCLI` and `customStringer` are not modelled. They install the help printer and format whole flag descriptions using `urfave/cli` internals. Whether the shell is the Windows command prompt is the parameter `windowsPrompt` of `ConfigCli.WithEnvHint`.
- UserRepo.ActivateMassLogout, UserRepo.DeactivateMassLogout, UserRepo.Kick and UserRepo.Unkick: the source drops the cache's write error and always returns nil (user.go lines 148, 152, 168 and 173). The model's cache writes cannot fail, and these members report no error.
- UserRepo.GetMassLogout, UserRepo.IsKicked and UserRepo.WasRecentlyBanned treat only `redis.Nil` as "absent", as the source does. The memory cache of test mode answers with its own `ErrNil`, so there an absent key is an error (`UserRepo.MemoryBackendAbsentIsError`). Test mode is not the deployed configuration, so no corrected reading is modelled.
- LogPool.Next: the source indexes an empty pool and panics. The model returns `None` there.
- Password.NewPasswordManager: the source panics with no comparers. The model returns an error.
- Password.DjangoCompare: a record with the PBKDF2 tag and fewer than four `$` fields makes the source panic on an index. The model returns `Panicked`.
- Integer widths: user ids are `int32`, a subset type. Timestamps and levels are checked against the 64-bit range where the source converts to `int64`. Unix seconds use floor division, which agrees with Go's `Time.Unix` for every instant, before 1970 included.

## Findings

| source | as written | input that shows it | evidently intended | confidence | as-written member | corrected member |
|---|---|---|---|---|---|---|
| internal/password/password.go:27-35 | The combined comparer returns success as soon as one comparer returns an error. It returns "wrong password" only when every comparer accepts. | Two plaintext comparers, stored `a`, given `a`: rejected. Given `b`: accepted. | Succeed as soon as one comparer accepts; otherwise "wrong password". | high, not executed | Password.CombinedCompare, Password.CombinedInverted | Password.CombinedCompareIntended |
| internal/config/tags.go:210-237 | The duration case is keyed on `reflect.TypeOf(time.Duration(0)).Kind()`, which is `reflect.Int64`, and it comes before the int64 case at line 380. An `int64` field reaches it, fails the cast to `*time.Duration`, and the int64 case is unreachable. | A configuration struct with a field of type `int64`: ParseFlags returns "failed to cast *time.Duration". | Durations get a duration flag and `int64` fields get an int64 flag. | high, not executed | ConfigFlags.Int64FieldAsWritten, ConfigFlags.Int64AsWrittenFails | ConfigFlags.Int64FieldCorrected, ConfigFlags.ScalarFlagKind |
| internal/token/claims.go:14-22 | The claim structure declares its own `Iat` and `Exp` fields with the JSON names `iat` and `exp`, beside the embedded `jwt.RegisteredClaims`. encoding/json keeps the shallower fields, so the `IssuedAt` and `ExpiresAt` that `Encode` sets are never written. Tokens carry `iat` and `exp` of 0, decode with no expiry, and jwt/v5 accepts them forever. | Any issued token, decoded after its `expiration` has passed: it is accepted. | The registered dates are written, and a token is refused once it has expired. | high, not executed | Jwt.RoundTripAsWritten, Jwt.WrongTypeRejected | Jwt.RoundTripIntended |

=== FILE: admin_service.dfy ===
/** The admin service: mass-logout status and the per-user actions, each guarded by a lookup of
    the user id. The service state is the user directory together with the cache. */
module AdminService {
  import opened Wrappers
  import opened Entity
  import opened MemoryCache
  import UserRepo
  import Strconv

  datatype State = State(dir: UserRepo.Directory, cache: Cache)

  datatype AdminError = UserNotFound | RepoFailure(cause: UserRepo.RepoError)

  /** `date` is the cutover in Unix seconds. */
  datatype MassLogoutStatus = MassLogoutStatus(active: bool, date: Option<int>)

  /** The zero status: no cutover. */
  const Inactive := MassLogoutStatus(false, None)

  /** Mass logout stays in force for 31 days. */
  const MassLogoutTtl := 60 * 60 * 24 * 31 * NanosPerSecond

  /** The per-user actions the service offers. */
  datatype Action = BanUser | UnbanUser | KickUser | UnkickUser

  function GetMassLogout(s: State, now: int): (r: (MassLogoutStatus, Option<AdminError>))
    ensures r.1.Some? ==> r.0 == Inactive
    ensures r.0.active <==> r.0.date.Some?
  {
    match UserRepo.GetMassLogout(s.cache, now)
    case Err(e) => (Inactive, Some(RepoFailure(e)))
    case Ok(None) => (Inactive, None)
    case Ok(Some(t)) => (MassLogoutStatus(true, Some(t)), None)
  }

  /** Activate mass logout for the fixed 31-day TTL. */
  function ActivateMassLogout(s: State, now: int): (r: (State, Option<AdminError>))
    ensures r.0.dir == s.dir
  {
    var (c, e) := UserRepo.ActivateMassLogout(s.cache, MassLogoutTtl, now);
    (s.(cache := c), if e.Some? then Some(RepoFailure(e.value)) else None)
  }

  function DeactivateMassLogout(s: State): (r: (State, Option<AdminError>))
    ensures r.0.dir == s.dir
  {
    var (c, e) := UserRepo.DeactivateMassLogout(s.cache);
    (s.(cache := c), if e.Some? then Some(RepoFailure(e.value)) else None)
  }

  /** The repository operation an action stands for, and nothing else: ban flags touch only the
      directory, kick flags only the cache. */
  function Run(s: State, a: Action, id: Int32, now: int): (r: (State, Option<UserRepo.RepoError>))
    ensures a.BanUser? || a.UnbanUser? ==> r.0.cache == s.cache
    ensures a.KickUser? || a.UnkickUser? ==> r.0.dir == s.dir
  {
    match a
    case BanUser => var (d, e) := UserRepo.Ban(s.dir, id); (s.(dir := d), e)
    case UnbanUser => var (d, e) := UserRepo.Unban(s.dir, id); (s.(dir := d), e)
    case KickUser => var (c, e) := UserRepo.Kick(s.cache, id, now); (s.(cache := c), e)
    case UnkickUser => var (c, e) := UserRepo.Unkick(s.cache, id); (s.(cache := c), e)
  }

  /** Look the id up first: a lookup error or an unknown id is returned without running the
      action; for a known id the outcome is the action's. */
  function ActionOnId(s: State, id: Int32, a: Action, now: int): (r: (State, Option<AdminError>))
    ensures UserRepo.Get(s.dir, id).Err? ==> r == (s, Some(RepoFailure(UserRepo.Get(s.dir, id).error)))
    ensures UserRepo.Get(s.dir, id) == Ok(None) ==> r == (s, Some(UserNotFound))
    ensures r.1 == Some(UserNotFound) <==> s.dir.fault.None? && id !in s.dir.users
    ensures s.dir.fault.None? && id in s.dir.users ==>
              r.0 == Run(s, a, id, now).0
              && (r.1.None? <==> Run(s, a, id, now).1.None?)
  {
    match UserRepo.Get(s.dir, id)
    case Err(e) => (s, Some(RepoFailure(e)))
    case Ok(None) => (s, Some(UserNotFound))
    case Ok(Some(_)) =>
      var (s2, e) := Run(s, a, id, now);
      (s2, if e.Some? then Some(RepoFailure(e.value)) else None)
  }

  /** Ban a known user: clears only that user's `active` flag; the cache is not touched. */
  function Ban(s: State, id: Int32, now: int): (r: (State, Option<AdminError>))
    ensures r.1 == Some(UserNotFound) <==> s.dir.fault.None? && id !in s.dir.users
    ensures r.0.cache == s.cache && r.0.dir.users.Keys == s.dir.users.Keys
    ensures s.dir.fault.None? && id in s.dir.users ==> r.1 == None && !r.0.dir.users[id].active
  {
    ActionOnId(s, id, BanUser, now)
  }

  /** Unban a known user: sets only that user's `active` flag; the cache is not touched. */
  function Unban(s: State, id: Int32, now: int): (r: (State, Option<AdminError>))
    ensures r.1 == Some(UserNotFound) <==> s.dir.fault.None? && id !in s.dir.users
    ensures r.0.cache == s.cache && r.0.dir.users.Keys == s.dir.users.Keys
    ensures s.dir.fault.None? && id in s.dir.users ==> r.1 == None && r.0.dir.users[id].active
  {
    ActionOnId(s, id, UnbanUser, now)
  }

  /** Kick a known user: stores that user's kick flag; the directory is not touched. */
  function Kick(s: State, id: Int32, now: int): (r: (State, Option<AdminError>))
    ensures r.1 == Some(UserNotFound) <==> s.dir.fault.None? && id !in s.dir.users
    ensures r.0.dir == s.dir
    ensures s.dir.fault.None? && id in s.dir.users ==>
              r.1 == None && UserRepo.IsKicked(r.0.cache, id, now) == Ok(true)
  {
    ActionOnId(s, id, KickUser, now)
  }

  /** Unkick a known user: removes that user's kick flag; the directory is not touched. */
  function Unkick(s: State, id: Int32, now: int): (r: (State, Option<AdminError>))
    ensures r.1 == Some(UserNotFound) <==> s.dir.fault.None? && id !in s.dir.users
    ensures r.0.dir == s.dir
    ensures s.dir.fault.None? && id in s.dir.users ==>
              r.1 == None && UserRepo.KickKey(id) !in r.0.cache.records
  {
    ActionOnId(s, id, UnkickUser, now)
  }

  lemma MassLogoutTtlIs31Days()
    ensures MassLogoutTtl == 2_678_400 * NanosPerSecond
  {
  }

  /** The status mirrors the repository's answer: absent is the zero status, present is active
      with that date, an error is the zero status plus the error. */
  lemma StatusFromRepo(s: State, now: int)
    ensures UserRepo.GetMassLogout(s.cache, now) == Ok(None) ==> GetMassLogout(s, now) == (Inactive, None)
    ensures forall t :: UserRepo.GetMassLogout(s.cache, now) == Ok(Some(t)) ==>
              GetMassLogout(s, now) == (MassLogoutStatus(true, Some(t)), None)
    ensures UserRepo.GetMassLogout(s.cache, now).Err? ==>
              GetMassLogout(s, now).1 == Some(RepoFailure(UserRepo.GetMassLogout(s.cache, now).error))
  {
  }

  /** Activate, then read within the 31 days: active, dated at the activation second. */
  lemma ActivateThenStatus(s: State, now: int, later: int)
    requires Strconv.IsInt64(UserRepo.UnixSeconds(now))
    requires later <= now + MassLogoutTtl
    ensures GetMassLogout(ActivateMassLogout(s, now).0, later)
         == (MassLogoutStatus(true, Some(UserRepo.UnixSeconds(now))), None)
  {
    UserRepo.ActivateThenGet(s.cache, MassLogoutTtl, now, later);
  }

  /** Deactivate, then read: inactive on a cache whose not-found is `RedisNil`, but an error on
      the in-memory backend. */
  lemma DeactivateThenStatus(s: State, later: int)
    ensures s.cache.notFound == RedisNil ==>
              GetMassLogout(DeactivateMassLogout(s).0, later) == (Inactive, None)
    ensures s.cache.notFound == MemoryNil ==>
              GetMassLogout(DeactivateMassLogout(s).0, later)
              == (Inactive, Some(RepoFailure(UserRepo.CacheFailure(MemoryNil))))
  {
    UserRepo.DeactivateThenGet(s.cache, later);
  }

  /** An unknown id changes nothing, whatever the action. */
  lemma UnknownIdChangesNothing(s: State, id: Int32, a: Action, now: int)
    requires s.dir.fault.None? && id !in s.dir.users
    ensures ActionOnId(s, id, a, now) == (s, Some(UserNotFound))
  {
  }

  /** Banning a known user deactivates exactly that user and leaves the cache, so the ban flag
      read by WasRecentlyBanned is not set by a ban. */
  lemma BanDeactivates(s: State, id: Int32, now: int, later: int)
    requires s.dir.fault.None? && id in s.dir.users
    ensures Ban(s, id, now).1 == None
    ensures UserRepo.Get(Ban(s, id, now).0.dir, id) == Ok(Some(s.dir.users[id].(active := false)))
    ensures UserRepo.Get(Unban(s, id, now).0.dir, id) == Ok(Some(s.dir.users[id].(active := true)))
    ensures UserRepo.WasRecentlyBanned(Ban(s, id, now).0.cache, id, later)
         == UserRepo.WasRecentlyBanned(s.cache, id, later)
  {
  }

  /** Kicking a known user makes IsKicked true for six hours; unkicking clears it. */
  lemma KickThenIsKicked(s: State, id: Int32, now: int, later: int)
    requires s.dir.fault.None? && id in s.dir.users
    ensures Kick(s, id, now).1 == None
    ensures later <= now + UserRepo.KickTtl ==>
              UserRepo.IsKicked(Kick(s, id, now).0.cache, id, later) == Ok(true)
    ensures UserRepo.IsKicked(Unkick(s, id, now).0.cache, id, later)
         == UserRepo.PresenceFromReply(Some(s.cache.notFound))
  {
    assert UserRepo.Get(s.dir, id) == Ok(Some(s.dir.users[id]));
    assert Kick(s, id, now).0.cache == UserRepo.Kick(s.cache, id, now).0;
    assert Unkick(s, id, now).0.cache == UserRepo.Unkick(s.cache, id).0;
    UserRepo.KickThenIsKicked(s.cache, id, now, later);
    UserRepo.UnkickThenIsKicked(s.cache, id, later);
  }
}

=== FILE: api_wrapper.dfy ===
/** The mapping from a handler's error to the HTTP response, as a first-match table. */
module ApiWrapper {
  import opened Wrappers

  /** The sentinel errors the table tests for. */
  datatype Sentinel =
    | InvalidPathParamType
    | UserNotFound
    | InvalidCaptcha
    | UserAlreadyExistsEmail
    | UserAlreadyExistsUsername
    | UserPasswordNotSet
    | UserNotActive
    | PasswordVerification

  /** A handler error: its text, and every sentinel that `errors.Is` finds in its chain. */
  datatype HandlerError = HandlerError(text: string, matches: set<Sentinel>)

  datatype Response = Response(status: int, body: string)

  const StatusBadRequest := 400
  const StatusUnauthorized := 401
  const StatusNotFound := 404
  const StatusInternalServerError := 500

  /** The sentinels that get a 400 with the error text, after the first two rows. */
  predicate IsConflictOrInput(s: Sentinel)
  {
    s.InvalidCaptcha? || s.UserAlreadyExistsEmail? || s.UserAlreadyExistsUsername? || s.UserPasswordNotSet?
  }

  predicate IsAuthFailure(s: Sentinel)
  {
    s.UserNotActive? || s.PasswordVerification?
  }

  /** The rows, tried top to bottom. A nil error writes no response. */
  function Respond(err: Option<HandlerError>): (r: Option<Response>)
    ensures r.None? <==> err.None?
    ensures r.Some? ==> r.value.status in {StatusBadRequest, StatusUnauthorized, StatusNotFound, StatusInternalServerError}
    ensures r.Some? && r.value.status == StatusBadRequest ==> r.value.body == err.value.text
    ensures r.Some? && r.value.status == StatusUnauthorized ==> r.value.body == "Unauthorized"
    ensures r.Some? && r.value.status == StatusNotFound ==> r.value.body == "Not found"
    ensures r.Some? && r.value.status == StatusInternalServerError ==> r.value.body == "Internal server error"
  {
    match err
    case None => None
    case Some(e) =>
      var m := e.matches;
      if InvalidPathParamType in m then Some(Response(StatusBadRequest, e.text))
      else if UserNotFound in m then Some(Response(StatusNotFound, "Not found"))
      else if InvalidCaptcha in m then Some(Response(StatusBadRequest, e.text))
      else if UserAlreadyExistsEmail in m || UserAlreadyExistsUsername in m || UserPasswordNotSet in m
      then Some(Response(StatusBadRequest, e.text))
      else if UserNotActive in m || PasswordVerification in m then Some(Response(StatusUnauthorized, "Unauthorized"))
      else Some(Response(StatusInternalServerError, "Internal server error"))
  }

  /** The status as a function of the matched sentinels, by priority. */
  lemma StatusByPriority(e: HandlerError)
    ensures var r := Respond(Some(e)).value;
            && (InvalidPathParamType in e.matches ==> r == Response(StatusBadRequest, e.text))
            && (InvalidPathParamType !in e.matches && UserNotFound in e.matches ==> r == Response(StatusNotFound, "Not found"))
            && (InvalidPathParamType !in e.matches && UserNotFound !in e.matches
                && (exists s :: s in e.matches && IsConflictOrInput(s))
                ==> r == Response(StatusBadRequest, e.text))
            && ((forall s :: s in e.matches ==> IsAuthFailure(s)) && e.matches != {}
                ==> r == Response(StatusUnauthorized, "Unauthorized"))
            && (e.matches == {} ==> r == Response(StatusInternalServerError, "Internal server error"))
  {
    if exists s :: s in e.matches && IsConflictOrInput(s) {
      var s :| s in e.matches && IsConflictOrInput(s);
    }
    if (forall s :: s in e.matches ==> IsAuthFailure(s)) && e.matches != {} {
      var s :| s in e.matches;
    }
  }

  /** The two authentication failures give identical responses, whatever their texts. */
  lemma AuthFailuresIndistinguishable(t1: string, t2: string)
    ensures Respond(Some(HandlerError(t1, {UserNotActive})))
         == Respond(Some(HandlerError(t2, {PasswordVerification})))
  {
  }

  /** Only the 400 rows reveal the error's text. */
  lemma TextOnlyIn400(e1: HandlerError, e2: HandlerError)
    requires e1.matches == e2.matches
    requires Respond(Some(e1)).value.status != StatusBadRequest
    ensures Respond(Some(e1)) == Respond(Some(e2))
  {
  }
}

=== FILE: auth_model.dfy ===
/** Registration input checks: the e-mail address, the username and the password pair, each
    with a fixed order of checks, and the projection of a user onto the `Me` view.

    Texts are sequences of runes; Go's `len` on a string is its UTF-8 byte length. */
module AuthModel {
  import opened Wrappers
  import opened Entity
  import Unicode
  import GoStrings
  import EmailPattern

  datatype RegisterRequest = RegisterRequest(
    email: string,
    username: string,
    password1: string,
    password2: string,
    captcha: string)

  datatype EmailError = EmailEmpty | EmailMissingSeparator | EmailLength | EmailWrong

  /** `UsernameMustContainLetter` is declared but never reported. */
  datatype UsernameError =
    | UsernameForbidden
    | UsernameForbiddenChar
    | UsernameLength
    | UsernameMustContainLetter
    | UsernameDifferentLetters

  datatype PasswordError = PasswordMismatch | PasswordLength | PasswordForbiddenChar

  /** The first failing check of a registration, by field. */
  datatype ValidationError =
    | InvalidEmail(emailError: EmailError)
    | InvalidUsername(usernameError: UsernameError)
    | InvalidPassword(passwordError: PasswordError)

  /** Byte limits of the local part and of the text after the '@' (sections 4.5.3.1.1 and
      4.5.3.1.2 of RFC 5321). */
  const MaxUserPartLen := 64
  const MaxDomainPart := 255

  const ForbiddenUsernames: seq<string> := ["admin", "moderator"]

  const UsernameMinLength := 4
  const UsernameMaxLength := 20
  const PasswordMinLength := 6
  const PasswordMaxLength := 32

  // ---- e-mail ----

  /** Trim, then: empty, no '@', local part over 64 bytes or the rest over 255 bytes, pattern
      miss; on success the trimmed address. */
  function ValidateEmail(email: string): (r: Result<string, EmailError>)
    ensures var e := GoStrings.TrimSpace(email);
            && (r == Err(EmailEmpty) <==> e == [])
            && (r == Err(EmailMissingSeparator) <==> e != [] && '@' !in e)
            && (r.Ok? ==> r.value == e && EmailPattern.MatchEmail(e))
            && (e != [] && '@' in e ==>
                  var at := GoStrings.Find(e, '@');
                  var fits := Unicode.ByteLen(e[..at]) <= MaxUserPartLen && Unicode.ByteLen(e[at + 1..]) <= MaxDomainPart;
                  && (r == Err(EmailLength) <==> !fits)
                  && (r == Err(EmailWrong) <==> fits && !EmailPattern.MatchEmail(e))
                  && (r.Ok? <==> fits && EmailPattern.MatchEmail(e)))
  {
    var e := GoStrings.TrimSpace(email);
    if e == [] then Err(EmailEmpty)
    else if '@' !in e then Err(EmailMissingSeparator)
    else
      GoStrings.SplitNTwo(e, '@');
      var parts := GoStrings.SplitN(e, '@', 2);
      if Unicode.ByteLen(parts[0]) > MaxUserPartLen || Unicode.ByteLen(parts[1]) > MaxDomainPart
      then Err(EmailLength)
      else if !EmailPattern.MatchEmail(e) then Err(EmailWrong)
      else Ok(e)
  }

  /** An accepted address is the trimmed input, matches the pattern's grammar, and has exactly
      one '@' followed by a dotted domain. */
  lemma AcceptedEmail(email: string)
    requires ValidateEmail(email).Ok?
    ensures var e := ValidateEmail(email).value;
            && EmailPattern.EmailGrammar(e)
            && (exists at :: 0 < at < |e| && e[at] == '@' &&
                  (forall j :: 0 <= j < |e| && e[j] == '@' ==> j == at) && '.' in e[at + 1..])
  {
    var e := ValidateEmail(email).value;
    EmailPattern.EmailEquivalence(e);
    var at := GoStrings.Find(e, '@');
    assert 0 < at < |e| && e[at] == '@';
  }

  /** Surrounding white space never changes the verdict. */
  lemma EmailTrimIdempotent(email: string)
    ensures ValidateEmail(GoStrings.TrimSpace(email)) == ValidateEmail(email)
  {
    TrimSpaceIdempotent(email);
  }

  lemma TrimSpaceIdempotent(s: string)
    ensures GoStrings.TrimSpace(GoStrings.TrimSpace(s)) == GoStrings.TrimSpace(s)
  {
    var t := GoStrings.TrimSpace(s);
    if t != [] {
      var i := GoStrings.LeadingSpaces(t);
      assert i == 0;
      var j := GoStrings.TrailingSpaces(t);
      assert j == 0;
      assert t[0..][..|t| - 0] == t;
    }
  }

  // ---- username ----

  /** The Latin list: the ASCII letters except 'n' and 'N'. */
  predicate IsLatinAllowed(c: char)
  {
    ('a' <= c <= 'z' || 'A' <= c <= 'Z') && c != 'n' && c != 'N'
  }

  /** The Cyrillic list: the 33 letters of the Russian alphabet in both cases. */
  predicate IsCyrillicAllowed(c: char)
  {
    0x410 <= c as int <= 0x44F || c as int == 0x401 || c as int == 0x451
  }

  predicate IsUsernameRune(c: char)
  {
    IsLatinAllowed(c) || IsCyrillicAllowed(c)
  }

  /** The scan over the runes: the first rune in neither list stops it (`None`); otherwise
      it reports which of the two alphabets occurred. */
  function ScanUsername(s: string, hasEn: bool, hasRu: bool): (r: Option<(bool, bool)>)
    ensures r.None? <==> exists i :: 0 <= i < |s| && !IsUsernameRune(s[i])
    ensures r.Some? ==> r.value.0 == (hasEn || exists i :: 0 <= i < |s| && IsLatinAllowed(s[i]))
    ensures r.Some? ==> r.value.1 == (hasRu || exists i :: 0 <= i < |s| && IsCyrillicAllowed(s[i]))
  {
    if s == [] then Some((hasEn, hasRu))
    else
      var c := s[0];
      if !IsUsernameRune(c) then None
      else
        var r := ScanUsername(s[1..], hasEn || IsLatinAllowed(c), hasRu || IsCyrillicAllowed(c));
        assert forall i :: 1 <= i < |s| ==> s[i] == s[1..][i - 1];
        r
  }

  /** Trim; then a forbidden name, a rune outside both lists, both alphabets, a byte length
      outside 4..20; on success the trimmed name. */
  function ValidateUsername(username: string): (r: Result<string, UsernameError>)
    ensures var u := GoStrings.TrimSpace(username);
            && (r == Err(UsernameForbidden) <==> u in ForbiddenUsernames)
            && (r.Ok? ==> r.value == u)
            && r != Err(UsernameMustContainLetter)
  {
    var u := GoStrings.TrimSpace(username);
    if u in ForbiddenUsernames then Err(UsernameForbidden)
    else
      match ScanUsername(u, false, false)
      case None => Err(UsernameForbiddenChar)
      case Some((hasEn, hasRu)) =>
        if hasEn && hasRu then Err(UsernameDifferentLetters)
        else if Unicode.ByteLen(u) < UsernameMinLength || Unicode.ByteLen(u) > UsernameMaxLength
        then Err(UsernameLength)
        else Ok(u)
  }

  /** Reference: an accepted username is one not forbidden, written in one of the two
      alphabets only, of 4 to 20 bytes. */
  lemma UsernameAccepted(username: string)
    ensures var u := GoStrings.TrimSpace(username);
            ValidateUsername(username).Ok?
            <==> && u !in ForbiddenUsernames
                 && ((forall i :: 0 <= i < |u| ==> IsLatinAllowed(u[i]))
                     || (forall i :: 0 <= i < |u| ==> IsCyrillicAllowed(u[i])))
                 && UsernameMinLength <= Unicode.ByteLen(u) <= UsernameMaxLength
  {
    var u := GoStrings.TrimSpace(username);
    var r := ScanUsername(u, false, false);
    assert forall i :: 0 <= i < |u| ==> !(IsLatinAllowed(u[i]) && IsCyrillicAllowed(u[i]));
  }

  /** The rune check runs before the alphabet check, and both before the length check. */
  lemma UsernameCheckOrder(username: string)
    ensures var u := GoStrings.TrimSpace(username);
            u !in ForbiddenUsernames && (exists i :: 0 <= i < |u| && !IsUsernameRune(u[i]))
            ==> ValidateUsername(username) == Err(UsernameForbiddenChar)
    ensures var u := GoStrings.TrimSpace(username);
            && u !in ForbiddenUsernames
            && (forall i :: 0 <= i < |u| ==> IsUsernameRune(u[i]))
            && (exists i :: 0 <= i < |u| && IsLatinAllowed(u[i]))
            && (exists i :: 0 <= i < |u| && IsCyrillicAllowed(u[i]))
            ==> ValidateUsername(username) == Err(UsernameDifferentLetters)
  {
  }

  lemma {:induction false} ByteLenCyrillic(s: string)
    requires forall i :: 0 <= i < |s| ==> IsCyrillicAllowed(s[i])
    ensures Unicode.ByteLen(s) == 2 * |s|
  {
    if s != [] {
      ByteLenCyrillic(s[1..]);
    }
  }

  /** The length limit counts bytes: a Cyrillic name of ten letters fits, one of eleven does
      not. */
  lemma CyrillicUsernameLength(u: string)
    requires u == GoStrings.TrimSpace(u) && u !in ForbiddenUsernames
    requires forall i :: 0 <= i < |u| ==> IsCyrillicAllowed(u[i])
    ensures ValidateUsername(u).Ok? <==> 2 <= |u| <= 10
  {
    UsernameAccepted(u);
    ByteLenCyrillic(u);
  }

  /** A Latin name may have 4 to 20 letters. */
  lemma LatinUsernameLength(u: string)
    requires u == GoStrings.TrimSpace(u) && u !in ForbiddenUsernames
    requires forall i :: 0 <= i < |u| ==> IsLatinAllowed(u[i])
    ensures ValidateUsername(u).Ok? <==> 4 <= |u| <= 20
  {
    UsernameAccepted(u);
    ByteLenLatin(u);
  }

  lemma ByteLenLatin(s: string)
    requires forall i :: 0 <= i < |s| ==> IsLatinAllowed(s[i])
    ensures Unicode.ByteLen(s) == |s|
  {
    Unicode.ByteLenAscii(s);
  }

  // ---- password ----

  /** The password list: printable ASCII without 'n', 'N', '0', '7', '8', '9' and '\'. */
  predicate IsPasswordRune(c: char)
  {
    && 0x20 <= c as int <= 0x7E
    && c != 'n' && c != 'N' && c != '0' && c != '7' && c != '8' && c != '9' && c != '\\'
  }

  /** The pair must be equal, then 6 to 32 bytes long, then made of listed runes only. */
  function ValidatePassword(password1: string, password2: string): (r: Option<PasswordError>)
    ensures r == Some(PasswordMismatch) <==> password1 != password2
    ensures r == Some(PasswordLength) <==>
              password1 == password2
              && !(PasswordMinLength <= Unicode.ByteLen(password1) <= PasswordMaxLength)
    ensures r == None <==>
              && password1 == password2
              && PasswordMinLength <= Unicode.ByteLen(password1) <= PasswordMaxLength
              && (forall i :: 0 <= i < |password1| ==> IsPasswordRune(password1[i]))
  {
    if password1 != password2 then Some(PasswordMismatch)
    else if Unicode.ByteLen(password1) < PasswordMinLength || Unicode.ByteLen(password1) > PasswordMaxLength
    then Some(PasswordLength)
    else if exists i :: 0 <= i < |password1| && !IsPasswordRune(password1[i]) then Some(PasswordForbiddenChar)
    else None
  }

  /** Accepted passwords are plain ASCII, so their byte length is their rune count. */
  lemma AcceptedPasswordIsAscii(p: string)
    requires ValidatePassword(p, p) == None
    ensures PasswordMinLength <= |p| <= PasswordMaxLength
  {
    Unicode.ByteLenAscii(p);
  }

  // ---- the request ----

  /** Email, then username, then password; the first failure is returned. A field that passed
      is stored back trimmed, even when a later field fails. */
  function Validate(req: RegisterRequest): (r: (RegisterRequest, Option<ValidationError>))
    ensures ValidateEmail(req.email).Err? ==>
              r == (req, Some(InvalidEmail(ValidateEmail(req.email).error)))
    ensures ValidateEmail(req.email).Ok? && ValidateUsername(req.username).Err? ==>
              r == (req.(email := ValidateEmail(req.email).value),
                    Some(InvalidUsername(ValidateUsername(req.username).error)))
    ensures ValidateEmail(req.email).Ok? && ValidateUsername(req.username).Ok? ==>
              && r.0 == req.(email := ValidateEmail(req.email).value,
                             username := ValidateUsername(req.username).value)
              && (r.1.None? <==> ValidatePassword(req.password1, req.password2).None?)
    ensures r.0.password1 == req.password1 && r.0.password2 == req.password2
    ensures r.0.captcha == req.captcha
  {
    match ValidateEmail(req.email)
    case Err(e) => (req, Some(InvalidEmail(e)))
    case Ok(email) =>
      var req1 := req.(email := email);
      match ValidateUsername(req.username)
      case Err(e) => (req1, Some(InvalidUsername(e)))
      case Ok(username) =>
        var req2 := req1.(username := username);
        match ValidatePassword(req.password1, req.password2)
        case Some(e) => (req2, Some(InvalidPassword(e)))
        case None => (req2, None)
  }

  /** Validating an already validated request changes nothing. */
  lemma ValidateIdempotent(req: RegisterRequest)
    requires Validate(req).1.None?
    ensures Validate(Validate(req).0) == (Validate(req).0, None)
  {
    EmailFixed(req.email);
    UsernameFixed(req.username);
  }

  lemma EmailFixed(email: string)
    requires ValidateEmail(email).Ok?
    ensures ValidateEmail(ValidateEmail(email).value) == ValidateEmail(email)
  {
    TrimSpaceIdempotent(email);
  }

  lemma UsernameFixed(username: string)
    requires ValidateUsername(username).Ok?
    ensures ValidateUsername(ValidateUsername(username).value) == ValidateUsername(username)
  {
    TrimSpaceIdempotent(username);
  }

  // ---- the Me view ----

  datatype Me = Me(id: Int32, email: string, username: string, verified: bool)

  function MeFromUser(u: User): (m: Me)
    ensures m.id == u.id && m.email == u.email && m.username == u.username && m.verified == u.verified
  {
    Me(u.id, u.email, u.username, u.verified)
  }

  /** The view carries nothing else: users that differ only in password, activity or dates
      have the same view, and users with the same view agree on the four copied fields. */
  lemma MeCopiesOnlyFourFields(u1: User, u2: User)
    ensures MeFromUser(u1) == MeFromUser(u2)
        <==> u1.id == u2.id && u1.email == u2.email && u1.username == u2.username && u1.verified == u2.verified
  {
  }
}

=== FILE: body_capture.dfy ===
/** The size-capped copies of request and response bodies kept for the access log.

    Both buffers keep a prefix of what passed through them, cut at `maxSize` bytes. Their
    states are values; each operation returns the next state. */
module BodyCapture {
  import opened Wrappers

  type Byte = x: int | 0 <= x < 256

  type Bytes = seq<Byte>

  /** Request and response bodies are each captured up to 2 MiB. */
  const RequestBodyMaxSize := 2 * 1024 * 1024
  const ResponseBodyMaxSize := 2 * 1024 * 1024

  function Min(a: int, b: int): int
  {
    if a <= b then a else b
  }

  /** Append `b` to `body`, keeping at most `maxSize` bytes in all. */
  function Capture(body: Bytes, b: Bytes, maxSize: nat): (r: Bytes)
    requires |body| <= maxSize
    ensures |r| <= maxSize
    ensures |body| + |b| <= maxSize ==> r == body + b
    ensures |body| + |b| > maxSize ==> |r| == maxSize
    ensures r == (body + b)[..Min(|body| + |b|, maxSize)]
  {
    if |body| + |b| > maxSize then body + b[..maxSize - |body|] else body + b
  }

  /** All chunks, one after the other. */
  function Flatten(chunks: seq<Bytes>): Bytes
  {
    if chunks == [] then [] else chunks[0] + Flatten(chunks[1..])
  }

  function CaptureAll(body: Bytes, chunks: seq<Bytes>, maxSize: nat): (r: Bytes)
    requires |body| <= maxSize
    decreases |chunks|
  {
    if chunks == [] then body else CaptureAll(Capture(body, chunks[0], maxSize), chunks[1..], maxSize)
  }

  /** Capturing chunk by chunk keeps the first `maxSize` bytes of everything that passed. */
  lemma {:induction false} CaptureAllPrefix(body: Bytes, chunks: seq<Bytes>, maxSize: nat)
    requires |body| <= maxSize
    decreases |chunks|
    ensures CaptureAll(body, chunks, maxSize)
         == (body + Flatten(chunks))[..Min(|body| + |Flatten(chunks)|, maxSize)]
  {
    if chunks != [] {
      var c := chunks[0];
      var rest := Flatten(chunks[1..]);
      var b1 := Capture(body, c, maxSize);
      CaptureAllPrefix(b1, chunks[1..], maxSize);
      CaptureAllStep(body, chunks, maxSize);
      CutTwice(body + c, b1, rest, maxSize);
    }
  }

  /** One chunk of CaptureAll, and of the text it cuts from. */
  lemma CaptureAllStep(body: Bytes, chunks: seq<Bytes>, maxSize: nat)
    requires |body| <= maxSize && chunks != []
    ensures CaptureAll(body, chunks, maxSize) == CaptureAll(Capture(body, chunks[0], maxSize), chunks[1..], maxSize)
    ensures body + Flatten(chunks) == (body + chunks[0]) + Flatten(chunks[1..])
    ensures |body| + |Flatten(chunks)| == |body + chunks[0]| + |Flatten(chunks[1..])|
    ensures Capture(body, chunks[0], maxSize) == (body + chunks[0])[..Min(|body + chunks[0]|, maxSize)]
  {
    var c, rest := chunks[0], Flatten(chunks[1..]);
    assert Flatten(chunks) == c + rest;
    AppendAssoc(body, c, rest);
  }

  lemma AppendAssoc(a: Bytes, b: Bytes, c: Bytes)
    ensures a + (b + c) == (a + b) + c
  {
  }

  /** Cutting at `maxSize`, appending, and cutting again is cutting once. */
  lemma CutTwice(x: Bytes, x1: Bytes, y: Bytes, maxSize: nat)
    requires x1 == x[..Min(|x|, maxSize)]
    ensures (x1 + y)[..Min(|x1| + |y|, maxSize)] == (x + y)[..Min(|x| + |y|, maxSize)]
  {
    if |x| > maxSize {
      assert (x1 + y)[..maxSize] == x1;
      assert (x + y)[..maxSize] == x1;
    } else {
      assert x[..|x|] == x;
    }
  }

  // ---- the response side ----

  datatype BodyWriter = BodyWriter(body: Bytes, maxSize: nat)

  predicate WriterValid(w: BodyWriter)
  {
    |w.body| <= w.maxSize
  }

  function NewBodyWriter(maxSize: nat): (w: BodyWriter)
    ensures WriterValid(w) && w.body == [] && w.maxSize == maxSize
  {
    BodyWriter([], maxSize)
  }

  /** Write: a fitting slice is taken whole; an overflowing one only up to the limit, and the
      count reports what was taken. Never an error. */
  function Write(w: BodyWriter, b: Bytes): (res: (BodyWriter, nat))
    requires WriterValid(w)
    ensures WriterValid(res.0) && res.0.maxSize == w.maxSize
    ensures |w.body| + |b| <= w.maxSize ==> res.0.body == w.body + b && res.1 == |b|
    ensures |w.body| + |b| > w.maxSize ==>
              res.0.body == w.body + b[..w.maxSize - |w.body|] && res.1 == w.maxSize - |w.body|
  {
    var body := Capture(w.body, b, w.maxSize);
    (BodyWriter(body, w.maxSize), |body| - |w.body|)
  }

  function WriteAll(w: BodyWriter, chunks: seq<Bytes>): (r: BodyWriter)
    requires WriterValid(w)
    decreases |chunks|
    ensures WriterValid(r)
  {
    if chunks == [] then w else WriteAll(Write(w, chunks[0]).0, chunks[1..])
  }

  lemma {:induction false} WriteAllCaptures(w: BodyWriter, chunks: seq<Bytes>)
    requires WriterValid(w)
    decreases |chunks|
    ensures WriteAll(w, chunks).body == CaptureAll(w.body, chunks, w.maxSize)
  {
    if chunks != [] {
      WriteAllCaptures(Write(w, chunks[0]).0, chunks[1..]);
    }
  }

  /** A fresh writer, after any writes, holds the first `maxSize` bytes of all bytes written. */
  lemma WriterKeepsPrefix(maxSize: nat, chunks: seq<Bytes>)
    ensures var body := WriteAll(NewBodyWriter(maxSize), chunks).body;
            body == Flatten(chunks)[..Min(|Flatten(chunks)|, maxSize)]
  {
    WriteAllCaptures(NewBodyWriter(maxSize), chunks);
    CaptureAllPrefix([], chunks, maxSize);
    assert [] + Flatten(chunks) == Flatten(chunks);
  }

  // ---- the request side ----

  /** `body` is absent when the body is not recorded; `bytes` counts every byte read. */
  datatype BodyReader = BodyReader(body: Option<Bytes>, maxSize: nat, bytes: nat)

  predicate ReaderValid(r: BodyReader)
  {
    r.body.Some? ==> |r.body.value| <= r.maxSize
  }

  function NewBodyReader(maxSize: nat, recordBody: bool): (r: BodyReader)
    ensures ReaderValid(r) && r.bytes == 0 && r.maxSize == maxSize
    ensures r.body == if recordBody then Some([]) else None
  {
    BodyReader(if recordBody then Some([]) else None, maxSize, 0)
  }

  /** One read: `chunk` and `err` are what the wrapped reader returned; they are passed on
      unchanged, the count grows by the chunk's length, and a recording reader captures it up
      to the limit. */
  function Read<E>(r: BodyReader, chunk: Bytes, err: E): (res: (BodyReader, nat, E))
    requires ReaderValid(r)
    ensures ReaderValid(res.0) && res.0.maxSize == r.maxSize
    ensures res.1 == |chunk| && res.2 == err
    ensures res.0.bytes == r.bytes + |chunk|
    ensures res.0.body.Some? <==> r.body.Some?
  {
    var body := if r.body.Some? then Some(Capture(r.body.value, chunk, r.maxSize)) else None;
    (BodyReader(body, r.maxSize, r.bytes + |chunk|), |chunk|, err)
  }

  function ReadAll(r: BodyReader, chunks: seq<Bytes>): (res: BodyReader)
    requires ReaderValid(r)
    decreases |chunks|
    ensures ReaderValid(res)
  {
    if chunks == [] then r else ReadAll(Read(r, chunks[0], 0).0, chunks[1..])
  }

  lemma {:induction false} ReadAllEffect(r: BodyReader, chunks: seq<Bytes>)
    requires ReaderValid(r)
    decreases |chunks|
    ensures ReadAll(r, chunks).bytes == r.bytes + |Flatten(chunks)|
    ensures ReadAll(r, chunks).body == if r.body.Some? then Some(CaptureAll(r.body.value, chunks, r.maxSize)) else None
  {
    if chunks != [] {
      ReadAllEffect(Read(r, chunks[0], 0).0, chunks[1..]);
    }
  }

  /** A fresh reader, after any reads, has counted every byte; a recording one holds the first
      `maxSize` bytes read, a non-recording one nothing. */
  lemma ReaderKeepsPrefix(maxSize: nat, recordBody: bool, chunks: seq<Bytes>)
    ensures var r := ReadAll(NewBodyReader(maxSize, recordBody), chunks);
            && r.bytes == |Flatten(chunks)|
            && r.body == if recordBody then Some(Flatten(chunks)[..Min(|Flatten(chunks)|, maxSize)]) else None
  {
    ReadAllEffect(NewBodyReader(maxSize, recordBody), chunks);
    CaptureAllPrefix([], chunks, maxSize);
    assert [] + Flatten(chunks) == Flatten(chunks);
  }
}

=== FILE: captcha.dfy ===
/** The debug captcha client: a captcha is valid when it equals the configured text. */
module Captcha {
  datatype DebugCaptchaClient = DebugCaptchaClient(validCaptcha: string)

  function NewDebugCaptchaClient(validCaptcha: string): (c: DebugCaptchaClient)
    ensures c.validCaptcha == validCaptcha
  {
    DebugCaptchaClient(validCaptcha)
  }

  /** Whether the client accepts a captcha: only the configured text, character for
      character. */
  function IsValid(c: DebugCaptchaClient, captcha: string): (ok: bool)
    ensures ok <==> captcha == c.validCaptcha
    ensures ok ==> |captcha| == |c.validCaptcha|
  {
    c.validCaptcha == captcha
  }

  /** A client built from `valid` accepts exactly that text; in particular the client built
      from the empty text accepts only the empty captcha. */
  lemma AcceptsExactly(valid: string, captcha: string)
    ensures IsValid(NewDebugCaptchaClient(valid), captcha) <==> captcha == valid
    ensures IsValid(NewDebugCaptchaClient(""), captcha) <==> captcha == ""
  {
  }
}

=== FILE: claims.dfy ===
/** Token claim shapes: the type tags, the signed claim set and the identity payload. */
module Claims {
  import opened Wrappers
  import opened Entity

  const AccessTokenType := "access"
  const RefreshTokenType := "refresh"

  /** The identity a token is issued for. */
  datatype TokenUser = TokenUser(id: Int32, username: string, roles: seq<string>)

  /** The claim set. `iat` and `exp` are the structure's own integer fields; `issuedAt` and
      `expiresAt` are the embedded registered `iat`/`exp` claims of RFC 7519 (sections 4.1.6
      and 4.1.4), as `jwt.NumericDate` values at their default one-second precision: whole
      Unix seconds, absent when nil. */
  datatype UserClaims = UserClaims(
    iat: int,
    exp: int,
    tokenType: string,
    id: Int32,
    username: string,
    roles: seq<string>,
    issuedAt: Option<int>,
    expiresAt: Option<int>)

  /** The identity part of a claim set. */
  function UserPayloadFromUserClaims(c: UserClaims): (u: TokenUser)
    ensures u.id == c.id && u.username == c.username && u.roles == c.roles
  {
    TokenUser(c.id, c.username, c.roles)
  }

  /** The projection keeps the identity fields and only them: claim sets that agree on the
      identity project to the same payload, whatever their type and dates. */
  lemma ProjectionIgnoresTypeAndDates(c1: UserClaims, c2: UserClaims)
    ensures UserPayloadFromUserClaims(c1) == UserPayloadFromUserClaims(c2)
        <==> c1.id == c2.id && c1.username == c2.username && c1.roles == c2.roles
  {
  }

  lemma TokenTypesDistinct()
    ensures AccessTokenType != RefreshTokenType
  {
    assert AccessTokenType[0] != RefreshTokenType[0];
  }
}

=== FILE: config_cli.dfy ===
/** The help-text helpers used when printing command-line flags: the placeholder held in
    backticks inside a usage string, the dash prefix of a flag name, the list of a flag's
    names, the default-value hint and the environment-variable hint. */
module ConfigCli {
  import opened GoStrings
  import Unicode

  const Backtick: char := '`'

  /** Go's `strings.Join` with a separator of any length. */
  function JoinWith(parts: seq<string>, sep: string): string
  {
    if |parts| == 0 then ""
    else if |parts| == 1 then parts[0]
    else parts[0] + sep + JoinWith(parts[1..], sep)
  }

  // ----- Usage placeholders -----

  /** The placeholder between the first two backticks of `usage`, and the usage with those
      two backticks removed; without a closing backtick after the first, no placeholder and
      the usage unchanged. */
  function UnquoteUsage(usage: string): (r: (string, string))
    ensures Backtick !in r.0
    ensures r.0 != "" ==> |r.1| == |usage| - 2
    ensures r.1 == usage || |r.1| == |usage| - 2
  {
    var i := Find(usage, Backtick);
    if i == |usage| then ("", usage)
    else
      var rest := usage[i + 1..];
      var j := Find(rest, Backtick);
      if j == |rest| then ("", usage)
      else
        var name := rest[..j];
        (name, usage[..i] + name + rest[j + 1..])
  }

  /** Round trip: a usage built from backtick-free text around a quoted placeholder gives
      the placeholder back, and the text without the two backticks. */
  lemma UnquoteQuoted(before: string, name: string, after: string)
    requires Backtick !in before && Backtick !in name
    ensures UnquoteUsage(before + [Backtick] + name + [Backtick] + after) == (name, before + name + after)
  {
    var usage := before + [Backtick] + name + [Backtick] + after;
    assert usage[|before|] == Backtick;
    assert forall k :: 0 <= k < |before| ==> usage[k] == before[k];
    assert Find(usage, Backtick) == |before|;
    var rest := usage[|before| + 1..];
    assert rest == name + [Backtick] + after;
    assert rest[|name|] == Backtick;
    assert forall k :: 0 <= k < |name| ==> rest[k] == name[k];
    assert Find(rest, Backtick) == |name|;
    assert usage[..|before|] == before;
    assert rest[..|name|] == name;
    assert rest[|name| + 1..] == after;
  }

  /** Without a backtick pair the usage is returned unchanged with no placeholder. */
  lemma UnquoteUnpaired(before: string, after: string)
    requires Backtick !in before && Backtick !in after
    ensures UnquoteUsage(before) == ("", before)
    ensures UnquoteUsage(before + [Backtick] + after) == ("", before + [Backtick] + after)
  {
    var usage := before + [Backtick] + after;
    assert usage[|before|] == Backtick;
    assert forall k :: 0 <= k < |before| ==> usage[k] == before[k];
    assert usage[|before| + 1..] == after;
  }

  // ----- Flag names -----

  /** One dash for a name of one byte, two otherwise: a single non-ASCII rune gets two. */
  function PrefixFor(name: string): (r: string)
    ensures r == "-" || r == "--"
    ensures r == "-" <==> |name| == 1 && name[0] as int < 0x80
  {
    OneByteName(name);
    if Unicode.ByteLen(name) == 1 then "-" else "--"
  }

  /** A string is one byte long exactly when it is a single ASCII rune. */
  lemma OneByteName(name: string)
    ensures Unicode.ByteLen(name) == 1 <==> |name| == 1 && name[0] as int < 0x80
  {
    if |name| >= 2 {
      Unicode.ByteLenAppend(name[..1], name[1..]);
      assert name == name[..1] + name[1..];
    }
  }

  /** One name as the help text shows it, before any separator. */
  function Entry(name: string, placeholder: string): string
  {
    PrefixFor(name) + name + (if placeholder != "" then " " + placeholder else "")
  }

  /** One name's share of the help text: nothing for an empty name, otherwise its entry,
      followed by ", " when `more` says it is not at the last index. */
  function Piece(name: string, placeholder: string, more: bool): string
  {
    if name == "" then "" else Entry(name, placeholder) + (if more then ", " else "")
  }

  /** The help-text names as the loop builds them: an empty name is skipped, and every name
      but the one at the last index is followed by ", ". */
  function Rendered(names: seq<string>, placeholder: string): string
  {
    if names == [] then "" else Piece(names[0], placeholder, |names| > 1) + Rendered(names[1..], placeholder)
  }

  lemma RenderedStep(names: seq<string>, i: nat, placeholder: string)
    requires i < |names|
    ensures Rendered(names[i..], placeholder)
         == Piece(names[i], placeholder, i < |names| - 1) + Rendered(names[i + 1..], placeholder)
  {
    assert names[i..][1..] == names[i + 1..];
  }

  lemma Assoc(x: string, y: string, z: string)
    ensures x + (y + z) == (x + y) + z
  {
  }

  /** The body of the loop for one name. */
  method NamePiece(name: string, placeholder: string, more: bool) returns (piece: string)
    ensures piece == Piece(name, placeholder, more)
  {
    piece := "";
    if name != "" {
      piece := PrefixFor(name) + name;
      if placeholder != "" {
        piece := piece + " " + placeholder;
      }
      if more {
        piece := piece + ", ";
      }
    }
  }

  /** `prefixedNames`: the loop over the names. */
  method PrefixedNames(names: seq<string>, placeholder: string) returns (prefixed: string)
    ensures prefixed == Rendered(names, placeholder)
  {
    prefixed := "";
    var i := 0;
    while i < |names|
      invariant 0 <= i <= |names|
      invariant prefixed + Rendered(names[i..], placeholder) == Rendered(names, placeholder)
    {
      var piece := NamePiece(names[i], placeholder, i < |names| - 1);
      RenderedStep(names, i, placeholder);
      Assoc(prefixed, piece, Rendered(names[i + 1..], placeholder));
      prefixed := prefixed + piece;
      i := i + 1;
    }
    assert names[i..] == [];
  }

  predicate AllNamed(names: seq<string>)
  {
    forall i :: 0 <= i < |names| ==> names[i] != ""
  }

  function Entries(names: seq<string>, placeholder: string): (r: seq<string>)
    ensures |r| == |names|
    ensures forall i :: 0 <= i < |names| ==> r[i] == Entry(names[i], placeholder)
  {
    if names == [] then [] else [Entry(names[0], placeholder)] + Entries(names[1..], placeholder)
  }

  /** When no name is empty, the names are their entries joined by ", ". */
  lemma {:induction false} RenderedJoins(names: seq<string>, placeholder: string)
    requires AllNamed(names)
    ensures Rendered(names, placeholder) == JoinWith(Entries(names, placeholder), ", ")
  {
    if |names| > 1 {
      var rest := names[1..];
      assert AllNamed(rest) by {
        forall k | 0 <= k < |rest| ensures rest[k] != "" { assert rest[k] == names[k + 1]; }
      }
      RenderedJoins(rest, placeholder);
      var e := Entries(names, placeholder);
      assert e[1..] == Entries(rest, placeholder);
      var head := Entry(names[0], placeholder);
      var tail := Rendered(rest, placeholder);
      assert (head + ", ") + tail == head + ", " + tail;
    } else if |names| == 1 {
      assert names[1..] == [];
    }
  }

  /** An empty name at the last index leaves the separator of the name before it in place. */
  lemma TrailingSeparator(name: string, placeholder: string)
    requires name != ""
    ensures Rendered([name, ""], placeholder) == Entry(name, placeholder) + ", "
  {
    assert [name, ""][1..] == [""];
    assert [""][1..] == [];
    assert Rendered([""], placeholder) == "";
  }

  // ----- Default and environment hints -----

  const DefaultOpen := " [default: "

  /** The default-value hint. */
  function FormatDefault(format: string): (r: string)
    ensures |r| == |DefaultOpen| + |format| + 1
    ensures r[..|DefaultOpen|] == DefaultOpen && r[|r| - 1] == ']'
    ensures r[|DefaultOpen|..|r| - 1] == format
  {
    DefaultOpen + format + "]"
  }

  const EnvOpen := " [env: "

  /** The environment hint: nothing for no variables, otherwise the variables joined by
      `sep` between `prefix` and `suffix`, in brackets. */
  function EnvFormat(envVars: seq<string>, prefix: string, sep: string, suffix: string): (r: string)
    ensures envVars == [] <==> r == ""
    ensures envVars != [] ==> |r| > |EnvOpen|
    ensures envVars != [] ==> r[..|EnvOpen|] == EnvOpen && r[|r| - 1] == ']'
  {
    if |envVars| > 0 then EnvOpen + prefix + JoinWith(envVars, sep) + suffix + "]" else ""
  }

  function DefaultEnvFormat(envVars: seq<string>): string
  {
    EnvFormat(envVars, "", ", ", "")
  }

  /** The hint for the Windows command prompt wraps every variable in percent signs; every
      other shell gets the default form. Which shell runs is a parameter. */
  function WithEnvHint(envVars: seq<string>, windowsPrompt: bool): string
  {
    if !windowsPrompt then DefaultEnvFormat(envVars) else EnvFormat(envVars, "%", "%, %", "%")
  }

  /** The default environment hint lists the variables joined by ", ". */
  lemma DefaultEnvHint(envVars: seq<string>)
    requires envVars != []
    ensures WithEnvHint(envVars, false) == EnvOpen + JoinWith(envVars, ", ") + "]"
  {
    var j := JoinWith(envVars, ", ");
    assert WithEnvHint(envVars, false) == EnvOpen + "" + j + "" + "]";
    assert EnvOpen + "" + j + "" + "]" == EnvOpen + j + "]";
  }

  function Percent(v: string): string
  {
    "%" + v + "%"
  }

  function PercentAll(envVars: seq<string>): (r: seq<string>)
    ensures |r| == |envVars|
    ensures forall i :: 0 <= i < |envVars| ==> r[i] == Percent(envVars[i])
  {
    if envVars == [] then [] else [Percent(envVars[0])] + PercentAll(envVars[1..])
  }

  /** On the Windows command prompt every variable appears as %NAME%, the variables joined
      by ", ". */
  lemma WindowsEnvHint(envVars: seq<string>)
    requires envVars != []
    ensures WithEnvHint(envVars, true) == EnvOpen + JoinWith(PercentAll(envVars), ", ") + "]"
  {
    PercentJoin(envVars);
    var j := JoinWith(envVars, "%, %");
    assert EnvOpen + "%" + j + "%" + "]" == EnvOpen + ("%" + j + "%") + "]";
  }

  lemma {:induction false} PercentJoin(envVars: seq<string>)
    requires envVars != []
    ensures "%" + JoinWith(envVars, "%, %") + "%" == JoinWith(PercentAll(envVars), ", ")
  {
    if |envVars| > 1 {
      var v := envVars[0];
      var rest := envVars[1..];
      PercentJoin(rest);
      var j := JoinWith(rest, "%, %");
      assert PercentAll(envVars)[1..] == PercentAll(rest);
      assert "%" + (v + "%, %" + j) + "%" == ("%" + v + "%") + ", " + ("%" + j + "%");
    }
  }
}

=== FILE: config_examples.dfy ===
/** The case conversions evaluated on field names of the application's configuration. */
module ConfigExamples {
  import opened GoStrings
  import opened ConfigTags
  import opened Wrappers
  import ConfigFlags

  /** No match of `([a-z0-9])([A-Z])` starts at index `i` of `s`. */
  predicate NoAllCapAt(s: string, i: nat)
  {
    !(i + 1 < |s| && (IsAsciiLower(s[i]) || IsAsciiDigit(s[i])) && IsAsciiUpper(s[i + 1]))
  }

  /** No match of `(.)([A-Z][a-z]+)` starts at index `i` of `s`. */
  predicate NoFirstCapAt(s: string, i: nat)
  {
    !(i + 2 < |s| && s[i] != '\n' && IsAsciiUpper(s[i + 1]) && IsAsciiLower(s[i + 2]))
  }

  lemma ShiftNoMatch(a: string, b: string)
    requires a != []
    ensures forall i :: 0 <= i < |a| - 1 ==> NoAllCapAt(a + b, i + 1) == NoAllCapAt(a[1..] + b, i)
    ensures forall i :: 0 <= i < |a| - 1 ==> NoFirstCapAt(a + b, i + 1) == NoFirstCapAt(a[1..] + b, i)
  {
    var s := a + b;
    assert s[1..] == a[1..] + b;
    assert forall k :: 0 <= k < |s| - 1 ==> (a[1..] + b)[k] == s[k + 1];
  }

  /** MatchAllCap copies a prefix in which no rune starts a match. */
  lemma {:induction false} AllCapPlainPrefix(a: string, b: string)
    requires forall i :: 0 <= i < |a| ==> NoAllCapAt(a + b, i)
    ensures MatchAllCap(a + b) == a + MatchAllCap(b)
    decreases |a|
  {
    if a != [] {
      ShiftNoMatch(a, b);
      AllCapPlainPrefix(a[1..], b);
      AllCapCopyStep(a, b);
    } else {
      assert a + b == b;
    }
  }

  lemma AllCapCopyStep(a: string, b: string)
    requires a != [] && NoAllCapAt(a + b, 0)
    requires MatchAllCap(a[1..] + b) == a[1..] + MatchAllCap(b)
    ensures MatchAllCap(a + b) == a + MatchAllCap(b)
  {
    var s := a + b;
    TailOfAppend(a, b);
    assert MatchAllCap(s) == [s[0]] + MatchAllCap(s[1..]);
    ConsRest(a, MatchAllCap(b));
  }

  /** MatchFirstCap copies a prefix in which no rune starts a match. */
  lemma {:induction false} FirstCapPlainPrefix(a: string, b: string)
    requires forall i :: 0 <= i < |a| ==> NoFirstCapAt(a + b, i)
    ensures MatchFirstCap(a + b) == a + MatchFirstCap(b)
    decreases |a|
  {
    if a != [] {
      ShiftNoMatch(a, b);
      FirstCapPlainPrefix(a[1..], b);
      FirstCapCopyStep(a, b);
    } else {
      assert a + b == b;
    }
  }

  lemma FirstCapCopyStep(a: string, b: string)
    requires a != [] && NoFirstCapAt(a + b, 0)
    requires MatchFirstCap(a[1..] + b) == a[1..] + MatchFirstCap(b)
    ensures MatchFirstCap(a + b) == a + MatchFirstCap(b)
  {
    var s := a + b;
    TailOfAppend(a, b);
    assert MatchFirstCap(s) == [s[0]] + MatchFirstCap(s[1..]);
    ConsRest(a, MatchFirstCap(b));
  }

  lemma ConsRest(a: string, m: string)
    requires a != []
    ensures [a[0]] + (a[1..] + m) == a + m
  {
    assert a == [a[0]] + a[1..];
  }

  lemma Assoc(x: string, y: string, z: string)
    ensures x + (y + z) == (x + y) + z
  {
  }

  predicate Lowercase(s: string)
  {
    forall i :: 0 <= i < |s| ==> IsAsciiLower(s[i])
  }

  lemma LowerIdentity(s: string)
    requires forall i :: 0 <= i < |s| ==> !IsAsciiUpper(s[i])
    ensures ToLower(s) == s
  {
  }

  /** At a boundary between a lowercase letter and a capitalised word followed by a further
      capitalised word, the first pass matches the whole middle word. */
  lemma FirstCapBoundary(c1: char, u2: char, l2: string, u3: char, l3: string)
    requires IsAsciiLower(c1) && IsAsciiUpper(u2) && IsAsciiUpper(u3)
    requires Lowercase(l2) && Lowercase(l3) && l2 != []
    ensures MatchFirstCap([c1, u2] + l2 + ([u3] + l3)) == [c1, '_', u2] + l2 + ([u3] + l3)
  {
    var rest := [u3] + l3;
    var b := [c1, u2] + l2 + rest;
    BoundaryParts(c1, u2, l2, rest);
    FirstCapAt(b);
    FirstCapPlain(rest);
    assert MatchFirstCap(b) == [c1, '_'] + ([u2] + l2) + rest;
    Regroup2(c1, u2, l2, rest);
  }

  /** The pieces of a lowercase letter, a capitalised word and a tail starting with a
      capital. */
  lemma BoundaryParts(c1: char, u2: char, l2: string, rest: string)
    requires Lowercase(l2) && rest != [] && IsAsciiUpper(rest[0])
    ensures var b := [c1, u2] + l2 + rest;
      |b| == 2 + |l2| + |rest| && b[0] == c1 && b[1] == u2 &&
      LowerRun(b[2..]) == |l2| && b[1..2 + |l2|] == [u2] + l2 && b[2 + |l2|..] == rest
  {
    var b := [c1, u2] + l2 + rest;
    assert b[2..] == l2 + rest;
    assert (l2 + rest)[|l2|] == rest[0];
  }

  lemma Regroup2(c1: char, u2: char, l2: string, rest: string)
    ensures [c1, '_'] + ([u2] + l2) + rest == [c1, '_', u2] + l2 + rest
  {
  }

  /** A capital followed by lowercase letters is copied when the text after it starts with
      a lowercase letter. */
  lemma FirstCapLowerPrefix(x: char, l: string, b: string)
    requires Lowercase(l) && b != [] && IsAsciiLower(b[0])
    ensures MatchFirstCap([x] + l + b) == [x] + l + MatchFirstCap(b)
  {
    var a := [x] + l;
    var s := a + b;
    forall i | 0 <= i < |a|
      ensures NoFirstCapAt(s, i)
    {
      assert s[i + 1] == if i + 1 < |a| then l[i] else b[0];
    }
    FirstCapPlainPrefix(a, b);
  }

  /** The first pass on three capitalised words puts an underscore at the first word
      boundary only: the match there consumes the second word, so the last letter of the
      second word cannot start another match. */
  lemma FirstCapThreeWords(u1: char, l1: string, u2: char, l2: string, u3: char, l3: string)
    requires IsAsciiUpper(u1) && IsAsciiUpper(u2) && IsAsciiUpper(u3)
    requires Lowercase(l1) && Lowercase(l2) && Lowercase(l3) && l1 != [] && l2 != []
    ensures MatchFirstCap([u1] + l1 + [u2] + l2 + [u3] + l3) == [u1] + l1 + ['_', u2] + l2 + [u3] + l3
  {
    var c1 := l1[|l1| - 1];
    var l := l1[..|l1| - 1];
    var rest := [u3] + l3;
    var b := [c1, u2] + l2 + rest;
    Regroup(u1, l1, u2, l2, u3, l3);
    FirstCapLowerPrefix(u1, l, b);
    FirstCapBoundary(c1, u2, l2, u3, l3);
  }

  /** The concatenations FirstCapThreeWords relates, cut at the last letter of the first word. */
  lemma Regroup(u1: char, l1: string, u2: char, l2: string, u3: char, l3: string)
    requires l1 != []
    ensures [u1] + l1 + [u2] + l2 + [u3] + l3
         == [u1] + l1[..|l1| - 1] + ([l1[|l1| - 1], u2] + l2 + ([u3] + l3))
    ensures [u1] + l1[..|l1| - 1] + ([l1[|l1| - 1], '_', u2] + l2 + ([u3] + l3))
         == [u1] + l1 + ['_', u2] + l2 + [u3] + l3
  {
    assert l1 == l1[..|l1| - 1] + [l1[|l1| - 1]];
  }

  /** At a boundary with no underscore, the second pass inserts one. */
  lemma AllCapBoundary(c2: char, u3: char, l3: string)
    requires IsAsciiLower(c2) && IsAsciiUpper(u3) && Lowercase(l3)
    ensures MatchAllCap([c2, u3] + l3) == [c2, '_', u3] + l3
  {
    AllCapPlain(l3);
    assert ([c2, u3] + l3)[2..] == l3;
  }

  /** The second pass on that result adds the missing underscore at the second boundary. */
  lemma AllCapThreeWords(u1: char, l1: string, u2: char, l2: string, u3: char, l3: string)
    requires IsAsciiUpper(u1) && IsAsciiUpper(u2) && IsAsciiUpper(u3)
    requires Lowercase(l1) && Lowercase(l2) && Lowercase(l3) && l1 != [] && l2 != []
    ensures MatchAllCap([u1] + l1 + ['_', u2] + l2 + [u3] + l3) == [u1] + l1 + ['_', u2] + l2 + ['_', u3] + l3
  {
    var c2 := l2[|l2| - 1];
    var a := [u1] + l1 + ['_', u2] + l2[..|l2| - 1];
    var b := [c2, u3] + l3;
    AllCapRegroup(u1, l1, u2, l2, u3, l3);
    FirstPlainHelper(a, b, u1, l1, u2, l2);
    AllCapPlainPrefix(a, b);
    AllCapBoundary(c2, u3, l3);
  }

  /** The concatenations AllCapThreeWords relates, cut at the last letter of the second word. */
  lemma AllCapRegroup(u1: char, l1: string, u2: char, l2: string, u3: char, l3: string)
    requires l2 != []
    ensures [u1] + l1 + ['_', u2] + l2 + [u3] + l3
         == ([u1] + l1 + ['_', u2] + l2[..|l2| - 1]) + ([l2[|l2| - 1], u3] + l3)
    ensures ([u1] + l1 + ['_', u2] + l2[..|l2| - 1]) + ([l2[|l2| - 1], '_', u3] + l3)
         == [u1] + l1 + ['_', u2] + l2 + ['_', u3] + l3
  {
    assert l2 == l2[..|l2| - 1] + [l2[|l2| - 1]];
  }

  lemma FirstPlainHelper(a: string, b: string, u1: char, l1: string, u2: char, l2: string)
    requires IsAsciiUpper(u1) && IsAsciiUpper(u2) && Lowercase(l1) && Lowercase(l2) && l2 != []
    requires a == [u1] + l1 + ['_', u2] + l2[..|l2| - 1]
    requires |b| >= 1 && b[0] == l2[|l2| - 1]
    ensures forall i :: 0 <= i < |a| ==> NoAllCapAt(a + b, i)
  {
    var s := a + b;
    forall i | 0 <= i < |a|
      ensures NoAllCapAt(s, i)
    {
      if i + 1 <= |l1| {
        assert s[i + 1] == l1[i];
      } else if i + 1 == |l1| + 1 {
        assert s[i + 1] == '_';
      } else if i + 1 == |l1| + 2 {
        assert s[i] == '_';
      } else {
        assert s[i + 1] == l2[i + 1 - |l1| - 3];
      }
    }
  }

  /** toSnakeCase on three capitalised words: the lowercased words joined by underscores. */
  lemma SnakeThreeWords(u1: char, l1: string, u2: char, l2: string, u3: char, l3: string)
    requires IsAsciiUpper(u1) && IsAsciiUpper(u2) && IsAsciiUpper(u3)
    requires Lowercase(l1) && Lowercase(l2) && Lowercase(l3) && l1 != [] && l2 != []
    ensures ToSnakeCase([u1] + l1 + [u2] + l2 + [u3] + l3)
         == [LowerChar(u1)] + l1 + ['_', LowerChar(u2)] + l2 + ['_', LowerChar(u3)] + l3
  {
    FirstCapThreeWords(u1, l1, u2, l2, u3, l3);
    AllCapThreeWords(u1, l1, u2, l2, u3, l3);
    LowerThreeWords(u1, l1, u2, l2, u3, l3);
  }

  /** Lowercasing three capitalised words separated by underscores lowercases the capitals. */
  lemma LowerThreeWords(u1: char, l1: string, u2: char, l2: string, u3: char, l3: string)
    requires Lowercase(l1) && Lowercase(l2) && Lowercase(l3)
    ensures ToLower([u1] + l1 + ['_', u2] + l2 + ['_', u3] + l3)
         == [LowerChar(u1)] + l1 + ['_', LowerChar(u2)] + l2 + ['_', LowerChar(u3)] + l3
  {
    var p1 := [u1];
    var p2 := p1 + l1;
    var p3 := p2 + ['_', u2];
    var p4 := p3 + l2;
    var p5 := p4 + ['_', u3];
    LowerAppend(p5, l3);
    LowerAppend(p4, ['_', u3]);
    LowerAppend(p3, l2);
    LowerAppend(p2, ['_', u2]);
    LowerAppend(p1, l1);
    LowerOfLowercase(l1);
    LowerOfLowercase(l2);
    LowerOfLowercase(l3);
    assert ToLower(['_', u2]) == ['_', LowerChar(u2)];
    assert ToLower(['_', u3]) == ['_', LowerChar(u3)];
    assert ToLower(p1) == [LowerChar(u1)];
  }

  lemma LowerOfLowercase(s: string)
    requires Lowercase(s)
    ensures ToLower(s) == s
  {
    LowerIdentity(s);
  }

  /** A name of capitals only stays one word. */
  lemma CapitalsStayOneWord(s: string)
    requires forall i :: 0 <= i < |s| ==> IsAsciiUpper(s[i])
    ensures ToSnakeCase(s) == ToLower(s)
    ensures '_' !in ToSnakeCase(s)
  {
    FirstCapPlainAll(s);
    AllCapPlain(s);
  }

  lemma FirstCapPlainAll(s: string)
    requires forall i :: 0 <= i < |s| ==> IsAsciiUpper(s[i])
    ensures MatchFirstCap(s) == s
  {
    var e: string := [];
    assert s + e == s;
    FirstCapPlainPrefix(s, e);
  }

  /** A `Database` struct tagged `flag:"db" env:"DB"` holding a string field `URL` yields
      the flag "db-url" read from the environment variable "DB_URL". */
  lemma DatabaseUrlExample(d: ConfigFlags.Dispatch, parses: (ConfigFlags.FieldType, string) -> bool)
    ensures var url := ConfigFlags.Field("URL", map[], ConfigFlags.StringType, true, ConfigFlags.Scalar(""));
      var db := ConfigFlags.Field("Database", map["flag" := "db", "env" := "DB"],
                                  ConfigFlags.StructType([url]), true, ConfigFlags.Scalar(""));
      var r := ConfigFlags.ParseField(d, db, ConfigFlags.ParseOptions("", false, "", "", false, false), parses);
      r.Ok? && |r.value| == 1 && r.value[0].name == "db-url" && r.value[0].sources == ["DB_URL"]
  {
    var url := ConfigFlags.Field("URL", map[], ConfigFlags.StringType, true, ConfigFlags.Scalar(""));
    var db := ConfigFlags.Field("Database", map["flag" := "db", "env" := "DB"],
                                ConfigFlags.StructType([url]), true, ConfigFlags.Scalar(""));
    var opts := ConfigFlags.ParseOptions("", false, "", "", false, false);
    ConfigFlags.NestedFieldNames(d, db, url, opts, parses);
    UrlNames();
    DbUrlText();
  }

  lemma DbUrlText()
    ensures "db" + "-" + "url" == "db-url"
    ensures "DB" + "_" + "URL" == "DB_URL"
  {
  }

  lemma UrlNames()
    ensures ToKebabCase("URL") == "url" && ToScreamingSnakeCase("URL") == "URL"
  {
    CapitalsStayOneWord("URL");
    assert ToLower("URL") == "url";
    assert ToUpper("url") == "URL";
  }

  /** "MaxIdleConns" becomes "max_idle_conns". */
  lemma MaxIdleConnsExample()
    ensures ToSnakeCase("MaxIdleConns") == "max_idle_conns"
  {
    MaxIdleConnsWords();
    SnakeThreeWords('M', "ax", 'I', "dle", 'C', "onns");
  }

  lemma MaxIdleConnsWords()
    ensures "MaxIdleConns" == ['M'] + "ax" + ['I'] + "dle" + ['C'] + "onns"
    ensures "max_idle_conns" == [LowerChar('M')] + "ax" + ['_', LowerChar('I')] + "dle" + ['_', LowerChar('C')] + "onns"
  {
  }

  /** An all-capitals name is one word: "JWTKID" becomes "jwtkid". */
  lemma JwtKidExample()
    ensures ToSnakeCase("JWTKID") == "jwtkid"
  {
    CapitalsStayOneWord("JWTKID");
    LowerJwtKid();
  }

  lemma LowerJwtKid()
    ensures ToLower("JWTKID") == "jwtkid"
  {
    var r := ToLower("JWTKID");
    assert |r| == 6;
    assert r[0] == 'j' && r[1] == 'w' && r[2] == 't' && r[3] == 'k' && r[4] == 'i' && r[5] == 'd';
  }
}

=== FILE: config_flags.dfy ===
/** The walk that turns a configuration struct into command-line flags. Reflection is
    replaced by a description of the struct: each field's name, tags, type, whether it is
    exported, and its current value. Parsing a typed default (integers, durations, booleans,
    floats) is a parameter that only says whether the text parses. */
module ConfigFlags {
  import opened Wrappers
  import opened GoStrings
  import opened ConfigTags

  datatype IntSize = Word | Bits8 | Bits16 | Bits32 | Bits64

  /** The field types the walk tells apart. `DurationType` is `time.Duration`, a named int64.
      `NamedType` is any other defined type, such as `type Mode string`; its kind is its
      underlying type's. The walk never casts a struct, so a named struct type is walked like
      any other. */
  datatype FieldType =
    | StringType
    | BoolType
    | IntType(size: IntSize)
    | UintType(size: IntSize)
    | Float64Type
    | DurationType
    | SliceType(elem: FieldType)
    | StructType(fields: seq<Field>)
    | NamedType(underlying: FieldType)
    | OtherType

  /** A flag's default: a scalar in its textual form, or the items of a string slice. */
  datatype Value = Scalar(text: string) | Items(items: seq<string>)

  /** A struct field as reflection sees it; `exported` is whether the field can be set. */
  datatype Field = Field(name: string, tags: map<string, string>, typ: FieldType, exported: bool, current: Value)

  /** The reflect kinds the walk switches on. */
  datatype Kind = SliceKind | StructKind | StringKind | BoolKind | IntKind(size: IntSize)
                | UintKind(size: IntSize) | Float64Kind | OtherKind

  datatype FlagKind = StringFlag | StringSliceFlag | BoolFlag | IntFlag(size: IntSize)
                    | UintFlag(size: IntSize) | FloatFlag | DurationFlag

  /** A constructed flag; `sources` is the list of environment variables it reads. */
  datatype Flag = Flag(name: string, category: string, sources: seq<string>, usage: string,
                       required: bool, value: Option<Value>, kind: FlagKind)

  datatype ParseOptions = ParseOptions(envPrefix: string, envIsDisabled: bool, flagPrefix: string,
                                       category: string, alreadyHasDefaultValues: bool,
                                       requiredByDefault: bool)

  /** What ParseFlags is handed: a nil interface, a non-pointer, a typed nil pointer such as
      `(*Config)(nil)`, or a non-nil pointer to a type. */
  datatype Target = Nil | NotPointer | NilPointer | PointerTo(typ: FieldType)

  datatype ConfigError =
    | NilConfig
    | NotPointerConfig
    | NotStructConfig
    | PrivateField(field: string)
    | UnsupportedSlice
    | UnsupportedType
    | CastFailed(target: string, field: string)
    | BadDefault(field: string)

  /** The options a field's flag shares whatever its type. */
  datatype Common = Common(name: string, category: string, env: string, disableEnv: bool,
                           usage: string, required: bool)

  // ----- Names -----

  /** A non-empty prefix followed by its separator; the empty prefix stays empty. */
  function Prefixed(prefix: string, sep: char): string
  {
    if prefix == "" then "" else prefix + [sep]
  }

  /** A tag's value, or "" when the tag is absent. */
  function Tag(f: Field, key: string): string
  {
    if key in f.tags then f.tags[key] else ""
  }

  /** The flag name: the `name` tag when present, otherwise the field name in kebab case under
      the flag prefix. */
  function FlagName(f: Field, opts: ParseOptions): (r: string)
    ensures "name" in f.tags ==> r == f.tags["name"]
  {
    if "name" in f.tags then f.tags["name"] else Prefixed(opts.flagPrefix, '-') + ToKebabCase(f.name)
  }

  /** The environment variable name, and whether the environment is disabled for the field. */
  function EnvName(f: Field, opts: ParseOptions): (r: (string, bool))
    ensures r.1 <==> opts.envIsDisabled || ("env" in f.tags && f.tags["env"] == "-")
    ensures opts.envIsDisabled ==> r.0 == ""
    ensures !opts.envIsDisabled && "env" in f.tags ==> r.0 == f.tags["env"]
  {
    if opts.envIsDisabled then ("", true)
    else if "env" in f.tags then (f.tags["env"], f.tags["env"] == "-")
    else (Prefixed(opts.envPrefix, '_') + ToScreamingSnakeCase(f.name), false)
  }

  /** Whether the `cli` tag and the inherited default make the field required. */
  function CliRequired(tag: string, requiredByDefault: bool): (r: bool)
    ensures tag == "" ==> (r <==> requiredByDefault)
    ensures ',' !in tag && tag != "" ==> (r <==> tag == "required" || (tag != "optional" && requiredByDefault))
  {
    var options := if tag == "" then [] else Split(tag, ',');
    var required := "required" in options;
    var optional := "optional" in options;
    if optional then required else required || requiredByDefault
  }

  /** The settings every flag of a field shares: its names, the category, the usage text and
      whether it is required. */
  function CommonOptions(f: Field, opts: ParseOptions): (c: Common)
    ensures c.category == opts.category && c.usage == Tag(f, "usage")
    ensures opts.envIsDisabled ==> c.disableEnv && c.env == ""
    ensures Tag(f, "cli") == "" ==> (c.required <==> opts.requiredByDefault)
    ensures "name" in f.tags ==> c.name == f.tags["name"]
  {
    var (env, disableEnv) := EnvName(f, opts);
    Common(FlagName(f, opts), opts.category, env, disableEnv, Tag(f, "usage"),
           CliRequired(Tag(f, "cli"), opts.requiredByDefault))
  }

  /** The options a nested struct passes to its own fields. */
  function ChildOptions(f: Field, opts: ParseOptions): (r: ParseOptions)
    ensures r.category == f.name && !r.alreadyHasDefaultValues
    ensures r.envIsDisabled <==> opts.envIsDisabled || Tag(f, "env") == "-"
    ensures Tag(f, "cli") == "" ==> (r.requiredByDefault <==> opts.requiredByDefault)
  {
    var envPrefix := Prefixed(opts.envPrefix, '_') + (if "env" in f.tags then f.tags["env"] else ToScreamingSnakeCase(f.name));
    var flagPrefix := Prefixed(opts.flagPrefix, '-') + (if "flag" in f.tags then f.tags["flag"] else ToKebabCase(f.name));
    ParseOptions(envPrefix, opts.envIsDisabled || Tag(f, "env") == "-", flagPrefix, f.name, false,
                 CliRequired(Tag(f, "cli"), opts.requiredByDefault))
  }

  /** Generated names start with their prefix and its separator. Without a prefix, a
      generated flag name has no underscore and a generated environment name no lowercase
      letter. A nested struct's prefixes extend its parent's. */
  lemma GeneratedNameShapes(f: Field, opts: ParseOptions)
    ensures "name" !in f.tags ==> Prefixed(opts.flagPrefix, '-') <= FlagName(f, opts)
    ensures !opts.envIsDisabled && "env" !in f.tags ==> Prefixed(opts.envPrefix, '_') <= EnvName(f, opts).0
    ensures Prefixed(opts.envPrefix, '_') <= ChildOptions(f, opts).envPrefix
    ensures Prefixed(opts.flagPrefix, '-') <= ChildOptions(f, opts).flagPrefix
    ensures "name" !in f.tags && opts.flagPrefix == "" ==> '_' !in FlagName(f, opts)
    ensures !opts.envIsDisabled && "env" !in f.tags && opts.envPrefix == "" ==>
              forall i :: 0 <= i < |EnvName(f, opts).0| ==> !IsAsciiLower(EnvName(f, opts).0[i])
  {
    assert "" + ToKebabCase(f.name) == ToKebabCase(f.name);
    assert "" + ToScreamingSnakeCase(f.name) == ToScreamingSnakeCase(f.name);
  }

  // ----- Flag construction -----

  /** Building the flag: a value clears `required`, a bool flag never carries it, and the
      environment variable is read unless disabled. */
  function MakeFlag(c: Common, kind: FlagKind, value: Option<Value>): (fl: Flag)
    ensures fl.value == value && fl.kind == kind
    ensures fl.required <==> c.required && value == None && kind != BoolFlag
    ensures fl.sources == (if c.disableEnv then [] else [c.env])
  {
    var required := if value.Some? then false else c.required;
    Flag(c.name, c.category, if c.disableEnv then [] else [c.env], c.usage,
         if kind == BoolFlag then false else required, value, kind)
  }

  /** A flag that has a value, or is a bool flag, is not required. */
  predicate Sound(fl: Flag)
  {
    (fl.value.Some? || fl.kind == BoolFlag) ==> !fl.required
  }

  predicate AllSound(flags: seq<Flag>)
  {
    forall i :: 0 <= i < |flags| ==> Sound(flags[i])
  }

  predicate NoSources(flags: seq<Flag>)
  {
    forall i :: 0 <= i < |flags| ==> flags[i].sources == []
  }

  // ----- Scalar dispatch -----

  /** The reflect kind of a type: a duration's kind is int64's, a defined type's is its
      underlying type's. In Go the underlying type of a defined type is never itself a
      defined type; such a description has no kind the walk knows. */
  function KindOf(t: FieldType): Kind
  {
    match t
    case StringType => StringKind
    case BoolType => BoolKind
    case IntType(size) => IntKind(size)
    case UintType(size) => UintKind(size)
    case Float64Type => Float64Kind
    case DurationType => IntKind(Bits64)
    case SliceType(_) => SliceKind
    case StructType(_) => StructKind
    case NamedType(u) => if u.NamedType? then OtherKind else KindOf(u)
    case OtherType => OtherKind
  }

  /** The element type of a slice type, named or not. */
  function ElemOf(t: FieldType): FieldType
  {
    match t
    case SliceType(e) => e
    case NamedType(SliceType(e)) => e
    case _ => OtherType
  }

  /** The Go type of the destination each flag kind writes to. */
  function DestType(kind: FlagKind): FieldType
  {
    match kind
    case StringFlag => StringType
    case StringSliceFlag => SliceType(StringType)
    case BoolFlag => BoolType
    case IntFlag(size) => IntType(size)
    case UintFlag(size) => UintType(size)
    case FloatFlag => Float64Type
    case DurationFlag => DurationType
  }

  /** The pointer type the walk casts to for each flag kind, as its error message names it. */
  function CastTarget(kind: FlagKind): string
  {
    match kind
    case StringFlag => "*string"
    case StringSliceFlag => "*[]string"
    case BoolFlag => "*bool"
    case IntFlag(Word) => "*int"
    case IntFlag(Bits8) => "*int8"
    case IntFlag(Bits16) => "*int16"
    case IntFlag(Bits32) => "*int32"
    case IntFlag(Bits64) => "*int64"
    case UintFlag(Word) => "*uint"
    case UintFlag(Bits8) => "*uint8"
    case UintFlag(Bits16) => "*uint16"
    case UintFlag(Bits32) => "*uint32"
    case UintFlag(Bits64) => "*uint64"
    case FloatFlag => "*float64"
    case DurationFlag => "*time.Duration"
  }

  /** The built-in scalar types and `time.Duration`: the types some scalar case can cast to. */
  predicate IsScalar(t: FieldType)
  {
    t.StringType? || t.BoolType? || t.IntType? || t.UintType? || t.Float64Type? || t.DurationType?
  }

  /** The scalar types a dispatch gives a flag to. */
  predicate Accepts(d: Dispatch, t: FieldType)
  {
    IsScalar(t) && !(d == AsWritten && t == IntType(Bits64))
  }

  /** The kinds the scalar cases of the switch handle. */
  predicate IsScalarKind(k: Kind)
  {
    !k.SliceKind? && !k.StructKind? && !k.OtherKind?
  }

  /** The switch on the kind, as written or corrected. As written, the duration case is keyed
      on the kind of `time.Duration`, which is int64, and comes first, so every int64-kinded
      field reaches it and the later int64 case is never reached. Corrected, that case is
      taken only by `time.Duration` itself. */
  datatype Dispatch = AsWritten | Corrected

  /** The scalar case the kind of `t` selects, if any. */
  function CaseFor(d: Dispatch, t: FieldType): Option<FlagKind>
  {
    match KindOf(t)
    case IntKind(Bits64) => if d == AsWritten || t == DurationType then Some(DurationFlag) else Some(IntFlag(Bits64))
    case StringKind => Some(StringFlag)
    case IntKind(size) => Some(IntFlag(size))
    case UintKind(size) => Some(UintFlag(size))
    case Float64Kind => Some(FloatFlag)
    case BoolKind => Some(BoolFlag)
    case _ => None
  }

  /** The flag kind of a scalar field: the case its kind selects, then the cast of the field's
      address to a pointer to that case's Go type, which fails unless the field has exactly
      that type. */
  function ScalarFlagKind(d: Dispatch, t: FieldType, name: string): (r: Result<FlagKind, ConfigError>)
    ensures r.Ok? <==> Accepts(d, t)
    ensures r.Ok? ==> DestType(r.value) == t
    ensures r == Err(UnsupportedType) <==> !IsScalarKind(KindOf(t))
    ensures r.Err? && IsScalarKind(KindOf(t)) ==> r.error.CastFailed? && r.error.field == name
  {
    match CaseFor(d, t)
    case None => Err(UnsupportedType)
    case Some(kind) => if t == DestType(kind) then Ok(kind) else Err(CastFailed(CastTarget(kind), name))
  }

  /** An int64 field is rejected by the switch as written and accepted by the corrected one. */
  lemma Int64AsWrittenFails(name: string)
    ensures ScalarFlagKind(AsWritten, IntType(Bits64), name) == Err(CastFailed("*time.Duration", name))
    ensures ScalarFlagKind(Corrected, IntType(Bits64), name) == Ok(IntFlag(Bits64))
  {
  }

  /** On every type but int64, named or not, the switch as written and the corrected one
      agree. */
  lemma AsWrittenAgreesElsewhere(t: FieldType, name: string)
    requires KindOf(t) != IntKind(Bits64) || t == DurationType
    ensures ScalarFlagKind(AsWritten, t, name) == ScalarFlagKind(Corrected, t, name)
  {
  }

  /** A named int64 type other than `time.Duration` fails either switch, at the duration cast
      as written and at the int64 cast corrected. */
  lemma NamedInt64Fails(name: string)
    ensures ScalarFlagKind(AsWritten, NamedType(IntType(Bits64)), name) == Err(CastFailed("*time.Duration", name))
    ensures ScalarFlagKind(Corrected, NamedType(IntType(Bits64)), name) == Err(CastFailed("*int64", name))
  {
  }

  // ----- The walk -----

  /** The default text, unless the values already present are taken as defaults. */
  function DefaultText(f: Field, opts: ParseOptions): Option<string>
  {
    if !opts.alreadyHasDefaultValues && "default" in f.tags then Some(f.tags["default"]) else None
  }

  /** The flags for one field. `parses(t, text)` says whether `text` is a valid default for
      a field of type `t`; string defaults are taken verbatim. */
  function ParseField(d: Dispatch, f: Field, opts: ParseOptions, parses: (FieldType, string) -> bool)
    : (r: Result<seq<Flag>, ConfigError>)
    ensures !f.exported ==> r == Err(PrivateField(f.name))
    ensures r.Ok? ==> AllSound(r.value)
    ensures r.Ok? && opts.envIsDisabled ==> NoSources(r.value)
    decreases f, 1
  {
    if !f.exported then Err(PrivateField(f.name))
    else match f.typ
      case StructType(fields) =>
        ParseFields(d, fields, ChildOptions(f, opts), parses)
      case NamedType(StructType(fields)) =>
        ParseFields(d, fields, ChildOptions(f, opts), parses)
      case _ => LeafFlags(d, f, opts, parses)
  }

  /** The flag of a field that is not a struct: a string slice or a scalar. */
  function LeafFlags(d: Dispatch, f: Field, opts: ParseOptions, parses: (FieldType, string) -> bool)
    : (r: Result<seq<Flag>, ConfigError>)
    ensures r.Ok? ==> |r.value| == 1 && AllSound(r.value)
    ensures r.Ok? && opts.envIsDisabled ==> NoSources(r.value)
  {
    var c := CommonOptions(f, opts);
    var default := DefaultText(f, opts);
    if KindOf(f.typ) == SliceKind then
      if KindOf(ElemOf(f.typ)) != StringKind then Err(UnsupportedSlice)
      else if f.typ != SliceType(StringType) then Err(CastFailed(CastTarget(StringSliceFlag), f.name))
      else
        var value :=
          if opts.alreadyHasDefaultValues then Some(f.current)
          else if default.Some? then Some(Items(Split(default.value, ',')))
          else None;
        Ok([MakeFlag(c, StringSliceFlag, value)])
    else
      match ScalarFlagKind(d, f.typ, f.name)
      case Err(e) => Err(e)
      case Ok(kind) =>
        if opts.alreadyHasDefaultValues then Ok([MakeFlag(c, kind, Some(f.current))])
        else if default.None? then Ok([MakeFlag(c, kind, None)])
        else if kind != StringFlag && !parses(f.typ, default.value) then Err(BadDefault(f.name))
        else Ok([MakeFlag(c, kind, Some(Scalar(default.value)))])
  }

  /** The flags of a struct's fields in order, stopping at the first field that fails. */
  function ParseFields(d: Dispatch, fields: seq<Field>, opts: ParseOptions, parses: (FieldType, string) -> bool)
    : (r: Result<seq<Flag>, ConfigError>)
    ensures r.Ok? <==> forall i :: 0 <= i < |fields| ==> ParseField(d, fields[i], opts, parses).Ok?
    ensures r.Ok? ==> AllSound(r.value)
    ensures r.Ok? && opts.envIsDisabled ==> NoSources(r.value)
    decreases fields, 0
  {
    if fields == [] then Ok([])
    else
      match ParseField(d, fields[0], opts, parses)
      case Err(e) => Err(e)
      case Ok(head) =>
        match ParseFields(d, fields[1..], opts, parses)
        case Err(e) => Err(e)
        case Ok(tail) =>
          assert forall i :: 1 <= i < |fields| ==> fields[i] == fields[1..][i - 1];
          Ok(head + tail)
  }

  /** The fields of a struct type, named or not. */
  function StructFields(t: FieldType): seq<Field>
  {
    match t
    case StructType(fields) => fields
    case NamedType(StructType(fields)) => fields
    case _ => []
  }

  /** The entry point: the configuration must be a non-nil pointer to a struct. A typed nil
      pointer passes the nil and pointer checks; its `Elem()` is the zero `reflect.Value`, whose
      kind is not a struct. */
  function ParseFlags(d: Dispatch, target: Target, opts: ParseOptions, parses: (FieldType, string) -> bool)
    : (r: Result<seq<Flag>, ConfigError>)
    ensures target == Nil ==> r == Err(NilConfig)
    ensures target == NotPointer ==> r == Err(NotPointerConfig)
    ensures target == NilPointer ==> r == Err(NotStructConfig)
    ensures target.PointerTo? && KindOf(target.typ) != StructKind ==> r == Err(NotStructConfig)
    ensures target.PointerTo? && KindOf(target.typ) == StructKind ==>
              r == ParseFields(d, StructFields(target.typ), opts, parses)
  {
    match target
    case Nil => Err(NilConfig)
    case NotPointer => Err(NotPointerConfig)
    case NilPointer => Err(NotStructConfig)
    case PointerTo(t) =>
      if KindOf(t) == StructKind then ParseFields(d, StructFields(t), opts, parses) else Err(NotStructConfig)
  }

  // ----- Properties of the walk -----

  /** An accepted scalar field without a default yields the one flag its shared settings and
      flag kind describe, with no value. */
  lemma ScalarWithoutDefault(d: Dispatch, f: Field, opts: ParseOptions, parses: (FieldType, string) -> bool)
    requires f.exported && Accepts(d, f.typ)
    requires !opts.alreadyHasDefaultValues && "default" !in f.tags
    ensures ScalarFlagKind(d, f.typ, f.name).Ok?
    ensures ParseField(d, f, opts, parses)
         == Ok([MakeFlag(CommonOptions(f, opts), ScalarFlagKind(d, f.typ, f.name).value, None)])
  {
    assert KindOf(f.typ) != SliceKind && !f.typ.StructType? && !f.typ.NamedType?;
    assert DefaultText(f, opts) == None;
  }

  /** A scalar field without a default yields one flag whose name is the `name` tag or the
      prefixed kebab-case field name, and whose environment variable is the `env` tag or the
      prefixed screaming-snake-case field name, unless the environment is disabled. */
  lemma ScalarFlagNames(d: Dispatch, f: Field, opts: ParseOptions, parses: (FieldType, string) -> bool)
    requires f.exported && Accepts(d, f.typ)
    requires !opts.alreadyHasDefaultValues && "default" !in f.tags
    ensures var r := ParseField(d, f, opts, parses);
      && r.Ok? && |r.value| == 1
      && r.value[0].name == (if "name" in f.tags then f.tags["name"]
                             else Prefixed(opts.flagPrefix, '-') + ToKebabCase(f.name))
      && r.value[0].sources == (if opts.envIsDisabled then []
                                else if "env" in f.tags then (if f.tags["env"] == "-" then [] else [f.tags["env"]])
                                else [Prefixed(opts.envPrefix, '_') + ToScreamingSnakeCase(f.name)])
      && r.value[0].category == opts.category
      && r.value[0].kind == ScalarFlagKind(d, f.typ, f.name).value
      && r.value[0].value == None
  {
    ScalarWithoutDefault(d, f, opts, parses);
  }

  /** With matching prefixes and no name or env tags, the flag name is the environment
      variable name lowercased with dashes for underscores. */
  lemma FlagNameFollowsEnv(d: Dispatch, f: Field, opts: ParseOptions, parses: (FieldType, string) -> bool)
    requires f.exported && Accepts(d, f.typ)
    requires !opts.alreadyHasDefaultValues && "default" !in f.tags
    requires "name" !in f.tags && "env" !in f.tags && !opts.envIsDisabled
    requires opts.flagPrefix == Replace(ToLower(opts.envPrefix), '_', '-')
    ensures var r := ParseField(d, f, opts, parses);
      r.Ok? && |r.value| == 1 && |r.value[0].sources| == 1
      && r.value[0].name == Replace(ToLower(r.value[0].sources[0]), '_', '-')
  {
    ScalarFlagNames(d, f, opts, parses);
    var env := Prefixed(opts.envPrefix, '_') + ToScreamingSnakeCase(f.name);
    PrefixesCorrespond(opts.envPrefix);
    LowerAppend(Prefixed(opts.envPrefix, '_'), ToScreamingSnakeCase(f.name));
    ReplaceAppend(ToLower(Prefixed(opts.envPrefix, '_')), ToLower(ToScreamingSnakeCase(f.name)), '_', '-');
    KebabFromScreaming(f.name);
  }

  /** The flag prefix with its dash is the environment prefix with its underscore, lowercased
      with dashes for underscores. */
  lemma PrefixesCorrespond(envPrefix: string)
    ensures Prefixed(Replace(ToLower(envPrefix), '_', '-'), '-')
         == Replace(ToLower(Prefixed(envPrefix, '_')), '_', '-')
  {
    if envPrefix != "" {
      LowerAppend(envPrefix, "_");
      ReplaceAppend(ToLower(envPrefix), "_", '_', '-');
    }
  }

  /** A nested struct without `flag` or `env` tags passes on prefixes that still correspond,
      so the correspondence holds at every depth. */
  lemma ChildPrefixesCorrespond(f: Field, opts: ParseOptions)
    requires "flag" !in f.tags && "env" !in f.tags
    requires opts.flagPrefix == Replace(ToLower(opts.envPrefix), '_', '-')
    ensures var child := ChildOptions(f, opts);
      child.flagPrefix == Replace(ToLower(child.envPrefix), '_', '-')
  {
    PrefixesCorrespond(opts.envPrefix);
    LowerAppend(Prefixed(opts.envPrefix, '_'), ToScreamingSnakeCase(f.name));
    ReplaceAppend(ToLower(Prefixed(opts.envPrefix, '_')), ToLower(ToScreamingSnakeCase(f.name)), '_', '-');
    KebabFromScreaming(f.name);
  }

  /** With the `cli` tag written as comma-free options joined by commas, the field is required
      exactly when "required" is among them, or when the default is required and "optional"
      is not among them. */
  lemma CliRequiredOptions(options: seq<string>, requiredByDefault: bool)
    requires SepFree(options, ',')
    ensures CliRequired(Join(options, ','), requiredByDefault)
        <==> "required" in options || ("optional" !in options && requiredByDefault)
  {
    if |options| >= 1 {
      JoinSplit(options, ',');
      if Join(options, ',') == "" {
        assert options == [""];
      }
    }
  }

  /** A non-bool scalar field without a value is required as its `cli` tag and the inherited
      default decide; a bool field never is. */
  lemma ScalarRequired(d: Dispatch, f: Field, opts: ParseOptions, parses: (FieldType, string) -> bool, options: seq<string>)
    requires f.exported && Accepts(d, f.typ)
    requires !opts.alreadyHasDefaultValues && "default" !in f.tags
    requires Tag(f, "cli") == Join(options, ',') && SepFree(options, ',')
    ensures var r := ParseField(d, f, opts, parses);
      r.Ok? && |r.value| == 1
      && (r.value[0].required <==>
            (f.typ != BoolType && ("required" in options || ("optional" !in options && opts.requiredByDefault))))
  {
    ScalarWithoutDefault(d, f, opts, parses);
    CliRequiredOptions(options, opts.requiredByDefault);
  }

  /** A default tag is the flag's value and clears `required`; one that does not parse is an
      error. `BadDefault` abstracts the message: the duration case names the field, while the
      other cases return strconv's error, which names the text. */
  lemma ScalarDefault(d: Dispatch, f: Field, opts: ParseOptions, parses: (FieldType, string) -> bool)
    requires f.exported && Accepts(d, f.typ)
    requires !opts.alreadyHasDefaultValues && "default" in f.tags
    ensures var r := ParseField(d, f, opts, parses);
      if f.typ == StringType || parses(f.typ, f.tags["default"]) then
        r.Ok? && |r.value| == 1 && r.value[0].value == Some(Scalar(f.tags["default"]))
        && !r.value[0].required
      else r == Err(BadDefault(f.name))
  {
  }

  /** With values already present, the field's current value is the default, whatever the
      tag says, and the flag is not required. */
  lemma CurrentValueIsDefault(d: Dispatch, f: Field, opts: ParseOptions, parses: (FieldType, string) -> bool)
    requires f.exported && (Accepts(d, f.typ) || f.typ == SliceType(StringType))
    requires opts.alreadyHasDefaultValues
    ensures var r := ParseField(d, f, opts, parses);
      r.Ok? && |r.value| == 1 && r.value[0].value == Some(f.current) && !r.value[0].required
  {
  }

  /** A string-slice default is cut at every comma; joining the items gives the tag back. */
  lemma SliceDefault(d: Dispatch, f: Field, opts: ParseOptions, parses: (FieldType, string) -> bool)
    requires f.exported && f.typ == SliceType(StringType)
    requires !opts.alreadyHasDefaultValues && "default" in f.tags
    ensures var r := ParseField(d, f, opts, parses);
      && r.Ok? && |r.value| == 1 && r.value[0].kind == StringSliceFlag
      && r.value[0].value == Some(Items(Split(f.tags["default"], ',')))
      && Join(r.value[0].value.value.items, ',') == f.tags["default"]
      && !r.value[0].required
  {
    SplitJoin(f.tags["default"], ',');
  }

  /** A slice of anything but strings, and a type the walk does not know, are errors. */
  lemma Unsupported(d: Dispatch, f: Field, opts: ParseOptions, parses: (FieldType, string) -> bool)
    requires f.exported
    ensures f.typ.SliceType? && KindOf(f.typ.elem) != StringKind ==> ParseField(d, f, opts, parses) == Err(UnsupportedSlice)
    ensures f.typ == OtherType ==> ParseField(d, f, opts, parses) == Err(UnsupportedType)
  {
  }

  /** A field of a named scalar type, or a slice of a named string type, fails its cast: the
      walk accepts only the built-in types and `time.Duration`. */
  lemma NamedTypesFail(d: Dispatch, f: Field, opts: ParseOptions, parses: (FieldType, string) -> bool)
    requires f.exported
    ensures f.typ == NamedType(StringType) ==> ParseField(d, f, opts, parses) == Err(CastFailed("*string", f.name))
    ensures f.typ == NamedType(BoolType) ==> ParseField(d, f, opts, parses) == Err(CastFailed("*bool", f.name))
    ensures f.typ == NamedType(IntType(Word)) ==> ParseField(d, f, opts, parses) == Err(CastFailed("*int", f.name))
    ensures f.typ == SliceType(NamedType(StringType)) ==> ParseField(d, f, opts, parses) == Err(CastFailed("*[]string", f.name))
    ensures f.typ.NamedType? && IsScalar(f.typ.underlying) ==> ParseField(d, f, opts, parses).Err?
  {
  }

  /** As written, a configuration with an `int64` field yields no flags: the walk stops at the
      duration cast. */
  lemma Int64FieldAsWritten(f: Field, opts: ParseOptions, parses: (FieldType, string) -> bool)
    requires f.exported && f.typ == IntType(Bits64)
    ensures ParseFlags(AsWritten, PointerTo(StructType([f])), opts, parses) == Err(CastFailed("*time.Duration", f.name))
  {
    FirstError(AsWritten, [f], opts, parses, 0);
  }

  /** Corrected, the same configuration yields one int64 flag, and a `time.Duration` field still
      yields a duration flag. */
  lemma Int64FieldCorrected(f: Field, g: Field, opts: ParseOptions, parses: (FieldType, string) -> bool)
    requires f.exported && f.typ == IntType(Bits64) && g.exported && g.typ == DurationType
    requires !opts.alreadyHasDefaultValues && "default" !in f.tags && "default" !in g.tags
    ensures var r := ParseFlags(Corrected, PointerTo(StructType([f, g])), opts, parses);
      r.Ok? && |r.value| == 2 && r.value[0].kind == IntFlag(Bits64) && r.value[1].kind == DurationFlag
  {
    Int64AsWrittenFails(f.name);
    assert ScalarFlagKind(Corrected, DurationType, g.name) == Ok(DurationFlag);
    TwoScalarFields(Corrected, f, g, opts, parses);
  }

  /** A struct of two accepted scalar fields without defaults yields their two flags, in
      field order. */
  lemma TwoScalarFields(d: Dispatch, f: Field, g: Field, opts: ParseOptions, parses: (FieldType, string) -> bool)
    requires f.exported && Accepts(d, f.typ) && g.exported && Accepts(d, g.typ)
    requires !opts.alreadyHasDefaultValues && "default" !in f.tags && "default" !in g.tags
    ensures ScalarFlagKind(d, f.typ, f.name).Ok? && ScalarFlagKind(d, g.typ, g.name).Ok?
    ensures ParseFlags(d, PointerTo(StructType([f, g])), opts, parses)
         == Ok([MakeFlag(CommonOptions(f, opts), ScalarFlagKind(d, f.typ, f.name).value, None),
                MakeFlag(CommonOptions(g, opts), ScalarFlagKind(d, g.typ, g.name).value, None)])
  {
    ScalarWithoutDefault(d, f, opts, parses);
    ScalarWithoutDefault(d, g, opts, parses);
    TwoFields(d, f, g, opts, parses);
    var ff := MakeFlag(CommonOptions(f, opts), ScalarFlagKind(d, f.typ, f.name).value, None);
    var gf := MakeFlag(CommonOptions(g, opts), ScalarFlagKind(d, g.typ, g.name).value, None);
    assert [ff] + [gf] == [ff, gf];
    assert KindOf(StructType([f, g])) == StructKind;
    assert StructFields(StructType([f, g])) == [f, g];
  }

  /** Two fields that parse give their flags in order. */
  lemma TwoFields(d: Dispatch, f: Field, g: Field, opts: ParseOptions, parses: (FieldType, string) -> bool)
    requires ParseField(d, f, opts, parses).Ok? && ParseField(d, g, opts, parses).Ok?
    ensures ParseFields(d, [f, g], opts, parses)
         == Ok(ParseField(d, f, opts, parses).value + ParseField(d, g, opts, parses).value)
  {
    assert [g][1..] == [];
    ParseFieldsCons(d, [g], opts, parses);
    assert [f, g][1..] == [g];
    ParseFieldsCons(d, [f, g], opts, parses);
    assert ParseField(d, g, opts, parses).value + [] == ParseField(d, g, opts, parses).value;
  }

  /** A nested struct's fields see the struct's prefixes, its name as their category, its
      required flag as their default, and never the already-present values. */
  lemma NestedOptions(d: Dispatch, f: Field, opts: ParseOptions, parses: (FieldType, string) -> bool)
    requires f.exported && f.typ.StructType?
    ensures ParseField(d, f, opts, parses) == ParseFields(d, f.typ.fields, ChildOptions(f, opts), parses)
    ensures var child := ChildOptions(f, opts);
      && child.category == f.name
      && child.envPrefix == Prefixed(opts.envPrefix, '_') + (if "env" in f.tags then f.tags["env"] else ToScreamingSnakeCase(f.name))
      && child.flagPrefix == Prefixed(opts.flagPrefix, '-') + (if "flag" in f.tags then f.tags["flag"] else ToKebabCase(f.name))
      && (child.envIsDisabled <==> opts.envIsDisabled || Tag(f, "env") == "-")
      && child.requiredByDefault == CliRequired(Tag(f, "cli"), opts.requiredByDefault)
      && !child.alreadyHasDefaultValues
  {
  }

  /** `env:"-"` on a nested struct switches the environment off for everything inside it. */
  lemma EnvDashDisablesNested(d: Dispatch, f: Field, opts: ParseOptions, parses: (FieldType, string) -> bool)
    requires f.exported && f.typ.StructType? && "env" in f.tags && f.tags["env"] == "-"
    ensures var r := ParseField(d, f, opts, parses);
      r.Ok? ==> NoSources(r.value)
  {
    assert ChildOptions(f, opts).envIsDisabled;
  }

  /** A field of a nested struct tagged with `flag` and `env` prefixes gets those prefixes. */
  lemma NestedFieldNames(d: Dispatch, parent: Field, child: Field, opts: ParseOptions, parses: (FieldType, string) -> bool)
    requires parent.exported && parent.typ == StructType([child])
    requires "flag" in parent.tags && parent.tags["flag"] != ""
    requires "env" in parent.tags && parent.tags["env"] != "" && parent.tags["env"] != "-"
    requires opts.envPrefix == "" && opts.flagPrefix == "" && !opts.envIsDisabled
    requires child.exported && Accepts(d, child.typ)
    requires "name" !in child.tags && "env" !in child.tags && "default" !in child.tags
    ensures var r := ParseField(d, parent, opts, parses);
      && r.Ok? && |r.value| == 1
      && r.value[0].name == parent.tags["flag"] + "-" + ToKebabCase(child.name)
      && r.value[0].sources == [parent.tags["env"] + "_" + ToScreamingSnakeCase(child.name)]
      && r.value[0].category == parent.name
  {
    var copts := ChildOptions(parent, opts);
    assert copts.envPrefix == parent.tags["env"] && !copts.envIsDisabled;
    assert copts.flagPrefix == parent.tags["flag"];
    ScalarFlagNames(d, child, copts, parses);
    var h := ParseField(d, child, copts, parses).value;
    assert [child][1..] == [];
    assert ParseFields(d, [child], copts, parses) == Ok(h + []);
    assert h + [] == h;
  }

  /** The walk stops at the first field that fails and reports its error. */
  lemma {:induction false} FirstError(d: Dispatch, fields: seq<Field>, opts: ParseOptions,
                                      parses: (FieldType, string) -> bool, j: nat)
    requires j < |fields| && ParseField(d, fields[j], opts, parses).Err?
    requires forall i :: 0 <= i < j ==> ParseField(d, fields[i], opts, parses).Ok?
    ensures ParseFields(d, fields, opts, parses) == Err(ParseField(d, fields[j], opts, parses).error)
  {
    if j > 0 {
      ShiftFirstError(d, fields, opts, parses, j);
      FirstError(d, fields[1..], opts, parses, j - 1);
      ParseFieldsConsErr(d, fields, opts, parses);
    } else {
      ParseFieldsHeadErr(d, fields, opts, parses);
    }
  }

  /** The hypotheses of FirstError, one field further on. */
  lemma ShiftFirstError(d: Dispatch, fields: seq<Field>, opts: ParseOptions,
                        parses: (FieldType, string) -> bool, j: nat)
    requires 0 < j < |fields| && ParseField(d, fields[j], opts, parses).Err?
    requires forall i :: 0 <= i < j ==> ParseField(d, fields[i], opts, parses).Ok?
    ensures ParseField(d, fields[0], opts, parses).Ok?
    ensures j - 1 < |fields[1..]| && fields[1..][j - 1] == fields[j]
    ensures forall i :: 0 <= i < j - 1 ==> ParseField(d, fields[1..][i], opts, parses).Ok?
  {
    var rest := fields[1..];
    forall i | 0 <= i < j - 1 ensures ParseField(d, rest[i], opts, parses).Ok? {
      assert rest[i] == fields[i + 1];
    }
  }

  /** The walk fails with the first field's error when the first field fails. */
  lemma ParseFieldsHeadErr(d: Dispatch, fields: seq<Field>, opts: ParseOptions, parses: (FieldType, string) -> bool)
    requires fields != [] && ParseField(d, fields[0], opts, parses).Err?
    ensures ParseFields(d, fields, opts, parses) == Err(ParseField(d, fields[0], opts, parses).error)
  {
  }

  /** After a field that succeeds, the walk fails as the rest of it fails. */
  lemma ParseFieldsConsErr(d: Dispatch, fields: seq<Field>, opts: ParseOptions, parses: (FieldType, string) -> bool)
    requires fields != [] && ParseField(d, fields[0], opts, parses).Ok?
    requires ParseFields(d, fields[1..], opts, parses).Err?
    ensures ParseFields(d, fields, opts, parses) == ParseFields(d, fields[1..], opts, parses)
  {
  }

  /** Parsing two runs of fields is parsing each and concatenating the flags. */
  lemma {:induction false} ParseFieldsAppend(d: Dispatch, a: seq<Field>, b: seq<Field>, opts: ParseOptions,
                                             parses: (FieldType, string) -> bool)
    requires ParseFields(d, a, opts, parses).Ok? && ParseFields(d, b, opts, parses).Ok?
    ensures ParseFields(d, a + b, opts, parses)
         == Ok(ParseFields(d, a, opts, parses).value + ParseFields(d, b, opts, parses).value)
  {
    if a == [] {
      assert a + b == b;
      assert ParseFields(d, a, opts, parses).value == [];
      assert [] + ParseFields(d, b, opts, parses).value == ParseFields(d, b, opts, parses).value;
    } else {
      ParseFieldsCons(d, a, opts, parses);
      ParseFieldsAppend(d, a[1..], b, opts, parses);
      AppendStep(d, a, b, opts, parses);
    }
  }

  /** The inductive step of ParseFieldsAppend: one more field in front of the first run. */
  lemma AppendStep(d: Dispatch, a: seq<Field>, b: seq<Field>, opts: ParseOptions, parses: (FieldType, string) -> bool)
    requires a != [] && ParseField(d, a[0], opts, parses).Ok?
    requires ParseFields(d, a[1..], opts, parses).Ok? && ParseFields(d, b, opts, parses).Ok?
    requires ParseFields(d, a[1..] + b, opts, parses)
          == Ok(ParseFields(d, a[1..], opts, parses).value + ParseFields(d, b, opts, parses).value)
    ensures ParseFields(d, a + b, opts, parses)
         == Ok(ParseField(d, a[0], opts, parses).value + ParseFields(d, a[1..], opts, parses).value
               + ParseFields(d, b, opts, parses).value)
  {
    TailOfAppend(a, b);
    var h := ParseField(d, a[0], opts, parses).value;
    var ta := ParseFields(d, a[1..], opts, parses).value;
    var fb := ParseFields(d, b, opts, parses).value;
    ParseFieldsCons(d, a + b, opts, parses);
    assert h + (ta + fb) == (h + ta) + fb;
  }

  /** One step of the walk over a non-empty run of fields that all succeed. */
  lemma ParseFieldsCons(d: Dispatch, fields: seq<Field>, opts: ParseOptions, parses: (FieldType, string) -> bool)
    requires fields != [] && ParseField(d, fields[0], opts, parses).Ok?
    requires ParseFields(d, fields[1..], opts, parses).Ok?
    ensures ParseFields(d, fields, opts, parses)
         == Ok(ParseField(d, fields[0], opts, parses).value + ParseFields(d, fields[1..], opts, parses).value)
  {
  }
}

=== FILE: config_tags.dfy ===
/** Deriving command-line flags from a configuration struct's fields and tags: flag and
    environment-variable names, required-ness, defaults, and the prefixes a nested struct
    passes to its fields. The reflection walk is modelled over a description of the struct. */
module ConfigTags {
  import opened Wrappers
  import opened GoStrings

  // ----- Case conversion -----

  /** Length of the run of lowercase ASCII letters at the start of `s`. */
  function LowerRun(s: string): (n: nat)
    ensures n <= |s|
    ensures forall k :: 0 <= k < n ==> IsAsciiLower(s[k])
    ensures n < |s| ==> !IsAsciiLower(s[n])
  {
    if s == [] || !IsAsciiLower(s[0]) then 0 else 1 + LowerRun(s[1..])
  }

  /** Replacing every match of `(.)([A-Z][a-z]+)` by `${1}_${2}`, scanning left to right for
      non-overlapping leftmost matches; `.` matches any rune but a newline. */
  function MatchFirstCap(s: string): (r: string)
    ensures |s| <= |r| <= 2 * |s|
    ensures s != [] ==> r[0] == s[0]
    decreases |s|
  {
    if |s| >= 3 && s[0] != '\n' && IsAsciiUpper(s[1]) && IsAsciiLower(s[2]) then
      var n := 2 + LowerRun(s[2..]);
      [s[0], '_'] + s[1..n] + MatchFirstCap(s[n..])
    else if s == [] then []
    else [s[0]] + MatchFirstCap(s[1..])
  }

  /** Replacing every match of `([a-z0-9])([A-Z])` by `${1}_${2}`, left to right. */
  function MatchAllCap(s: string): (r: string)
    ensures |s| <= |r| <= 2 * |s|
    ensures s != [] ==> r[0] == s[0]
    decreases |s|
  {
    if |s| >= 2 && (IsAsciiLower(s[0]) || IsAsciiDigit(s[0])) && IsAsciiUpper(s[1]) then
      [s[0], '_', s[1]] + MatchAllCap(s[2..])
    else if s == [] then []
    else [s[0]] + MatchAllCap(s[1..])
  }

  function ToSnakeCase(s: string): (r: string)
    ensures forall i :: 0 <= i < |r| ==> !IsAsciiUpper(r[i])
  {
    ToLower(MatchAllCap(MatchFirstCap(s)))
  }

  function ToKebabCase(s: string): (r: string)
    ensures '_' !in r
  {
    Replace(ToSnakeCase(s), '_', '-')
  }

  function ToScreamingSnakeCase(s: string): (r: string)
    ensures forall i :: 0 <= i < |r| ==> !IsAsciiLower(r[i])
  {
    ToUpper(ToSnakeCase(s))
  }

  /** `s` without its underscores. */
  function Strip(s: string): string
  {
    if s == [] then [] else (if s[0] == '_' then [] else [s[0]]) + Strip(s[1..])
  }

  lemma {:induction false} StripAppend(a: string, b: string)
    ensures Strip(a + b) == Strip(a) + Strip(b)
  {
    if a != [] {
      assert (a + b)[1..] == a[1..] + b;
      StripAppend(a[1..], b);
    } else {
      assert a + b == b;
    }
  }

  lemma StripMatchStep(head: string, mid: string, rest: string, t: string)
    requires Strip(t) == Strip(rest)
    ensures Strip(head + ['_'] + mid + t) == Strip(head + mid + rest)
  {
    var u := head + ['_'];
    StripAppend(u + mid, t);
    StripAppend(u, mid);
    StripAppend(head, ['_']);
    assert Strip(['_']) == [];
    assert Strip(u) == Strip(head);
    StripAppend(head + mid, rest);
    StripAppend(head, mid);
  }

  /** One step of the first pass at a match. */
  lemma FirstCapAt(s: string)
    requires |s| >= 3 && s[0] != '\n' && IsAsciiUpper(s[1]) && IsAsciiLower(s[2])
    ensures MatchFirstCap(s)
         == [s[0], '_'] + s[1..2 + LowerRun(s[2..])] + MatchFirstCap(s[2 + LowerRun(s[2..])..])
  {
  }

  /** One step of the first pass where no match starts. */
  lemma FirstCapSkip(s: string)
    requires s != [] && !(|s| >= 3 && s[0] != '\n' && IsAsciiUpper(s[1]) && IsAsciiLower(s[2]))
    ensures MatchFirstCap(s) == [s[0]] + MatchFirstCap(s[1..])
  {
  }

  lemma Cut3<T>(s: seq<T>, i: nat, j: nat)
    requires i <= j <= |s|
    ensures s == s[..i] + s[i..j] + s[j..]
  {
    assert s[..i] + s[i..j] == s[..j];
  }

  lemma {:induction false} StripFirstCap(s: string)
    ensures Strip(MatchFirstCap(s)) == Strip(s)
    decreases |s|
  {
    if |s| >= 3 && s[0] != '\n' && IsAsciiUpper(s[1]) && IsAsciiLower(s[2]) {
      var n := 2 + LowerRun(s[2..]);
      var head, mid, rest := [s[0]], s[1..n], s[n..];
      var t := MatchFirstCap(rest);
      StripFirstCap(rest);
      FirstCapAt(s);
      assert [s[0], '_'] == head + ['_'];
      assert head == s[..1];
      Cut3(s, 1, n);
      StripMatchStep(head, mid, rest, t);
    } else if s != [] {
      FirstCapSkip(s);
      StripFirstCap(s[1..]);
      StripAppend([s[0]], MatchFirstCap(s[1..]));
      StripAppend([s[0]], s[1..]);
      assert s == [s[0]] + s[1..];
    }
  }

  lemma {:induction false} StripAllCap(s: string)
    ensures Strip(MatchAllCap(s)) == Strip(s)
    decreases |s|
  {
    if |s| >= 2 && (IsAsciiLower(s[0]) || IsAsciiDigit(s[0])) && IsAsciiUpper(s[1]) {
      StripAllCap(s[2..]);
      StripAppend([s[0], '_', s[1]], MatchAllCap(s[2..]));
      StripAppend([s[0], s[1]], s[2..]);
      assert Strip([s[0], '_', s[1]]) == [s[0], s[1]];
      assert s == [s[0], s[1]] + s[2..];
    } else if s != [] {
      StripAllCap(s[1..]);
      StripAppend([s[0]], MatchAllCap(s[1..]));
      StripAppend([s[0]], s[1..]);
      assert s == [s[0]] + s[1..];
    }
  }

  lemma {:induction false} StripLower(s: string)
    ensures Strip(ToLower(s)) == ToLower(Strip(s))
  {
    if s != [] {
      StripLower(s[1..]);
      assert ToLower(s)[1..] == ToLower(s[1..]);
      StripAppend([s[0]], s[1..]);
      assert s == [s[0]] + s[1..];
    }
  }

  /** toSnakeCase only inserts underscores and lowercases: dropping the underscores from
      both sides, the result is the lowercased input. */
  lemma SnakeOnlyInsertsUnderscores(s: string)
    ensures Strip(ToSnakeCase(s)) == ToLower(Strip(s))
  {
    StripFirstCap(s);
    StripAllCap(MatchFirstCap(s));
    StripLower(MatchAllCap(MatchFirstCap(s)));
  }

  /** The flag name's kebab case is the environment name's screaming snake case lowercased
      with dashes for underscores: both come from the same snake case. */
  lemma KebabFromScreaming(s: string)
    ensures ToKebabCase(s) == Replace(ToLower(ToScreamingSnakeCase(s)), '_', '-')
  {
    var snake := ToSnakeCase(s);
    var back := ToLower(ToUpper(snake));
    assert forall i :: 0 <= i < |snake| ==> back[i] == LowerChar(UpperChar(snake[i]));
    assert back == snake;
  }

  /** Text with no capital after its first rune has no first-cap match. */
  lemma {:induction false} FirstCapPlain(s: string)
    requires forall i :: 1 <= i < |s| ==> !IsAsciiUpper(s[i])
    ensures MatchFirstCap(s) == s
    decreases |s|
  {
    if s != [] {
      FirstCapPlain(s[1..]);
      assert s == [s[0]] + s[1..];
    }
  }

  /** Text where no lowercase letter or digit is followed by a capital has no all-cap
      match. */
  lemma {:induction false} AllCapPlain(s: string)
    requires forall i :: 0 <= i < |s| - 1 ==> !((IsAsciiLower(s[i]) || IsAsciiDigit(s[i])) && IsAsciiUpper(s[i + 1]))
    ensures MatchAllCap(s) == s
    decreases |s|
  {
    if s != [] {
      AllCapPlain(s[1..]);
      assert s == [s[0]] + s[1..];
    }
  }
}

=== FILE: email_pattern.dfy ===
/** The address pattern accepted at registration, `^[\w\-\.]+@([\w-]+\.)+[\w-]{2,6}$`, where
    `\w` is Go's ASCII word class. `EmailGrammar` is the pattern read as a grammar;
    `MatchEmail` is a recogniser that cuts the address at '@' and the domain at '.'. */
module EmailPattern {
  import GoStrings

  /** `\w`: ASCII letters, digits and '_'. */
  predicate IsWordChar(c: char)
  {
    'a' <= c <= 'z' || 'A' <= c <= 'Z' || '0' <= c <= '9' || c == '_'
  }

  /** `[\w-]`: a domain label character. */
  predicate IsLabelChar(c: char)
  {
    IsWordChar(c) || c == '-'
  }

  /** `[\w\-\.]`: a local-part character. */
  predicate IsLocalChar(c: char)
  {
    IsLabelChar(c) || c == '.'
  }

  predicate AllLabel(s: string)
  {
    forall i :: 0 <= i < |s| ==> IsLabelChar(s[i])
  }

  predicate AllLocal(s: string)
  {
    forall i :: 0 <= i < |s| ==> IsLocalChar(s[i])
  }

  /** Each label followed by a '.': the text `([\w-]+\.)+` matches. */
  function Dotted(labels: seq<string>): string
  {
    if labels == [] then [] else labels[0] + ['.'] + Dotted(labels[1..])
  }

  /** The labels and final label of a domain the pattern accepts. */
  predicate GoodLabels(parts: seq<string>)
  {
    && |parts| >= 2
    && (forall k :: 0 <= k < |parts| ==> parts[k] != [] && AllLabel(parts[k]))
    && 2 <= |parts[|parts| - 1]| <= 6
  }

  /** `([\w-]+\.)+[\w-]{2,6}`, read as a grammar. */
  ghost predicate DomainGrammar(d: string)
  {
    exists parts :: GoodLabels(parts) && d == Dotted(parts[..|parts| - 1]) + parts[|parts| - 1]
  }

  /** The whole pattern, read as a grammar. */
  ghost predicate EmailGrammar(s: string)
  {
    exists i :: 0 < i < |s| && s[i] == '@' && AllLocal(s[..i]) && DomainGrammar(s[i + 1..])
  }

  predicate MatchDomain(d: string)
  {
    GoodLabels(GoStrings.Split(d, '.'))
  }

  /** The recogniser: a non-empty local part up to the first '@', then a domain. An accepted
      address has exactly one '@', with a non-empty local part before it and a domain holding
      at least one '.' after it. */
  function MatchEmail(s: string): (ok: bool)
    ensures ok ==> var at := GoStrings.Find(s, '@');
            && 0 < at < |s| && s[at] == '@'
            && (forall j :: 0 <= j < |s| && s[j] == '@' ==> j == at)
            && '.' in s[at + 1..]
  {
    var at := GoStrings.Find(s, '@');
    if 0 < at < |s| && AllLocal(s[..at]) && MatchDomain(s[at + 1..]) then
      var d := s[at + 1..];
      DomainShape(d);
      assert forall j :: at < j < |s| ==> s[j] == d[j - at - 1];
      true
    else
      false
  }

  lemma {:induction false} JoinDotted(parts: seq<string>)
    requires |parts| >= 1
    ensures GoStrings.Join(parts, '.') == Dotted(parts[..|parts| - 1]) + parts[|parts| - 1]
  {
    if |parts| > 1 {
      var rest := parts[1..];
      JoinDotted(rest);
      assert rest[..|rest| - 1] == parts[..|parts| - 1][1..];
      assert parts[..|parts| - 1] == [parts[0]] + rest[..|rest| - 1];
      assert Dotted(parts[..|parts| - 1]) == parts[0] + ['.'] + Dotted(rest[..|rest| - 1]);
    } else {
      assert parts[..0] == [];
    }
  }

  lemma {:induction false} SplitDotted(labels: seq<string>, last: string)
    requires forall k :: 0 <= k < |labels| ==> '.' !in labels[k]
    requires '.' !in last
    ensures GoStrings.Split(Dotted(labels) + last, '.') == labels + [last]
  {
    if labels == [] {
      assert Dotted(labels) + last == last;
      GoStrings.SplitNone(last, '.');
    } else {
      var head, rest := labels[0], labels[1..];
      var tail := Dotted(rest) + last;
      assert forall k :: 0 <= k < |rest| ==> '.' !in rest[k] by {
        forall k | 0 <= k < |rest| ensures '.' !in rest[k] { assert rest[k] == labels[k + 1]; }
      }
      SplitDotted(rest, last);
      DottedCons(labels, last);
      assert '.' !in head;
      GoStrings.SplitCons(head, '.', tail);
      ConsSnoc(labels, last);
    }
  }

  lemma DottedCons(labels: seq<string>, last: string)
    requires labels != []
    ensures Dotted(labels) + last == labels[0] + ['.'] + (Dotted(labels[1..]) + last)
  {
  }

  lemma ConsSnoc(labels: seq<string>, last: string)
    requires labels != []
    ensures [labels[0]] + (labels[1..] + [last]) == labels + [last]
  {
    assert labels == [labels[0]] + labels[1..];
  }

  lemma LabelNoDot(s: string)
    requires AllLabel(s)
    ensures '.' !in s && '@' !in s
  {
    assert forall i :: 0 <= i < |s| ==> s[i] != '.' && s[i] != '@';
  }

  /** The recogniser accepts a domain exactly when the grammar derives it. */
  lemma DomainEquivalence(d: string)
    ensures MatchDomain(d) <==> DomainGrammar(d)
  {
    if MatchDomain(d) {
      DomainSound(d);
    }
    if DomainGrammar(d) {
      var ps :| GoodLabels(ps) && d == Dotted(ps[..|ps| - 1]) + ps[|ps| - 1];
      DomainComplete(ps);
    }
  }

  lemma DomainSound(d: string)
    requires MatchDomain(d)
    ensures DomainGrammar(d)
  {
    var parts := GoStrings.Split(d, '.');
    SplitForm(d);
    assert GoodLabels(parts) && d == Dotted(parts[..|parts| - 1]) + parts[|parts| - 1];
  }

  /** Every text is its dot-separated parts, each but the last followed by a dot. */
  lemma SplitForm(d: string)
    ensures var parts := GoStrings.Split(d, '.');
      d == Dotted(parts[..|parts| - 1]) + parts[|parts| - 1]
  {
    var parts := GoStrings.Split(d, '.');
    GoStrings.SplitJoin(d, '.');
    JoinDotted(parts);
    assert d == GoStrings.Join(parts, '.');
  }

  lemma DomainComplete(ps: seq<string>)
    requires GoodLabels(ps)
    ensures MatchDomain(Dotted(ps[..|ps| - 1]) + ps[|ps| - 1])
  {
    var labels := ps[..|ps| - 1];
    forall k | 0 <= k < |labels|
      ensures '.' !in labels[k]
    {
      LabelNoDot(labels[k]);
    }
    LabelNoDot(ps[|ps| - 1]);
    SplitDotted(labels, ps[|ps| - 1]);
    assert labels + [ps[|ps| - 1]] == ps;
  }

  /** The recogniser accepts exactly the addresses the pattern matches. */
  lemma EmailEquivalence(s: string)
    ensures MatchEmail(s) <==> EmailGrammar(s)
  {
    if MatchEmail(s) {
      EmailSound(s);
    }
    if EmailGrammar(s) {
      var i :| 0 < i < |s| && s[i] == '@' && AllLocal(s[..i]) && DomainGrammar(s[i + 1..]);
      EmailComplete(s, i);
    }
  }

  lemma EmailSound(s: string)
    requires MatchEmail(s)
    ensures EmailGrammar(s)
  {
    var at := GoStrings.Find(s, '@');
    DomainEquivalence(s[at + 1..]);
    assert 0 < at < |s| && s[at] == '@' && AllLocal(s[..at]) && DomainGrammar(s[at + 1..]);
  }

  lemma EmailComplete(s: string, i: int)
    requires 0 < i < |s| && s[i] == '@' && AllLocal(s[..i]) && DomainGrammar(s[i + 1..])
    ensures MatchEmail(s)
  {
    forall j | 0 <= j < i
      ensures s[j] != '@'
    {
      assert IsLocalChar(s[..i][j]);
    }
    assert GoStrings.Find(s, '@') == i;
    DomainEquivalence(s[i + 1..]);
  }

  lemma {:induction false} DottedChars(labels: seq<string>)
    requires forall k :: 0 <= k < |labels| ==> AllLabel(labels[k])
    ensures forall j :: 0 <= j < |Dotted(labels)| ==> Dotted(labels)[j] != '@'
  {
    if labels != [] {
      DottedChars(labels[1..]);
      LabelNoDot(labels[0]);
      var d := Dotted(labels);
      assert d == labels[0] + ['.'] + Dotted(labels[1..]);
      forall j | 0 <= j < |d|
        ensures d[j] != '@'
      {
        if j < |labels[0]| {
          assert d[j] == labels[0][j];
        } else if j > |labels[0]| {
          assert d[j] == Dotted(labels[1..])[j - |labels[0]| - 1];
        }
      }
    }
  }

  lemma NoAtConcat(a: string, b: string)
    requires forall j :: 0 <= j < |a| ==> a[j] != '@'
    requires '@' !in b
    ensures forall k :: 0 <= k < |a + b| ==> (a + b)[k] != '@'
  {
    forall k | 0 <= k < |a + b|
      ensures (a + b)[k] != '@'
    {
      if k >= |a| {
        assert (a + b)[k] == b[k - |a|];
      }
    }
  }

  /** An accepted domain has no '@' and at least one '.'. */
  lemma DomainShape(d: string)
    requires MatchDomain(d)
    ensures forall k :: 0 <= k < |d| ==> d[k] != '@'
    ensures '.' in d
  {
    var parts := GoStrings.Split(d, '.');
    SplitForm(d);
    var labels := parts[..|parts| - 1];
    var last := parts[|parts| - 1];
    DottedChars(labels);
    LabelNoDot(last);
    var dl := Dotted(labels);
    NoAtConcat(dl, last);
    assert dl == labels[0] + ['.'] + Dotted(labels[1..]);
    assert d[|labels[0]|] == '.';
  }
}

=== FILE: entity.dfy ===
/** The user record stored in the directory. */
module Entity {
  import opened Wrappers

  /** Go's `int32`: user ids are 32-bit signed integers. */
  type Int32 = x: int | -0x8000_0000 <= x < 0x8000_0000

  /** A user account. `password` is absent for accounts created through an external provider;
      the two instants are Unix nanoseconds. */
  datatype User = User(
    id: Int32,
    email: string,
    username: string,
    password: Option<string>,
    active: bool,
    verified: bool,
    createdAt: int,
    lastLogin: int)
}

=== FILE: go_strings.dfy ===
/** The functions of Go's `strings` package the model relies on, over sequences. */
module GoStrings {
  import Unicode

  /** Index of the first occurrence of `x` in `s`, or |s| when there is none
      (`strings.Index` for a one-element separator, with -1 read as |s|). */
  function Find<T(==)>(s: seq<T>, x: T): (i: nat)
    ensures i <= |s|
    ensures i < |s| ==> s[i] == x
    ensures i == |s| <==> x !in s
    ensures forall j :: 0 <= j < i ==> s[j] != x
  {
    if s == [] then 0 else if s[0] == x then 0 else 1 + Find(s[1..], x)
  }

  /** `strings.Join(parts, sep)` for a one-element separator. */
  function Join<T>(parts: seq<seq<T>>, sep: T): seq<T>
  {
    if |parts| == 0 then []
    else if |parts| == 1 then parts[0]
    else parts[0] + [sep] + Join(parts[1..], sep)
  }

  /** `strings.Split(s, sep)` for a one-element separator: every occurrence cuts. */
  function Split<T(==)>(s: seq<T>, sep: T): (parts: seq<seq<T>>)
    ensures |parts| >= 1
    decreases |s|
  {
    var i := Find(s, sep);
    if i == |s| then [s] else [s[..i]] + Split(s[i + 1..], sep)
  }

  /** `strings.SplitN(s, sep, n)` for n >= 1: the cuts of Split at the first n - 1
      separators, with the last part keeping the unsplit remainder. */
  function SplitN<T(==)>(s: seq<T>, sep: T, n: nat): (parts: seq<seq<T>>)
    requires n >= 1
    ensures 1 <= |parts| <= n
  {
    var all := Split(s, sep);
    if |all| <= n then all else all[..n - 1] + [Join(all[n - 1..], sep)]
  }

  lemma {:induction false} SplitJoin<T>(s: seq<T>, sep: T)
    ensures Join(Split(s, sep), sep) == s
    ensures SepFree(Split(s, sep), sep)
    decreases |s|
  {
    if sep in s {
      var i := Find(s, sep);
      var head, tail := s[..i], s[i + 1..];
      SplitAt(s, sep);
      SplitJoin(tail, sep);
      JoinCons(head, Split(tail, sep), sep);
      ConsSepFree(head, Split(tail, sep), sep);
    } else {
      SplitNone(s, sep);
    }
  }

  /** One step of Split: the text before the first separator, then the split of the rest. */
  lemma SplitAt<T>(s: seq<T>, sep: T)
    requires sep in s
    ensures Split(s, sep) == [s[..Find(s, sep)]] + Split(s[Find(s, sep) + 1..], sep)
    ensures s == s[..Find(s, sep)] + [sep] + s[Find(s, sep) + 1..]
    ensures sep !in s[..Find(s, sep)]
  {
    var i := Find(s, sep);
    assert s == s[..i] + [sep] + s[i + 1..];
  }

  /** The head and tail of a concatenation with a non-empty front. */
  lemma TailOfAppend<T>(a: seq<T>, b: seq<T>)
    requires a != []
    ensures (a + b)[1..] == a[1..] + b && (a + b)[0] == a[0]
  {
  }

  /** Splitting the join of separator-free parts gives the parts back. */
  lemma {:induction false} JoinSplit<T>(parts: seq<seq<T>>, sep: T)
    requires |parts| >= 1 && SepFree(parts, sep)
    ensures Split(Join(parts, sep), sep) == parts
  {
    if |parts| == 1 {
      SplitNone(parts[0], sep);
    } else {
      var rest := parts[1..];
      assert SepFree(rest, sep) by {
        forall k | 0 <= k < |rest| ensures sep !in rest[k] { assert rest[k] == parts[k + 1]; }
      }
      JoinSplit(rest, sep);
      assert sep !in parts[0];
      SplitCons(parts[0], sep, Join(rest, sep));
      assert parts == [parts[0]] + rest;
    }
  }

  /** Splitting at a first separator that follows a separator-free head. */
  lemma SplitCons<T>(a: seq<T>, sep: T, b: seq<T>)
    requires sep !in a
    ensures Split(a + [sep] + b, sep) == [a] + Split(b, sep)
  {
    var s := a + [sep] + b;
    var i := Find(s, sep);
    assert s[|a|] == sep;
    assert forall j :: 0 <= j < |a| ==> s[j] == a[j];
    assert i == |a|;
    assert s[..i] == a;
    assert s[i + 1..] == b;
  }

  /** A separator-free sequence is one part. */
  lemma SplitNone<T>(s: seq<T>, sep: T)
    requires sep !in s
    ensures Split(s, sep) == [s]
  {
  }

  /** SplitN into four parts of three separator-free fields and a remainder that may hold
      further separators. */
  lemma SplitNFour<T>(a: seq<T>, b: seq<T>, c: seq<T>, d: seq<T>, sep: T)
    requires sep !in a && sep !in b && sep !in c
    ensures SplitN(a + [sep] + (b + [sep] + (c + [sep] + d)), sep, 4) == [a, b, c, d]
  {
    var s := a + [sep] + (b + [sep] + (c + [sep] + d));
    SplitThree(a, b, c, d, sep);
    SplitNOfSplit(s, [a, b, c], d, sep);
  }

  lemma SplitThree<T>(a: seq<T>, b: seq<T>, c: seq<T>, d: seq<T>, sep: T)
    requires sep !in a && sep !in b && sep !in c
    ensures Split(a + [sep] + (b + [sep] + (c + [sep] + d)), sep) == [a, b, c] + Split(d, sep)
  {
    var t3 := c + [sep] + d;
    var t2 := b + [sep] + t3;
    var rest := Split(d, sep);
    SplitCons(c, sep, d);
    SplitCons(b, sep, t3);
    SplitCons(a, sep, t2);
    ConsThree(a, b, c, rest);
  }

  lemma ConsThree<T>(a: T, b: T, c: T, rest: seq<T>)
    ensures [a] + ([b] + ([c] + rest)) == [a, b, c] + rest
  {
  }

  /** When the split of `s` is some leading fields followed by the split of `d`, SplitN with one
      more part than there are leading fields keeps `d` whole. */
  lemma SplitNOfSplit<T>(s: seq<T>, lead: seq<seq<T>>, d: seq<T>, sep: T)
    requires Split(s, sep) == lead + Split(d, sep)
    ensures SplitN(s, sep, |lead| + 1) == lead + [d]
  {
    var rest := Split(d, sep);
    SplitJoin(d, sep);
    var all := Split(s, sep);
    var n := |lead| + 1;
    if |all| <= n {
      assert |rest| == 1;
      assert rest == [d];
    } else {
      assert all[..n - 1] == lead;
      assert all[n - 1..] == rest;
    }
  }

  /** SplitN into two parts cuts at the first separator. */
  lemma SplitNTwo<T>(s: seq<T>, sep: T)
    requires sep in s
    ensures SplitN(s, sep, 2) == [s[..Find(s, sep)], s[Find(s, sep) + 1..]]
  {
    var i := Find(s, sep);
    var head, rest := s[..i], s[i + 1..];
    SplitAt(s, sep);
    SplitNOfSplit(s, [head], rest, sep);
  }

  /** Joining the parts of SplitN with the separator gives back the input. */
  lemma SplitNJoin<T>(s: seq<T>, sep: T, n: nat)
    requires n >= 1
    ensures Join(SplitN(s, sep, n), sep) == s
  {
    SplitJoin(s, sep);
    if |Split(s, sep)| > n {
      SplitNLong(s, sep, n);
      CollapseTail(Split(s, sep), sep, n);
    } else {
      SplitNShort(s, sep, n);
    }
  }

  /** Joining the parts from index n - 1 on into one part first changes nothing. */
  lemma CollapseTail<T>(all: seq<seq<T>>, sep: T, n: nat)
    requires 1 <= n < |all|
    ensures Join(all[..n - 1] + [Join(all[n - 1..], sep)], sep) == Join(all, sep)
  {
    var lead, tail := all[..n - 1], all[n - 1..];
    assert lead + tail == all by { assert all == all[..n - 1] + all[n - 1..]; }
    JoinCollapse(lead, tail, sep);
  }

  /** SplitN with at least as many cuts as separators is Split. */
  lemma SplitNShort<T>(s: seq<T>, sep: T, n: nat)
    requires n >= 1 && |Split(s, sep)| <= n
    ensures SplitN(s, sep, n) == Split(s, sep)
  {
  }

  /** SplitN with fewer cuts than separators joins the remaining parts into the last. */
  lemma SplitNLong<T>(s: seq<T>, sep: T, n: nat)
    requires n >= 1 && |Split(s, sep)| > n
    ensures SplitN(s, sep, n) == Split(s, sep)[..n - 1] + [Join(Split(s, sep)[n - 1..], sep)]
  {
  }

  /** Every part of SplitN but the last is free of the separator; so is the last when the
      split stopped short of n parts. */
  lemma SplitNParts<T>(s: seq<T>, sep: T, n: nat)
    requires n >= 1
    ensures SepFreeBut(SplitN(s, sep, n), sep)
    ensures |SplitN(s, sep, n)| < n ==> SepFree(SplitN(s, sep, n), sep)
  {
    SplitJoin(s, sep);
  }

  /** The first part of SplitN(s, sep, n) for n >= 2 is the text before the first separator. */
  lemma SplitNHead<T>(s: seq<T>, sep: T, n: nat)
    requires n >= 2
    ensures SplitN(s, sep, n)[0] == s[..Find(s, sep)]
  {
  }

  /** Joining the tail into one part before joining everything changes nothing. */
  lemma {:induction false} JoinCollapse<T>(a: seq<seq<T>>, b: seq<seq<T>>, sep: T)
    requires |b| >= 1
    ensures Join(a + [Join(b, sep)], sep) == Join(a + b, sep)
  {
    if |a| == 0 {
      assert a + [Join(b, sep)] == [Join(b, sep)];
      assert a + b == b;
    } else {
      JoinCollapse(a[1..], b, sep);
      assert a + [Join(b, sep)] == [a[0]] + (a[1..] + [Join(b, sep)]);
      assert a + b == [a[0]] + (a[1..] + b);
      JoinCons(a[0], a[1..] + [Join(b, sep)], sep);
      JoinCons(a[0], a[1..] + b, sep);
    }
  }

  lemma JoinCons<T>(head: seq<T>, rest: seq<seq<T>>, sep: T)
    requires |rest| >= 1
    ensures Join([head] + rest, sep) == head + [sep] + Join(rest, sep)
  {
    assert ([head] + rest)[1..] == rest;
  }

  /** No part but possibly the last contains `sep`. */
  predicate SepFreeBut<T(==)>(parts: seq<seq<T>>, sep: T)
  {
    forall k :: 0 <= k < |parts| - 1 ==> sep !in parts[k]
  }

  /** No part contains `sep`. */
  predicate SepFree<T(==)>(parts: seq<seq<T>>, sep: T)
  {
    forall k :: 0 <= k < |parts| ==> sep !in parts[k]
  }

  lemma ConsSepFree<T>(head: seq<T>, rest: seq<seq<T>>, sep: T)
    requires sep !in head && SepFree(rest, sep)
    ensures SepFree([head] + rest, sep)
  {
    var parts := [head] + rest;
    forall k | 0 <= k < |parts|
      ensures sep !in parts[k]
    {
      if k > 0 { assert parts[k] == rest[k - 1]; }
    }
  }

  /** `strings.ReplaceAll(s, from, to)` for one-element `from` and `to`. */
  function Replace<T(==)>(s: seq<T>, from: T, to: T): (r: seq<T>)
    ensures |r| == |s|
    ensures forall i :: 0 <= i < |s| ==> r[i] == if s[i] == from then to else s[i]
  {
    if s == [] then [] else [if s[0] == from then to else s[0]] + Replace(s[1..], from, to)
  }

  predicate IsAsciiUpper(c: char) { 'A' <= c <= 'Z' }
  predicate IsAsciiLower(c: char) { 'a' <= c <= 'z' }
  predicate IsAsciiDigit(c: char) { '0' <= c <= '9' }

  function LowerChar(c: char): char
  {
    if IsAsciiUpper(c) then (c as int + 32) as char else c
  }

  function UpperChar(c: char): char
  {
    if IsAsciiLower(c) then (c as int - 32) as char else c
  }

  /** `strings.ToLower`, restricted to the ASCII letters. */
  function ToLower(s: string): (r: string)
    ensures |r| == |s|
    ensures forall i :: 0 <= i < |s| ==> r[i] == LowerChar(s[i])
    ensures forall i :: 0 <= i < |r| ==> !IsAsciiUpper(r[i])
  {
    if s == [] then [] else [LowerChar(s[0])] + ToLower(s[1..])
  }

  /** `strings.ToUpper`, restricted to the ASCII letters. */
  function ToUpper(s: string): (r: string)
    ensures |r| == |s|
    ensures forall i :: 0 <= i < |s| ==> r[i] == UpperChar(s[i])
    ensures forall i :: 0 <= i < |r| ==> !IsAsciiLower(r[i])
  {
    if s == [] then [] else [UpperChar(s[0])] + ToUpper(s[1..])
  }

  /** Case mapping and replacement act rune by rune, so they distribute over concatenation. */
  lemma LowerAppend(a: string, b: string)
    ensures ToLower(a + b) == ToLower(a) + ToLower(b)
  {
    var l, r := ToLower(a + b), ToLower(a) + ToLower(b);
    forall i | 0 <= i < |l|
      ensures l[i] == r[i]
    {
      if i < |a| {
        assert (a + b)[i] == a[i];
      } else {
        assert (a + b)[i] == b[i - |a|];
      }
    }
    assert l == r;
  }

  lemma UpperAppend(a: string, b: string)
    ensures ToUpper(a + b) == ToUpper(a) + ToUpper(b)
  {
    var l, r := ToUpper(a + b), ToUpper(a) + ToUpper(b);
    forall i | 0 <= i < |l|
      ensures l[i] == r[i]
    {
      if i < |a| {
        assert (a + b)[i] == a[i];
      } else {
        assert (a + b)[i] == b[i - |a|];
      }
    }
    assert l == r;
  }

  lemma ReplaceAppend(a: string, b: string, from: char, to: char)
    ensures Replace(a + b, from, to) == Replace(a, from, to) + Replace(b, from, to)
  {
    assert forall i :: 0 <= i < |a + b| ==>
      Replace(a + b, from, to)[i] == (Replace(a, from, to) + Replace(b, from, to))[i];
  }

  /** Length of the longest prefix of `s` made of space runes. */
  function LeadingSpaces(s: string): (n: nat)
    ensures n <= |s|
    ensures forall i :: 0 <= i < n ==> Unicode.IsSpace(s[i])
    ensures n < |s| ==> !Unicode.IsSpace(s[n])
  {
    if s == [] || !Unicode.IsSpace(s[0]) then 0 else 1 + LeadingSpaces(s[1..])
  }

  /** Length of the longest suffix of `s` made of space runes. */
  function TrailingSpaces(s: string): (n: nat)
    ensures n <= |s|
    ensures forall i :: |s| - n <= i < |s| ==> Unicode.IsSpace(s[i])
    ensures n < |s| ==> !Unicode.IsSpace(s[|s| - n - 1])
  {
    if s == [] || !Unicode.IsSpace(s[|s| - 1]) then 0 else 1 + TrailingSpaces(s[..|s| - 1])
  }

  /** `strings.TrimSpace`: `s` without its leading and trailing space runes. */
  function TrimSpace(s: string): (r: string)
    ensures exists i, j ::
              && 0 <= i <= j <= |s| && r == s[i..j]
              && (forall k :: 0 <= k < i ==> Unicode.IsSpace(s[k]))
              && (forall k :: j <= k < |s| ==> Unicode.IsSpace(s[k]))
    ensures r != [] ==> !Unicode.IsSpace(r[0]) && !Unicode.IsSpace(r[|r| - 1])
    ensures (forall k :: 0 <= k < |s| ==> !Unicode.IsSpace(s[k])) ==> r == s
  {
    var i := LeadingSpaces(s);
    var rest := s[i..];
    var j := TrailingSpaces(rest);
    assert rest[..|rest| - j] == s[i..i + |rest| - j];
    rest[..|rest| - j]
  }
}

=== FILE: jwt.dfy ===
/** The token backend: JWS Compact Serialization (section 7.1 of RFC 7515) of an EdDSA-signed
    claim set (RFC 8037), with the key chosen by the `kid` header (section 4.1.4 of RFC 7515).

    JSON, base64url, Ed25519 and the library's claim validation are not modelled; they are the
    function values of a `Jose` record, and the facts the proofs need about them are stated by
    `Lawful` and `KeyPair`. */
module Jwt {
  import opened Wrappers
  import opened Entity
  import opened Claims
  import GoStrings
  import MemoryCache

  type Key = seq<bv8>

  /** The protected header: `alg`, `typ` and the optional `kid`. */
  datatype Header = Header(alg: string, typ: string, kid: Option<string>)

  /** The JSON object a claim set is written as, member by member; an omitted `iat` or `exp`
      is `None`. The other registered claims are never set by the backend. */
  datatype ClaimsObject = ClaimsObject(
    iat: Option<int>,
    exp: Option<int>,
    tokenType: string,
    id: Int32,
    username: string,
    roles: seq<string>)

  /** How encoding/json lays the claim structure out. `Shadowing` is the structure as declared:
      its own `Iat`/`Exp` fields carry the JSON names `iat`/`exp` at depth 0, so they hide the
      embedded registered claims of the same names, which sit one level deeper (encoding/json
      keeps the shallowest field of a name). `Registered` is the structure without those two
      fields, where the registered claims are written, and omitted when nil. */
  datatype Layout = Shadowing | Registered

  /** The primitives the backend is built on. `encodeHeader`/`encodeClaims` are base64url of
      the JSON text; `sign` fails with `None`. */
  datatype Jose = Jose(
    encodeHeader: Header -> string,
    decodeHeader: string -> Option<Header>,
    encodeClaims: ClaimsObject -> string,
    decodeClaims: string -> Option<ClaimsObject>,
    sign: (string, Key) -> Option<string>,
    verify: (string, string, Key) -> bool)

  datatype Backend = Backend(privateKey: Key, publicKey: Key, currentKid: string)

  datatype KidError = MissingKid | InvalidKid

  datatype DecodeError = InvalidToken | InvalidTokenType

  datatype EncodeError = SigningFailed

  /** The object encoding/json writes for a claim set. */
  function ToObject(layout: Layout, c: UserClaims): ClaimsObject
  {
    match layout
    case Shadowing => ClaimsObject(Some(c.iat), Some(c.exp), c.tokenType, c.id, c.username, c.roles)
    case Registered => ClaimsObject(c.issuedAt, c.expiresAt, c.tokenType, c.id, c.username, c.roles)
  }

  /** The claim set encoding/json fills in from an object; members that are absent leave their
      field at its zero value. */
  function FromObject(layout: Layout, o: ClaimsObject): UserClaims
  {
    match layout
    case Shadowing =>
      UserClaims(if o.iat.Some? then o.iat.value else 0, if o.exp.Some? then o.exp.value else 0,
                 o.tokenType, o.id, o.username, o.roles, None, None)
    case Registered => UserClaims(0, 0, o.tokenType, o.id, o.username, o.roles, o.iat, o.exp)
  }

  /** What survives a trip through JSON: with the declared structure the registered dates are
      lost and the structure's own fields come back; without the shadowing fields the dates
      come back and those fields read as zero. The identity and the type always survive. */
  lemma ObjectRoundTrip(layout: Layout, c: UserClaims)
    ensures layout == Shadowing ==>
              FromObject(layout, ToObject(layout, c)) == c.(issuedAt := None, expiresAt := None)
    ensures layout == Registered ==>
              FromObject(layout, ToObject(layout, c)) == c.(iat := 0, exp := 0)
  {
  }

  /** jwt/v5's default validation of the registered claims at the instant `now`, in
      nanoseconds: an `exp` claim that is present must lie after `now`; a missing one is not
      required. `iat` is not checked by default and `nbf` is never set by the backend. */
  predicate Valid(c: UserClaims, now: int)
  {
    c.expiresAt.Some? ==> now < c.expiresAt.value * MemoryCache.NanosPerSecond
  }

  /** Decoding inverts encoding, and encoded segments and signatures use no '.'. */
  ghost predicate Lawful(j: Jose)
  {
    && (forall h :: j.decodeHeader(j.encodeHeader(h)) == Some(h))
    && (forall o :: j.decodeClaims(j.encodeClaims(o)) == Some(o))
    && (forall h :: '.' !in j.encodeHeader(h))
    && (forall o :: '.' !in j.encodeClaims(o))
    && (forall m, k :: j.sign(m, k).Some? ==> '.' !in j.sign(m, k).value)
  }

  /** A signature made with the backend's private key verifies under its public key. */
  ghost predicate KeyPair(j: Jose, b: Backend)
  {
    forall m :: j.sign(m, b.privateKey).Some? ==> j.verify(m, j.sign(m, b.privateKey).value, b.publicKey)
  }

  const SigningMethod := "EdDSA"

  /** The header of every token the backend issues. */
  function HeaderFor(b: Backend): (h: Header)
    ensures h.kid == Some(b.currentKid) && h.alg == SigningMethod
  {
    Header(SigningMethod, "JWT", Some(b.currentKid))
  }

  /** The claim set of a token: the caller's identity and type, with the registered dates set
      to `now` and to `expiration` nanoseconds later, each cut down to its whole second as
      `jwt.NewNumericDate` does. The structure's own `iat`/`exp` fields are left zero. */
  function ClaimsFor(payload: TokenUser, expiration: int, tokenType: string, now: int): (c: UserClaims)
    ensures UserPayloadFromUserClaims(c) == payload
    ensures c.tokenType == tokenType
    ensures c.issuedAt.Some? && c.expiresAt.Some?
    ensures c.issuedAt.value * MemoryCache.NanosPerSecond <= now < (c.issuedAt.value + 1) * MemoryCache.NanosPerSecond
    ensures c.expiresAt.value * MemoryCache.NanosPerSecond <= now + expiration
                                                         < (c.expiresAt.value + 1) * MemoryCache.NanosPerSecond
    ensures c.iat == 0 && c.exp == 0
  {
    UserClaims(0, 0, tokenType, payload.id, payload.username, payload.roles,
               Some(now / MemoryCache.NanosPerSecond), Some((now + expiration) / MemoryCache.NanosPerSecond))
  }

  function SigningInput(j: Jose, layout: Layout, h: Header, c: UserClaims): string
  {
    j.encodeHeader(h) + "." + j.encodeClaims(ToObject(layout, c))
  }

  /** Issue a token. Signing is the only step that can fail; the token is then empty. */
  function Encode(j: Jose, b: Backend, layout: Layout, payload: TokenUser, expiration: int, tokenType: string, now: int)
    : (r: (string, Option<EncodeError>))
    ensures r.1.Some? <==>
              j.sign(SigningInput(j, layout, HeaderFor(b), ClaimsFor(payload, expiration, tokenType, now)), b.privateKey).None?
    ensures r.1.Some? ==> r.0 == ""
  {
    var input := SigningInput(j, layout, HeaderFor(b), ClaimsFor(payload, expiration, tokenType, now));
    match j.sign(input, b.privateKey)
    case None => ("", Some(SigningFailed))
    case Some(sig) => (input + "." + sig, None)
  }

  /** The key function: the backend's public key, only for a header naming the current kid. */
  function KeyFor(b: Backend, h: Header): (r: Result<Key, KidError>)
    ensures r.Ok? <==> h.kid == Some(b.currentKid)
    ensures r.Ok? ==> r.value == b.publicKey
    ensures h.kid.None? ==> r == Err(MissingKid)
  {
    match h.kid
    case None => Err(MissingKid)
    case Some(kid) => if kid != b.currentKid then Err(InvalidKid) else Ok(b.publicKey)
  }

  /** A compact token the backend vouches for: three '.'-separated segments, a decodable
      header naming the EdDSA algorithm and the current kid, decodable claims, and a signature
      over the first two segments that verifies under the backend's public key. */
  predicate Authentic(j: Jose, b: Backend, token: string)
  {
    var parts := GoStrings.Split(token, '.');
    && |parts| == 3
    && j.decodeHeader(parts[0]).Some?
    && j.decodeHeader(parts[0]).value.alg == SigningMethod
    && j.decodeHeader(parts[0]).value.kid == Some(b.currentKid)
    && j.decodeClaims(parts[1]).Some?
    && j.verify(parts[0] + "." + parts[1], parts[2], b.publicKey)
  }

  /** The claim set a token's middle segment holds, for an authentic token. */
  function ClaimsOf(j: Jose, b: Backend, layout: Layout, token: string): UserClaims
    requires Authentic(j, b, token)
  {
    FromObject(layout, j.decodeClaims(GoStrings.Split(token, '.')[1]).value)
  }

  /** Parse and verify a compact token: three '.'-separated segments, decodable header and
      claims, an EdDSA header, an accepted kid, a verifying signature and valid claims. */
  function Parse(j: Jose, b: Backend, layout: Layout, token: string, now: int): (r: Option<UserClaims>)
    ensures r.Some? <==> Authentic(j, b, token) && Valid(ClaimsOf(j, b, layout, token), now)
    ensures r.Some? ==> r.value == ClaimsOf(j, b, layout, token)
  {
    var parts := GoStrings.Split(token, '.');
    if |parts| != 3 then None
    else
      match j.decodeHeader(parts[0])
      case None => None
      case Some(h) =>
        match j.decodeClaims(parts[1])
        case None => None
        case Some(o) =>
          var c := FromObject(layout, o);
          match KeyFor(b, h)
          case Err(_) => None
          case Ok(key) =>
            if h.alg == SigningMethod && j.verify(parts[0] + "." + parts[1], parts[2], key) && Valid(c, now)
            then Some(c) else None
  }

  /** Decode a token of the expected type. Every parse or validation failure, the kid errors
      included, is `InvalidToken`; the type is compared only on a token that parsed. */
  function Decode(j: Jose, b: Backend, layout: Layout, token: string, tokenType: string, now: int)
    : (r: Result<UserClaims, DecodeError>)
    ensures Parse(j, b, layout, token, now).None? <==> r == Err(InvalidToken)
    ensures r == Err(InvalidTokenType) <==>
              Parse(j, b, layout, token, now).Some? && Parse(j, b, layout, token, now).value.tokenType != tokenType
    ensures r.Ok? ==> Parse(j, b, layout, token, now) == Some(r.value) && r.value.tokenType == tokenType
  {
    match Parse(j, b, layout, token, now)
    case None => Err(InvalidToken)
    case Some(c) => if c.tokenType != tokenType then Err(InvalidTokenType) else Ok(c)
  }

  /** The segments of an issued token. */
  lemma EncodedSegments(j: Jose, b: Backend, layout: Layout, payload: TokenUser, expiration: int, tokenType: string, now: int)
    requires Lawful(j)
    requires Encode(j, b, layout, payload, expiration, tokenType, now).1.None?
    ensures var c := ClaimsFor(payload, expiration, tokenType, now);
            var token := Encode(j, b, layout, payload, expiration, tokenType, now).0;
            var input := SigningInput(j, layout, HeaderFor(b), c);
            GoStrings.Split(token, '.')
            == [j.encodeHeader(HeaderFor(b)), j.encodeClaims(ToObject(layout, c)), j.sign(input, b.privateKey).value]
  {
    var c := ClaimsFor(payload, expiration, tokenType, now);
    var hs, cs := j.encodeHeader(HeaderFor(b)), j.encodeClaims(ToObject(layout, c));
    var sig := j.sign(hs + "." + cs, b.privateKey).value;
    var token := hs + "." + cs + "." + sig;
    assert token == hs + ['.'] + (cs + ['.'] + sig);
    GoStrings.SplitCons(hs, '.', cs + ['.'] + sig);
    GoStrings.SplitCons(cs, '.', sig);
    GoStrings.SplitNone(sig, '.');
  }

  /** Decoding an issued token under the same backend: it parses to the claim set that
      survives JSON, and then succeeds exactly when that claim set is still valid. */
  lemma DecodeIssued(j: Jose, b: Backend, layout: Layout, payload: TokenUser, expiration: int,
                     tokenType: string, requested: string, now: int, later: int)
    requires Lawful(j) && KeyPair(j, b)
    requires Encode(j, b, layout, payload, expiration, tokenType, now).1.None?
    ensures var c := FromObject(layout, ToObject(layout, ClaimsFor(payload, expiration, tokenType, now)));
            Decode(j, b, layout, Encode(j, b, layout, payload, expiration, tokenType, now).0, requested, later)
            == if !Valid(c, later) then Err(InvalidToken)
               else if tokenType != requested then Err(InvalidTokenType)
               else Ok(c)
  {
    EncodedSegments(j, b, layout, payload, expiration, tokenType, now);
  }

  /** A token whose signature does not verify under the backend's public key, or whose header
      names another algorithm or kid, is refused whatever its claims and whenever it is read. */
  lemma ForgedRejected(j: Jose, b: Backend, layout: Layout, token: string, tokenType: string, now: int)
    requires var parts := GoStrings.Split(token, '.');
             |parts| == 3 && j.decodeHeader(parts[0]).Some?
             && (|| !j.verify(parts[0] + "." + parts[1], parts[2], b.publicKey)
                 || j.decodeHeader(parts[0]).value.alg != SigningMethod
                 || j.decodeHeader(parts[0]).value.kid != Some(b.currentKid))
    ensures Decode(j, b, layout, token, tokenType, now) == Err(InvalidToken)
  {
  }

  /** Round trip as written: a token decodes, at any later instant whatsoever, to the issued
      identity and type with no registered dates, so it never expires. The `iat`/`exp` the
      token carries are the structure's zero-valued fields. */
  lemma RoundTripAsWritten(j: Jose, b: Backend, payload: TokenUser, expiration: int,
                           tokenType: string, now: int, later: int)
    requires Lawful(j) && KeyPair(j, b)
    requires Encode(j, b, Shadowing, payload, expiration, tokenType, now).1.None?
    ensures var r := Decode(j, b, Shadowing, Encode(j, b, Shadowing, payload, expiration, tokenType, now).0, tokenType, later);
            && r == Ok(ClaimsFor(payload, expiration, tokenType, now).(issuedAt := None, expiresAt := None))
            && UserPayloadFromUserClaims(r.value) == payload
            && r.value.iat == 0 && r.value.exp == 0
  {
    DecodeIssued(j, b, Shadowing, payload, expiration, tokenType, tokenType, now, later);
    ObjectRoundTrip(Shadowing, ClaimsFor(payload, expiration, tokenType, now));
  }

  /** Round trip with the registered dates written: a token decodes to the issued claims while
      the current instant is before the expiry second, and is an invalid token from then on;
      in particular it is rejected once `expiration` has elapsed. */
  lemma RoundTripIntended(j: Jose, b: Backend, payload: TokenUser, expiration: int,
                          tokenType: string, now: int, later: int)
    requires Lawful(j) && KeyPair(j, b)
    requires Encode(j, b, Registered, payload, expiration, tokenType, now).1.None?
    ensures var c := ClaimsFor(payload, expiration, tokenType, now);
            var r := Decode(j, b, Registered, Encode(j, b, Registered, payload, expiration, tokenType, now).0, tokenType, later);
            && (r.Ok? <==> later < c.expiresAt.value * MemoryCache.NanosPerSecond)
            && (r.Ok? ==> r.value == c && UserPayloadFromUserClaims(r.value) == payload)
            && (r.Err? ==> r.error == InvalidToken)
            && (later >= now + expiration ==> r == Err(InvalidToken))
  {
    DecodeIssued(j, b, Registered, payload, expiration, tokenType, tokenType, now, later);
    ObjectRoundTrip(Registered, ClaimsFor(payload, expiration, tokenType, now));
  }

  /** A token issued by a backend with another kid is rejected, whatever else holds. */
  lemma WrongKidRejected(j: Jose, b1: Backend, b2: Backend, layout: Layout, payload: TokenUser, expiration: int,
                         tokenType: string, requested: string, now: int, later: int)
    requires Lawful(j)
    requires b1.currentKid != b2.currentKid
    requires Encode(j, b1, layout, payload, expiration, tokenType, now).1.None?
    ensures Decode(j, b2, layout, Encode(j, b1, layout, payload, expiration, tokenType, now).0, requested, later)
         == Err(InvalidToken)
  {
    EncodedSegments(j, b1, layout, payload, expiration, tokenType, now);
  }

  /** A token that verifies but was issued for another type yields InvalidTokenType while it
      is valid; as written, that is forever. */
  lemma WrongTypeRejected(j: Jose, b: Backend, payload: TokenUser, expiration: int,
                          tokenType: string, requested: string, now: int, later: int)
    requires Lawful(j) && KeyPair(j, b)
    requires Encode(j, b, Shadowing, payload, expiration, tokenType, now).1.None?
    requires requested != tokenType
    ensures Decode(j, b, Shadowing, Encode(j, b, Shadowing, payload, expiration, tokenType, now).0, requested, later)
         == Err(InvalidTokenType)
  {
    DecodeIssued(j, b, Shadowing, payload, expiration, tokenType, requested, now, later);
  }

  /** A token without a kid header is rejected as an invalid token, never as a missing kid. */
  lemma MissingKidCollapses(j: Jose, b: Backend, layout: Layout, token: string, tokenType: string, now: int)
    requires var parts := GoStrings.Split(token, '.');
             |parts| == 3 && j.decodeHeader(parts[0]).Some? && j.decodeHeader(parts[0]).value.kid.None?
    ensures Decode(j, b, layout, token, tokenType, now) == Err(InvalidToken)
  {
  }
}

=== FILE: log_pool.dfy ===
/** The ring of preallocated log buffers: `Next` hands out the buffers in turn. */
module LogPool {
  import opened Wrappers

  /** A byte slice, by length and capacity (its contents play no part here). */
  datatype Slice = Slice(len: nat, cap: nat)

  datatype BufPool = BufPool(pool: seq<Slice>, cursor: int, len: int)

  /** `len` buffers, the cursor before the first one until the first `Next`. */
  predicate Valid(p: BufPool)
  {
    |p.pool| == p.len && -1 <= p.cursor < p.len
  }

  function NewBufPool(size: nat, len: nat): (p: BufPool)
    ensures Valid(p) && p.cursor == -1 && p.len == len
    ensures forall i :: 0 <= i < len ==> p.pool[i] == Slice(0, size)
  {
    BufPool(seq(len, _ => Slice(0, size)), -1, len)
  }

  /** Advance the cursor, wrapping to 0 at `len`, and return the buffer there cut to length 0.
      With no buffers the index is out of range (`None`). */
  function Next(p: BufPool): (r: Option<(BufPool, Slice)>)
    requires Valid(p)
    ensures r.None? <==> p.len == 0
    ensures r.Some? ==> Valid(r.value.0) && 0 <= r.value.0.cursor < p.len
    ensures r.Some? ==> r.value.0.pool == p.pool && r.value.0.len == p.len
    ensures r.Some? ==> r.value.0.cursor == (p.cursor + 1) % p.len
    ensures r.Some? ==> r.value.1 == Slice(0, p.pool[r.value.0.cursor].cap)
  {
    var cursor := if p.cursor + 1 >= p.len then 0 else p.cursor + 1;
    if cursor >= |p.pool| then None
    else Some((p.(cursor := cursor), Slice(0, p.pool[cursor].cap)))
  }

  /** Call Next `k` times on a fresh pool of `n` buffers, recording the cursor after each
      call: the i-th call (from 0) lands on buffer i mod n. */
  method NextMany(size: nat, n: nat, k: nat) returns (p: BufPool, cursors: seq<int>)
    requires n >= 1
    ensures Valid(p) && p.len == n && p.pool == NewBufPool(size, n).pool
    ensures |cursors| == k
    ensures forall i :: 0 <= i < k ==> cursors[i] == i % n
    ensures k > 0 ==> p.cursor == (k - 1) % n
  {
    p := NewBufPool(size, n);
    cursors := [];
    var i := 0;
    while i < k
      invariant 0 <= i <= k
      invariant Valid(p) && p.len == n && p.pool == NewBufPool(size, n).pool
      invariant |cursors| == i
      invariant forall j :: 0 <= j < i ==> cursors[j] == j % n
      invariant i == 0 ==> p.cursor == -1
      invariant i > 0 ==> p.cursor == (i - 1) % n
    {
      var r := Next(p);
      p := r.value.0;
      if i > 0 {
        ModStep(i, n);
      }
      cursors := cursors + [p.cursor];
      i := i + 1;
    }
  }

  /** Adding one before or after reducing modulo n agrees. */
  lemma ModStep(i: nat, n: nat)
    requires n >= 1 && i >= 1
    ensures ((i - 1) % n + 1) % n == i % n
  {
    var q, r := (i - 1) / n, (i - 1) % n;
    assert i == q * n + (r + 1);
    if r + 1 < n {
      ModUnique(i, n, q, r + 1);
    } else {
      assert i == (q + 1) * n + 0;
      ModUnique(i, n, q + 1, 0);
    }
  }

  lemma ModUnique(x: int, n: int, q: int, r: int)
    requires n >= 1 && 0 <= r < n && x == q * n + r
    ensures x % n == r
  {
    var q2, r2 := x / n, x % n;
    assert x == q2 * n + r2;
    assert (q - q2) * n == r2 - r;
    if q > q2 {
      MulAtLeast(q - q2, n);
    } else if q < q2 {
      MulAtLeast(q2 - q, n);
    }
  }

  lemma MulAtLeast(d: int, n: int)
    requires d >= 1 && n >= 1
    ensures d * n >= n
  {
  }
}

=== FILE: logger.dfy ===
/** The coloured `slog` handler: level filtering and labels, key and value quoting, and the
    attribute and group prefixes a derived handler carries. Output is text appended to a
    buffer; `isPrint` stands for Go's `unicode.IsPrint`. */
module Logger {
  import opened Wrappers
  import Unicode
  import Strconv

  /** The levels: slog's own four plus TRACE below DEBUG and FATAL just above ERROR. */
  const LevelTrace := -5
  const LevelDebug := -4
  const LevelInfo := 0
  const LevelWarn := 4
  const LevelError := 8
  const LevelFatal := 9

  /** `time.StampMilli`, the default time layout. */
  const StampMilli := "Jan _2 15:04:05.000"

  const Esc: char := '\U{001B}'
  const AnsiFaint := [Esc] + "[2m"
  const AnsiReset := [Esc] + "[0m"
  const AnsiPurple := [Esc] + "[35m"
  const AnsiBlue := [Esc] + "[34m"
  const AnsiGreen := [Esc] + "[32m"
  const AnsiYellow := [Esc] + "[33m"
  const AnsiRed := [Esc] + "[31m"
  const AnsiCyan := [Esc] + "[36m"

  /** The handler's configuration and the prefixes WithAttrs and WithGroup accumulate. The
      writer, the mutex and the attribute-replacement hook are not modelled. */
  datatype Handler = Handler(
    attrsPrefix: string,
    groupPrefix: string,
    groups: seq<string>,
    level: int,
    noColor: bool,
    timeFormat: string,
    addSource: bool)

  datatype Options = Options(addSource: bool, level: Option<int>, timeFormat: string, noColor: bool)

  /** An attribute with a string value. */
  datatype Attr = Attr(key: string, value: string)

  /** The group prefix a list of group names stands for: each name followed by a dot. */
  function Dotted(groups: seq<string>): string
  {
    if groups == [] then "" else Dotted(groups[..|groups| - 1]) + groups[|groups| - 1] + "."
  }

  /** What every handler keeps: the group prefix spells out the group list, and a colourless
      handler's attribute prefix holds no escape character. The group list is taken as the
      handler's own copy; Go's `append` may share its array with sibling handlers. */
  predicate Wellformed(h: Handler)
  {
    && h.groupPrefix == Dotted(h.groups)
    && (h.noColor ==> Esc !in h.attrsPrefix)
  }

  /** A new handler: level INFO and the StampMilli layout unless the options say otherwise. */
  function NewColoredHandler(opts: Option<Options>): (h: Handler)
    ensures Wellformed(h)
    ensures h.attrsPrefix == "" && h.groups == []
    ensures opts.None? ==> h.level == LevelInfo && h.timeFormat == StampMilli && !h.noColor && !h.addSource
    ensures opts.Some? ==> h.noColor == opts.value.noColor && h.addSource == opts.value.addSource
    ensures opts.Some? ==> h.level == (if opts.value.level.Some? then opts.value.level.value else LevelInfo)
    ensures opts.Some? ==> h.timeFormat == (if opts.value.timeFormat != "" then opts.value.timeFormat else StampMilli)
  {
    var h := Handler("", "", [], LevelInfo, false, StampMilli, false);
    if opts.None? then h
    else
      var o := opts.value;
      h.(addSource := o.addSource,
         level := if o.level.Some? then o.level.value else h.level,
         timeFormat := if o.timeFormat != "" then o.timeFormat else h.timeFormat,
         noColor := o.noColor)
  }

  /** Whether the handler lets a record of the given level through. */
  function Enabled(h: Handler, level: int): (r: bool)
    ensures r <==> h.level <= level
  {
    level >= h.level
  }

  /** Enabled is a threshold: a level is let through iff it is at least the configured one. */
  lemma EnabledThreshold(h: Handler, level: int, higher: int)
    requires level <= higher
    ensures Enabled(h, level) ==> Enabled(h, higher)
    ensures Enabled(h, h.level) && !Enabled(h, h.level - 1)
  {
  }

  /** Without options the handler lets INFO through and drops DEBUG and TRACE. */
  lemma DefaultLevel()
    ensures Enabled(NewColoredHandler(None), LevelInfo)
    ensures !Enabled(NewColoredHandler(None), LevelDebug)
    ensures !Enabled(NewColoredHandler(None), LevelTrace)
  {
  }

  /** `buf.WriteStringIf(ok, s)`. */
  function WriteStringIf(buf: string, ok: bool, s: string): (r: string)
    ensures r == buf || (ok && r == buf + s)
    ensures !ok ==> r == buf
  {
    if ok then buf + s else buf
  }

  /** The text of a level's offset from its label's base: nothing for zero, an explicit '+'
      before a positive offset, and the minus sign of a negative one. */
  function DeltaText(delta: int): (t: string)
    ensures delta == 0 <==> t == ""
    ensures delta > 0 ==> t[0] == '+'
    ensures delta < 0 ==> t[0] == '-'
    ensures forall i :: 0 <= i < |t| ==> Strconv.IsDigit(t[i]) || t[i] == '+' || t[i] == '-'
  {
    if delta == 0 then ""
    else
      var d := Strconv.FormatInt(delta);
      FormatIntChars(delta);
      if delta > 0 then "+" + d else d
  }

  function AppendLevelDelta(buf: string, delta: int): string
  {
    buf + DeltaText(delta)
  }

  /** The decimal form of an integer is digits after an optional minus sign, and it starts
      with a digit exactly when the integer is not negative. */
  lemma FormatIntChars(n: int)
    ensures forall i :: 0 <= i < |Strconv.FormatInt(n)| ==>
              Strconv.IsDigit(Strconv.FormatInt(n)[i]) || Strconv.FormatInt(n)[i] == '-'
    ensures n < 0 <==> Strconv.FormatInt(n)[0] == '-'
  {
  }

  /** The text of a non-zero delta reads back, through `strconv.ParseInt`, as the delta. */
  lemma DeltaRoundTrip(delta: int)
    requires delta != 0 && Strconv.IsInt64(delta)
    ensures Strconv.ParseInt(DeltaText(delta), 64) == Strconv.NumResult(delta, None)
  {
    var t := DeltaText(delta);
    Strconv.ParseFormatInt(delta);
    if delta > 0 {
      var d := Strconv.FormatInt(delta);
      assert t[1..] == d;
      FormatIntChars(delta);
    }
  }

  /** Distinct 64-bit deltas have distinct texts. */
  lemma DeltaTextInjective(x: int, y: int)
    requires Strconv.IsInt64(x) && Strconv.IsInt64(y)
    requires DeltaText(x) == DeltaText(y)
    ensures x == y
  {
    if x != 0 && y != 0 {
      DeltaRoundTrip(x);
      DeltaRoundTrip(y);
    }
  }

  /** How a level is labelled: the colour, the header, and the base the delta is measured
      from. */
  datatype Style = Style(color: string, header: string, base: int)

  function LevelStyle(level: int): (s: Style)
  {
    if level < LevelDebug then Style(AnsiCyan, "TRACE", LevelTrace)
    else if level < LevelInfo then Style(AnsiBlue, "DEBUG", LevelDebug)
    else if level < LevelWarn then Style(AnsiGreen, "INFO", LevelInfo)
    else if level < LevelError then Style(AnsiYellow, "WARN", LevelWarn)
    else if level == LevelFatal then Style(AnsiPurple, "FATAL", LevelFatal)
    else Style(AnsiRed, "ERROR", LevelError)
  }

  /** Append a level's label: its header and its delta from the header's base, wrapped in the
      header's colour unless colours are off. */
  function AppendLevel(buf: string, level: int, noColor: bool): (r: string)
    ensures noColor ==> r == buf + Label(level)
    ensures !noColor ==> r == buf + LevelStyle(level).color + Label(level) + AnsiReset
  {
    var st := LevelStyle(level);
    LabelSplit(level);
    Regroup(buf, st.color, st.header, DeltaText(level - st.base), AnsiReset);
    var b := WriteStringIf(buf, !noColor, st.color);
    var b := AppendLevelDelta(b + st.header, level - st.base);
    WriteStringIf(b, !noColor, AnsiReset)
  }

  /** The label of a level as a reader sees it: the header of its band and the offset from
      the band's base. */
  function Label(level: int): (r: string)
    ensures |r| >= 4
    ensures r[0] == 'T' <==> level < LevelDebug
    ensures r[0] == 'D' <==> LevelDebug <= level < LevelInfo
    ensures r[0] == 'I' <==> LevelInfo <= level < LevelWarn
    ensures r[0] == 'W' <==> LevelWarn <= level < LevelError
    ensures r[0] == 'F' <==> level == LevelFatal
    ensures r[0] == 'E' <==> LevelError <= level && level != LevelFatal
  {
    if level < LevelDebug then "TRACE" + DeltaText(level - LevelTrace)
    else if level < LevelInfo then "DEBUG" + DeltaText(level - LevelDebug)
    else if level < LevelWarn then "INFO" + DeltaText(level - LevelInfo)
    else if level < LevelError then "WARN" + DeltaText(level - LevelWarn)
    else if level == LevelFatal then "FATAL"
    else "ERROR" + DeltaText(level - LevelError)
  }

  /** The labels of representative levels, ERROR+2 for 10 among them. */
  lemma LabelExamples()
    ensures Label(-6) == "TRACE-1" && Label(-5) == "TRACE"
    ensures Label(-4) == "DEBUG" && Label(-1) == "DEBUG+3"
    ensures Label(0) == "INFO" && Label(3) == "INFO+3"
    ensures Label(4) == "WARN" && Label(7) == "WARN+3"
    ensures Label(8) == "ERROR" && Label(9) == "FATAL" && Label(10) == "ERROR+2"
  {
    assert DeltaText(-1) == "-1";
    assert DeltaText(2) == "+2";
    assert DeltaText(3) == "+3";
  }

  lemma Regroup(buf: string, color: string, header: string, t: string, reset: string)
    ensures buf + header + t == buf + (header + t)
    ensures buf + color + header + t + reset == buf + color + (header + t) + reset
  {
  }

  /** A colourless label holds no escape character. */
  lemma LabelNoEscape(level: int)
    ensures Esc !in Label(level)
  {
    var st := LevelStyle(level);
    var t := DeltaText(level - st.base);
    LabelSplit(level);
    HeaderNoEscape(level);
    assert Esc !in t by {
      forall i | 0 <= i < |t| ensures t[i] != Esc { assert Strconv.IsDigit(t[i]) || t[i] == '+' || t[i] == '-'; }
    }
    NotInAppend(st.header, t, Esc);
  }

  lemma HeaderNoEscape(level: int)
    ensures Esc !in LevelStyle(level).header
    ensures |LevelStyle(level).header| >= 4
  {
  }

  lemma NotInAppend<T>(a: seq<T>, b: seq<T>, x: T)
    requires x !in a && x !in b
    ensures x !in a + b
  {
  }

  lemma LabelSplit(level: int)
    ensures Label(level) == LevelStyle(level).header + DeltaText(level - LevelStyle(level).base)
  {
    var st := LevelStyle(level);
    if level == LevelFatal {
      assert st == Style(AnsiPurple, "FATAL", LevelFatal);
      assert DeltaText(level - st.base) == "";
      assert "FATAL" + "" == "FATAL";
    } else {
      assert Label(level) == st.header + DeltaText(level - st.base);
    }
  }

  /** The first letter of a header names the band. */
  lemma HeaderInitial(a: int, b: int)
    requires LevelStyle(a).header[0] == LevelStyle(b).header[0]
    ensures LevelStyle(a).header == LevelStyle(b).header
    ensures LevelStyle(a).base == LevelStyle(b).base
  {
  }

  /** A label starts with its header's first letter and continues, after the header, with
      the delta text. */
  lemma LabelParts(level: int)
    ensures |Label(level)| >= |LevelStyle(level).header| >= 4
    ensures Label(level)[0] == LevelStyle(level).header[0]
    ensures Label(level)[|LevelStyle(level).header|..] == DeltaText(level - LevelStyle(level).base)
  {
    LabelSplit(level);
    HeaderNoEscape(level);
    HeadAndRest(LevelStyle(level).header, DeltaText(level - LevelStyle(level).base));
  }

  lemma HeadAndRest<T>(h: seq<T>, t: seq<T>)
    requires h != []
    ensures (h + t)[0] == h[0] && (h + t)[|h|..] == t
  {
  }

  /** Distinct 64-bit levels get distinct labels: the header fixes the band and the delta
      text fixes the offset. */
  lemma LabelInjective(a: int, b: int)
    requires Strconv.IsInt64(a) && Strconv.IsInt64(b)
    requires Label(a) == Label(b)
    ensures a == b
  {
    var sa, sb := LevelStyle(a), LevelStyle(b);
    LabelParts(a);
    LabelParts(b);
    HeaderInitial(a, b);
    DeltaInRange(a);
    DeltaInRange(b);
    DeltaTextInjective(a - sa.base, b - sb.base);
  }

  /** The offset of a 64-bit level from its band's base is itself a 64-bit integer. */
  lemma DeltaInRange(level: int)
    requires Strconv.IsInt64(level)
    ensures Strconv.IsInt64(level - LevelStyle(level).base)
  {
  }

  /** A rune that may stand unquoted in a key or value. */
  predicate Plain(c: char, isPrint: char -> bool)
  {
    !Unicode.IsSpace(c) && c != '"' && c != '=' && isPrint(c)
  }

  function HasSpecial(s: string, isPrint: char -> bool): (r: bool)
    ensures r <==> exists i :: 0 <= i < |s| && !Plain(s[i], isPrint)
  {
    if s == [] then false
    else if !Plain(s[0], isPrint) then true
    else
      assert forall i :: 1 <= i < |s| ==> s[i] == s[1..][i - 1];
      HasSpecial(s[1..], isPrint)
  }

  /** Whether a string must be quoted: it is empty, or holds a space, a double quote, an
      equals sign or a non-printable rune. */
  function NeedsQuoting(s: string, isPrint: char -> bool): (r: bool)
    ensures r <==> s == [] || exists i :: 0 <= i < |s| && !Plain(s[i], isPrint)
  {
    if |s| == 0 then true else HasSpecial(s, isPrint)
  }

  /** Append `s`, quoted when quoting is asked for and the string needs it. */
  function AppendString(buf: string, s: string, quote: bool, isPrint: char -> bool): (r: string)
    ensures (quote && (s == [] || exists i :: 0 <= i < |s| && !Plain(s[i], isPrint)))
            ==> r == buf + Strconv.Quote(s, isPrint)
    ensures (!quote || (s != [] && forall i :: 0 <= i < |s| ==> Plain(s[i], isPrint))) ==> r == buf + s
  {
    if quote && NeedsQuoting(s, isPrint) then buf + Strconv.Quote(s, isPrint) else buf + s
  }

  /** The token appendString writes for `s` when quoting is asked for. */
  function Token(s: string, isPrint: char -> bool): string
  {
    AppendString("", s, true, isPrint)
  }

  /** appendString quotes exactly the empty string and strings with a rune that may not stand
      unquoted, and only when asked to; anything else is written verbatim. */
  lemma AppendStringCases(buf: string, s: string, quote: bool, isPrint: char -> bool)
    ensures (quote && (s == [] || exists i :: 0 <= i < |s| && !Plain(s[i], isPrint)))
            ==> AppendString(buf, s, quote, isPrint) == buf + Strconv.Quote(s, isPrint)
    ensures (!quote || (s != [] && forall i :: 0 <= i < |s| ==> Plain(s[i], isPrint)))
            ==> AppendString(buf, s, quote, isPrint) == buf + s
    ensures quote ==> AppendString(buf, s, quote, isPrint) == buf + Token(s, isPrint)
  {
  }

  /** A quoted-if-needed token can be told apart from its surroundings: it is never empty,
      and it either opens with a double quote or holds no space, double quote or '='. */
  lemma TokenDelimited(s: string, isPrint: char -> bool)
    ensures var t := Token(s, isPrint);
      && t != []
      && (t[0] == '"' || forall i :: 0 <= i < |t| ==> Plain(t[i], isPrint))
  {
  }

  /** Quoting only wraps a string that needs it solely for its spaces or equals signs. */
  lemma QuoteWrapsPlainText(s: string, isPrint: char -> bool)
    requires forall i :: 0 <= i < |s| ==> isPrint(s[i]) && s[i] != '"' && s[i] != '\\'
    ensures Strconv.Quote(s, isPrint) == "\"" + s + "\""
  {
    Strconv.EscapeAllPlain(s, isPrint);
  }

  /** Escaping never emits the escape character when it is not printable. */
  lemma {:induction false} EscapeAllNoEscape(s: string, isPrint: char -> bool)
    requires !isPrint(Esc)
    ensures Esc !in Strconv.EscapeAll(s, isPrint)
  {
    if s != [] {
      EscapeAllNoEscape(s[1..], isPrint);
      var e := Strconv.EscapeRune(s[0], isPrint);
      assert Esc !in e;
    }
  }

  /** Whatever the text, a quoted-if-needed token holds no escape character. */
  lemma TokenNoEscape(s: string, isPrint: char -> bool)
    requires !isPrint(Esc)
    ensures Esc !in Token(s, isPrint)
  {
    if NeedsQuoting(s, isPrint) {
      EscapeAllNoEscape(s, isPrint);
    } else {
      assert forall i :: 0 <= i < |s| ==> s[i] != Esc;
    }
  }

  /** Append a key: its group prefix and name, quoted if needed, then '=', in faint type
      unless colours are off. */
  function AppendKey(buf: string, key: string, groups: string, noColor: bool, isPrint: char -> bool)
    : (r: string)
    ensures noColor ==> r == buf + Token(groups + key, isPrint) + "="
    ensures !noColor ==> r == buf + AnsiFaint + Token(groups + key, isPrint) + "=" + AnsiReset
  {
    AppendStringCases(buf, groups + key, true, isPrint);
    AppendStringCases(buf + AnsiFaint, groups + key, true, isPrint);
    var b := WriteStringIf(buf, !noColor, AnsiFaint);
    var b := AppendString(b, groups + key, true, isPrint) + "=";
    WriteStringIf(b, !noColor, AnsiReset)
  }

  /** The text one string attribute adds: key, value quoted if needed, and a space. */
  function AttrText(a: Attr, groupPrefix: string, noColor: bool, isPrint: char -> bool): string
  {
    AppendString(AppendKey("", a.key, groupPrefix, noColor, isPrint), a.value, true, isPrint) + " "
  }

  /** A string attribute is its key token, '=', its value token and a space; with colour the
      key and '=' are faint. */
  lemma AttrTextShape(a: Attr, groupPrefix: string, noColor: bool, isPrint: char -> bool)
    ensures noColor ==>
      AttrText(a, groupPrefix, noColor, isPrint)
        == Token(groupPrefix + a.key, isPrint) + "=" + Token(a.value, isPrint) + " "
    ensures !noColor ==>
      AttrText(a, groupPrefix, noColor, isPrint)
        == AnsiFaint + Token(groupPrefix + a.key, isPrint) + "=" + AnsiReset + Token(a.value, isPrint) + " "
  {
    var k := AppendKey("", a.key, groupPrefix, noColor, isPrint);
    var kt, vt := Token(groupPrefix + a.key, isPrint), Token(a.value, isPrint);
    AppendStringCases(k, a.value, true, isPrint);
    assert AppendString(k, a.value, true, isPrint) + " " == k + vt + " ";
    assert noColor ==> k == kt + "=" by { assert "" + kt == kt; }
    assert !noColor ==> k == AnsiFaint + kt + "=" + AnsiReset by { assert "" + AnsiFaint == AnsiFaint; }
  }

  /** The attributes rendered one after another. */
  function RenderAttrs(attrs: seq<Attr>, groupPrefix: string, noColor: bool, isPrint: char -> bool)
    : (r: string)
    ensures r == [] <==> attrs == []
    ensures attrs != [] ==> r[|r| - 1] == ' '
    decreases |attrs|
  {
    if attrs == [] then ""
    else AttrText(attrs[0], groupPrefix, noColor, isPrint) + RenderAttrs(attrs[1..], groupPrefix, noColor, isPrint)
  }

  lemma {:induction false} RenderAttrsAppend(a: seq<Attr>, b: seq<Attr>, groupPrefix: string,
                                             noColor: bool, isPrint: char -> bool)
    ensures RenderAttrs(a + b, groupPrefix, noColor, isPrint)
         == RenderAttrs(a, groupPrefix, noColor, isPrint) + RenderAttrs(b, groupPrefix, noColor, isPrint)
    decreases |a|
  {
    if a == [] {
      assert a + b == b;
    } else {
      assert (a + b)[0] == a[0] && (a + b)[1..] == a[1..] + b;
      RenderAttrsAppend(a[1..], b, groupPrefix, noColor, isPrint);
    }
  }

  /** A colourless rendering holds no escape character, whatever the keys and values. */
  lemma {:induction false} RenderAttrsNoEscape(attrs: seq<Attr>, groupPrefix: string,
                                               isPrint: char -> bool)
    requires !isPrint(Esc)
    ensures Esc !in RenderAttrs(attrs, groupPrefix, true, isPrint)
    decreases |attrs|
  {
    if attrs != [] {
      var a := attrs[0];
      TokenNoEscape(groupPrefix + a.key, isPrint);
      TokenNoEscape(a.value, isPrint);
      RenderAttrsNoEscape(attrs[1..], groupPrefix, isPrint);
      AttrTextShape(a, groupPrefix, true, isPrint);
      var t := AttrText(a, groupPrefix, true, isPrint);
      var rest := RenderAttrs(attrs[1..], groupPrefix, true, isPrint);
      assert Esc !in t;
      assert RenderAttrs(attrs, groupPrefix, true, isPrint) == t + rest;
    }
  }

  /** A handler that also writes `attrs` on every record; the receiver itself when there are
      none. */
  function WithAttrs(h: Handler, attrs: seq<Attr>, isPrint: char -> bool): (r: Handler)
    ensures attrs == [] ==> r == h
    ensures r == h.(attrsPrefix := r.attrsPrefix)
    ensures |r.attrsPrefix| >= |h.attrsPrefix| && r.attrsPrefix[..|h.attrsPrefix|] == h.attrsPrefix
  {
    if |attrs| == 0 then h
    else h.(attrsPrefix := h.attrsPrefix + RenderAttrs(attrs, h.groupPrefix, h.noColor, isPrint))
  }

  /** Adding attributes in two steps is adding them all at once. */
  lemma WithAttrsTwice(h: Handler, a: seq<Attr>, b: seq<Attr>, isPrint: char -> bool)
    ensures WithAttrs(WithAttrs(h, a, isPrint), b, isPrint) == WithAttrs(h, a + b, isPrint)
  {
    if a == [] {
      assert a + b == b;
    } else if b == [] {
      assert a + b == a;
    } else {
      var h1 := WithAttrs(h, a, isPrint);
      var ra := RenderAttrs(a, h.groupPrefix, h.noColor, isPrint);
      var rb := RenderAttrs(b, h.groupPrefix, h.noColor, isPrint);
      assert h1 == h.(attrsPrefix := h.attrsPrefix + ra);
      assert WithAttrs(h1, b, isPrint) == h.(attrsPrefix := h.attrsPrefix + ra + rb);
      RenderAttrsAppend(a, b, h.groupPrefix, h.noColor, isPrint);
      Assoc(h.attrsPrefix, ra, rb);
    }
  }

  lemma Assoc(x: string, y: string, z: string)
    ensures x + y + z == x + (y + z)
  {
  }

  /** A handler that qualifies later keys with group `name`; the receiver itself for "". */
  function WithGroup(h: Handler, name: string): (r: Handler)
    ensures name == "" ==> r == h
    ensures name != "" ==> r.groups == h.groups + [name] && r.groupPrefix == h.groupPrefix + name + "."
    ensures r == h.(groupPrefix := r.groupPrefix, groups := r.groups)
  {
    if name == "" then h
    else h.(groupPrefix := h.groupPrefix + name + ".", groups := h.groups + [name])
  }

  /** Both derivations keep a handler well formed. */
  lemma DerivedWellformed(h: Handler, attrs: seq<Attr>, name: string, isPrint: char -> bool)
    requires Wellformed(h) && !isPrint(Esc)
    ensures Wellformed(WithAttrs(h, attrs, isPrint))
    ensures Wellformed(WithGroup(h, name))
  {
    if h.noColor {
      RenderAttrsNoEscape(attrs, h.groupPrefix, isPrint);
    }
    if name != "" {
      var gs := h.groups + [name];
      assert gs[..|gs| - 1] == h.groups;
    }
  }

  /** On a colourless handler, an attribute added after a group is written under that group's
      dotted prefix; a key that needs no quoting appears as is. */
  lemma AttrsUnderGroup(h: Handler, name: string, a: Attr, isPrint: char -> bool)
    requires Wellformed(h) && name != "" && h.noColor
    requires forall i :: 0 <= i < |a.key| ==> Plain(a.key[i], isPrint)
    requires forall i :: 0 <= i < |name| ==> Plain(name[i], isPrint)
    requires Plain('.', isPrint) && forall i :: 0 <= i < |h.groupPrefix| ==> Plain(h.groupPrefix[i], isPrint)
    ensures WithAttrs(WithGroup(h, name), [a], isPrint).attrsPrefix
         == h.attrsPrefix + (Dotted(h.groups + [name]) + a.key + "=" + Token(a.value, isPrint) + " ")
  {
    var gs := h.groups + [name];
    var h2 := WithGroup(h, name);
    GroupPrefixDotted(h, name);
    var q := h2.groupPrefix + a.key;
    PlainAppend(h.groupPrefix, name, isPrint);
    assert forall i :: 0 <= i < |"."| ==> Plain("."[i], isPrint);
    PlainAppend(h.groupPrefix + name, ".", isPrint);
    PlainAppend(h2.groupPrefix, a.key, isPrint);
    assert q != [];
    AppendStringCases("", q, true, isPrint);
    assert Token(q, isPrint) == q by { assert "" + q == q; }
    RenderOne(a, h2.groupPrefix, true, isPrint);
    AttrTextShape(a, h2.groupPrefix, true, isPrint);
    var text := AttrText(a, h2.groupPrefix, true, isPrint);
    assert text == q + "=" + Token(a.value, isPrint) + " ";
    assert h2.attrsPrefix == h.attrsPrefix && h2.noColor;
    assert WithAttrs(h2, [a], isPrint).attrsPrefix == h.attrsPrefix + text;
  }

  /** The group prefix of a handler derived with a named group spells out the longer list. */
  lemma GroupPrefixDotted(h: Handler, name: string)
    requires Wellformed(h) && name != ""
    ensures WithGroup(h, name).groupPrefix == Dotted(h.groups + [name])
    ensures WithGroup(h, name).groupPrefix == h.groupPrefix + name + "."
  {
    var gs := h.groups + [name];
    assert gs[..|gs| - 1] == h.groups;
  }

  lemma PlainAppend(x: string, y: string, isPrint: char -> bool)
    requires forall i :: 0 <= i < |x| ==> Plain(x[i], isPrint)
    requires forall i :: 0 <= i < |y| ==> Plain(y[i], isPrint)
    ensures forall i :: 0 <= i < |x + y| ==> Plain((x + y)[i], isPrint)
  {
  }

  lemma RenderOne(a: Attr, groupPrefix: string, noColor: bool, isPrint: char -> bool)
    ensures RenderAttrs([a], groupPrefix, noColor, isPrint) == AttrText(a, groupPrefix, noColor, isPrint)
  {
    assert [a][1..] == [];
  }
}

=== FILE: memory_cache.dfy ===
/** The in-memory cache backend: a map from key to (value, expiry) whose expiry is checked
    lazily, on read. The clock is an explicit argument, in nanoseconds. */
module MemoryCache {
  import opened Wrappers

  const NanosPerSecond := 1_000_000_000

  /** Errors a cache backend reports. `MemoryNil` is the in-memory backend's own not-found
      sentinel; `RedisNil` is the Redis client's; `StoreFailure` is any other failure. */
  datatype CacheError = MemoryNil | RedisNil | StoreFailure(reason: string)

  datatype Record = Record(value: string, exp: int)

  /** The cache state, together with the sentinel this backend uses for a missing key. */
  datatype Cache = Cache(records: map<string, Record>, notFound: CacheError)

  /** A string command's `(value, error)` result. */
  datatype StringReply = StringReply(value: string, err: Option<CacheError>)

  /** An integer command's `(value, error)` result. */
  datatype IntReply = IntReply(value: int, err: Option<CacheError>)

  /** Whether a record is still readable at `now`: it expires only once the clock is strictly
      after its expiry instant. */
  predicate Live(r: Record, now: int)
  {
    now <= r.exp
  }

  function NewMemoryCache(): (c: Cache)
    ensures c.records == map[] && c.notFound == MemoryNil
  {
    Cache(map[], MemoryNil)
  }

  /** Read `key` at `now`. Never changes the cache: an expired record is left in place. */
  function Get(c: Cache, key: string, now: int): (r: StringReply)
    ensures r.err == None <==> key in c.records && Live(c.records[key], now)
    ensures r.err == None ==> r.value == c.records[key].value
    ensures r.err != None ==> r == StringReply("", Some(c.notFound))
  {
    if key !in c.records then StringReply("", Some(c.notFound))
    else if now > c.records[key].exp then StringReply("", Some(c.notFound))
    else StringReply(c.records[key].value, None)
  }

  /** Store `value` under `key` until `now + expiration`, replacing any earlier record. */
  function Set(c: Cache, key: string, value: string, expiration: int, now: int)
    : (res: (Cache, StringReply))
    ensures res.0.notFound == c.notFound
    ensures key in res.0.records && res.0.records[key] == Record(value, now + expiration)
    ensures forall k :: k != key ==> (k in res.0.records <==> k in c.records)
    ensures forall k :: k != key && k in c.records ==> res.0.records[k] == c.records[k]
    ensures res.1 == StringReply(value, None)
  {
    (c.(records := c.records[key := Record(value, now + expiration)]), StringReply(value, None))
  }

  /** The distinct keys a list names. */
  function KeySet(keys: seq<string>): set<string>
  {
    if keys == [] then {} else {keys[0]} + KeySet(keys[1..])
  }

  lemma {:induction false} KeySetMember(keys: seq<string>, k: string)
    ensures k in KeySet(keys) <==> k in keys
  {
    if keys != [] {
      KeySetMember(keys[1..], k);
      assert keys == [keys[0]] + keys[1..];
    }
  }

  /** The delete loop: removes each listed key that is present, counting the removals. */
  function DelKeys(records: map<string, Record>, keys: seq<string>): (res: (map<string, Record>, nat))
  {
    if keys == [] then (records, 0)
    else
      var k := keys[0];
      var rest := DelKeys(records - {k}, keys[1..]);
      (rest.0, (if k in records then 1 else 0) + rest.1)
  }

  lemma {:induction false} DelKeysRemoves(records: map<string, Record>, keys: seq<string>)
    ensures DelKeys(records, keys).0 == records - KeySet(keys)
  {
    if keys != [] {
      var k := keys[0];
      DelKeysRemoves(records - {k}, keys[1..]);
      assert KeySet(keys) == {k} + KeySet(keys[1..]);
      MapMinusStep(records, k, KeySet(keys[1..]));
    }
  }

  lemma MapMinusStep(records: map<string, Record>, k: string, b: set<string>)
    ensures (records - {k}) - b == records - ({k} + b)
  {
  }

  lemma {:induction false} DelKeysCounts(records: map<string, Record>, keys: seq<string>)
    ensures DelKeys(records, keys).1 == |records.Keys * KeySet(keys)|
  {
    if keys != [] {
      var k := keys[0];
      DelKeysCounts(records - {k}, keys[1..]);
      assert KeySet(keys) == {k} + KeySet(keys[1..]);
      var a := records.Keys;
      assert (records - {k}).Keys == a - {k};
      CountStep(a, k, KeySet(keys[1..]));
    }
  }

  lemma CountStep(a: set<string>, k: string, b: set<string>)
    ensures |a * ({k} + b)| == (if k in a then 1 else 0) + |(a - {k}) * b|
  {
    var rest := (a - {k}) * b;
    if k in a {
      assert a * ({k} + b) == rest + {k};
    } else {
      assert a * ({k} + b) == rest;
    }
  }

  /** Delete the listed keys. The count is the number of distinct listed keys that held a
      record, expired or not; a key listed twice is counted once. */
  function Del(c: Cache, keys: seq<string>): (res: (Cache, IntReply))
    ensures res.0.notFound == c.notFound
    ensures res.0.records == c.records - KeySet(keys)
    ensures res.1.err == None
    ensures res.1.value == |c.records.Keys * KeySet(keys)|
  {
    var (records, n) := DelKeys(c.records, keys);
    DelKeysRemoves(c.records, keys);
    DelKeysCounts(c.records, keys);
    (c.(records := records), IntReply(n, None))
  }

  /** Round trip: a value set is read back until its expiry instant, inclusive. */
  lemma GetAfterSet(c: Cache, key: string, value: string, expiration: int, now: int, later: int)
    requires later <= now + expiration
    ensures Get(Set(c, key, value, expiration, now).0, key, later) == StringReply(value, None)
  {
  }

  /** After its expiry instant a set value reads as the backend's not-found sentinel. */
  lemma GetAfterExpiry(c: Cache, key: string, value: string, expiration: int, now: int, later: int)
    requires later > now + expiration
    ensures Get(Set(c, key, value, expiration, now).0, key, later) == StringReply("", Some(c.notFound))
  {
  }

  /** Set and Del leave every other key readable exactly as before. */
  lemma OtherKeysUnchanged(c: Cache, key: string, other: string, value: string,
                           expiration: int, now: int, keys: seq<string>, later: int)
    requires other != key && other !in keys
    ensures Get(Set(c, key, value, expiration, now).0, other, later) == Get(c, other, later)
    ensures Get(Del(c, keys).0, other, later) == Get(c, other, later)
  {
    KeySetMember(keys, other);
  }

  /** A deleted key reads as not found. */
  lemma GetAfterDel(c: Cache, keys: seq<string>, key: string, later: int)
    requires key in keys
    ensures Get(Del(c, keys).0, key, later) == StringReply("", Some(c.notFound))
  {
    KeySetMember(keys, key);
  }

  /** Expiry is lazy: an expired record that was never read away still counts for Del. */
  lemma ExpiredStillDeleted(c: Cache, key: string, now: int)
    requires key in c.records && !Live(c.records[key], now)
    ensures Get(c, key, now).err == Some(c.notFound)
    ensures Del(c, [key]).1.value == 1
  {
    assert c.records.Keys * KeySet([key]) == {key};
  }

  /** Listing a key twice deletes and counts it once. */
  lemma DelDuplicate(c: Cache, key: string)
    requires key in c.records
    ensures Del(c, [key, key]).1.value == 1
  {
    assert [key, key][1..] == [key];
    assert [key][1..] == [];
    assert KeySet([key]) == {key};
    assert KeySet([key, key]) == {key};
    assert c.records.Keys * {key} == {key};
  }
}

=== FILE: password.dfy ===
/** Password hashing and checking: the plain-text strategy, the Django `pbkdf2_sha256` reader,
    and the manager that picks one comparer or chains several.

    Passwords and stored hashes are byte strings. PBKDF2 (section 5.2 of RFC 8018), SHA-256 and
    standard base64 decoding (section 4 of RFC 4648) are function values; their errors are
    discarded by the reader, so each function gives the bytes the library returns either way. */
module Password {
  import opened Wrappers
  import GoStrings
  import Strconv

  type Byte = x: int | 0 <= x < 256

  type Bytes = seq<Byte>

  /** What a comparer reports: success, an error with its message, or a run-time panic. */
  datatype Verdict = Accepted | Rejected(message: string) | Panicked

  /** The primitives behind the Django reader. */
  datatype DjangoPrims = DjangoPrims(
    pbkdf2: (Bytes, Bytes, int, nat) -> Bytes,
    base64Decode: Bytes -> Bytes)

  /** A single hashing scheme. `External` stands for a scheme whose check is a library call
      (bcrypt). */
  datatype Strategy = PlainText | Django(prims: DjangoPrims) | External(check: (Bytes, Bytes) -> Verdict)

  /** The comparer a manager uses: one strategy, or several tried in order. */
  datatype Comparer = Single(strategy: Strategy) | Combined(strategies: seq<Strategy>)

  datatype Hasher = PlainTextHasher | DjangoHasher | ExternalHasher(hash: Bytes -> Result<Bytes, string>)

  datatype Manager = Manager(comparer: Comparer, hasher: Hasher)

  const WrongPassword := "wrong password"
  const Mismatch := "password mismatch"
  const Unimplemented := "UNIMPLEMENTED"

  /** Derived key length: the SHA-256 digest size. */
  const KeyLength := 32

  const Dollar: Byte := 0x24

  /** A byte string read as text, one rune per byte. */
  function TextOf(b: Bytes): (s: string)
    ensures |s| == |b| && forall i :: 0 <= i < |b| ==> s[i] as int == b[i]
  {
    seq(|b|, i requires 0 <= i < |b| => b[i] as char)
  }

  /** The algorithm tag of the one scheme the Django reader implements: "pbkdf2_sha256". */
  const Pbkdf2Tag: Bytes := [0x70, 0x62, 0x6B, 0x64, 0x66, 0x32, 0x5F, 0x73, 0x68, 0x61, 0x32, 0x35, 0x36]

  // ---- plain text ----

  /** The plain-text hash is the password itself. */
  function PlainTextHash(password: Bytes): (r: Result<Bytes, string>)
    ensures r.Ok?
  {
    Ok(password)
  }

  function PlainTextCompare(hashed: Bytes, password: Bytes): (r: Verdict)
    ensures r == Accepted <==> hashed == password
    ensures r != Accepted ==> r == Rejected(Mismatch)
  {
    if hashed == password then Accepted else Rejected(Mismatch)
  }

  /** Round trip: a password matches its own plain-text hash. */
  lemma PlainTextRoundTrip(p: Bytes)
    ensures PlainTextHash(p) == Ok(p)
    ensures PlainTextCompare(PlainTextHash(p).value, p) == Accepted
  {
  }

  lemma PlainTextSymmetric(a: Bytes, b: Bytes)
    ensures PlainTextCompare(a, b) == PlainTextCompare(b, a)
  {
  }

  // ---- Django ----

  /** The Django hasher does not hash. */
  function DjangoHash(password: Bytes): (r: Result<Bytes, string>)
    ensures r == Err(Unimplemented)
  {
    Err(Unimplemented)
  }

  /** Check a `pbkdf2_sha256$<iterations>$<salt>$<base64 key>` record: the key is recomputed
      from the password, the salt bytes and the iteration count, and compared with the stored
      key bytes. The count is what `Atoi` leaves with its error ignored: the decimal value, 0 on
      a syntax error, the saturated 64-bit bound on overflow. The last field keeps any further
      '$'. */
  function CheckPbkdf2Sha256(p: DjangoPrims, hashed: Bytes, password: Bytes): (ok: bool)
    requires |GoStrings.SplitN(hashed, Dollar, 4)| == 4
    ensures var parts := GoStrings.SplitN(hashed, Dollar, 4);
            var it := TextOf(parts[1]);
            && (it != [] && Strconv.AllDigits(it) && Strconv.Value(it) < 0x8000_0000_0000_0000 ==>
                  (ok <==> p.base64Decode(parts[3]) == p.pbkdf2(password, parts[2], Strconv.Value(it), KeyLength)))
            && (it == [] || (it[0] != '+' && it[0] != '-' && !Strconv.IsDigit(it[0])) ==>
                  (ok <==> p.base64Decode(parts[3]) == p.pbkdf2(password, parts[2], 0, KeyLength)))
  {
    var parts := GoStrings.SplitN(hashed, Dollar, 4);
    var iterations := Strconv.Atoi(TextOf(parts[1])).value;
    p.base64Decode(parts[3]) == p.pbkdf2(password, parts[2], iterations, KeyLength)
  }

  /** Dispatch on the text before the first '$'. A `pbkdf2_sha256` record with fewer than four
      fields makes the reader index past the end of its fields. */
  function DjangoCompare(p: DjangoPrims, hashed: Bytes, password: Bytes): (r: Verdict)
    ensures hashed[..GoStrings.Find(hashed, Dollar)] != Pbkdf2Tag ==> r == Rejected(Unimplemented)
    ensures r == Panicked <==>
              hashed[..GoStrings.Find(hashed, Dollar)] == Pbkdf2Tag && |GoStrings.SplitN(hashed, Dollar, 4)| < 4
    ensures r.Rejected? ==> r.message in {WrongPassword, Unimplemented}
  {
    GoStrings.SplitNHead(hashed, Dollar, 2);
    var tag := GoStrings.SplitN(hashed, Dollar, 2)[0];
    if tag != Pbkdf2Tag then Rejected(Unimplemented)
    else if |GoStrings.SplitN(hashed, Dollar, 4)| < 4 then Panicked
    else if CheckPbkdf2Sha256(p, hashed, password) then Accepted
    else Rejected(WrongPassword)
  }

  /** A record with these four fields. */
  function DjangoRecord(iterations: Bytes, salt: Bytes, key64: Bytes): Bytes
  {
    Pbkdf2Tag + [Dollar] + (iterations + [Dollar] + (salt + [Dollar] + key64))
  }

  /** The fields the reader sees in a record whose middle fields hold no '$'. */
  lemma RecordFields(iterations: Bytes, salt: Bytes, key64: Bytes)
    requires Dollar !in iterations && Dollar !in salt
    ensures GoStrings.SplitN(DjangoRecord(iterations, salt, key64), Dollar, 4)
         == [Pbkdf2Tag, iterations, salt, key64]
    ensures GoStrings.SplitN(DjangoRecord(iterations, salt, key64), Dollar, 2)[0] == Pbkdf2Tag
  {
    var hashed := DjangoRecord(iterations, salt, key64);
    GoStrings.SplitNFour(Pbkdf2Tag, iterations, salt, key64, Dollar);
    GoStrings.SplitNHead(hashed, Dollar, 4);
    GoStrings.SplitNHead(hashed, Dollar, 2);
  }

  /** Reference: a record whose iteration and salt fields hold no '$' is accepted exactly when
      the stored key decodes to the PBKDF2 key of the password, with the iteration field read
      as a decimal and a non-numeric one read as 0. */
  lemma DjangoRecordCompare(p: DjangoPrims, iterations: Bytes, salt: Bytes, key64: Bytes, password: Bytes)
    requires Dollar !in iterations && Dollar !in salt
    ensures var n := Strconv.Atoi(TextOf(iterations)).value;
            DjangoCompare(p, DjangoRecord(iterations, salt, key64), password) == Accepted
            <==> p.base64Decode(key64) == p.pbkdf2(password, salt, n, KeyLength)
    ensures DjangoCompare(p, DjangoRecord(iterations, salt, key64), password) != Accepted
        ==> DjangoCompare(p, DjangoRecord(iterations, salt, key64), password) == Rejected(WrongPassword)
  {
    RecordFields(iterations, salt, key64);
  }

  /** A record whose iteration field is not a number is checked with 0 iterations. */
  lemma NonNumericIterations(p: DjangoPrims, iterations: Bytes, salt: Bytes, key64: Bytes, password: Bytes)
    requires Dollar !in iterations && Dollar !in salt
    requires iterations == [] || !(iterations[0] in {0x2B, 0x2D} || 0x30 <= iterations[0] <= 0x39)
    ensures DjangoCompare(p, DjangoRecord(iterations, salt, key64), password) == Accepted
        <==> p.base64Decode(key64) == p.pbkdf2(password, salt, 0, KeyLength)
  {
    var t := TextOf(iterations);
    assert t != [] ==> t[0] as int == iterations[0];
    assert Strconv.Atoi(t).value == 0;
    DjangoRecordCompare(p, iterations, salt, key64, password);
  }

  // ---- strategies and the manager ----

  function CompareWith(s: Strategy, hashed: Bytes, password: Bytes): Verdict
  {
    match s
    case PlainText => PlainTextCompare(hashed, password)
    case Django(p) => DjangoCompare(p, hashed, password)
    case External(check) => check(hashed, password)
  }

  /** No strategy panics on these inputs. */
  predicate NoPanic(cs: seq<Strategy>, hashed: Bytes, password: Bytes)
  {
    forall i :: 0 <= i < |cs| ==> CompareWith(cs[i], hashed, password) != Panicked
  }

  /** The chained comparer as the repository has it: the first strategy that REJECTS makes the
      whole comparison succeed; only when every strategy accepts is the result "wrong password". */
  function CombinedCompare(cs: seq<Strategy>, hashed: Bytes, password: Bytes): (r: Verdict)
    ensures NoPanic(cs, hashed, password) ==>
              (r == Accepted <==> exists i :: 0 <= i < |cs| && CompareWith(cs[i], hashed, password).Rejected?)
    ensures NoPanic(cs, hashed, password) ==> r != Panicked
    ensures r != Accepted && r != Panicked ==> r == Rejected(WrongPassword)
  {
    if cs == [] then Rejected(WrongPassword)
    else
      match CompareWith(cs[0], hashed, password)
      case Rejected(_) =>
        assert CompareWith(cs[0], hashed, password).Rejected?;
        Accepted
      case Panicked => Panicked
      case Accepted =>
        assert forall i :: 0 <= i < |cs| - 1 ==> cs[1..][i] == cs[i + 1];
        assert NoPanic(cs, hashed, password) ==> NoPanic(cs[1..], hashed, password);
        CombinedCompare(cs[1..], hashed, password)
  }

  /** The chained comparer as evidently intended: the first strategy that accepts wins; when
      none does, the result is "wrong password". */
  function CombinedCompareIntended(cs: seq<Strategy>, hashed: Bytes, password: Bytes): (r: Verdict)
    ensures NoPanic(cs, hashed, password) ==>
              (r == Accepted <==> exists i :: 0 <= i < |cs| && CompareWith(cs[i], hashed, password) == Accepted)
    ensures NoPanic(cs, hashed, password) ==> r != Panicked
    ensures r != Accepted && r != Panicked ==> r == Rejected(WrongPassword)
  {
    if cs == [] then Rejected(WrongPassword)
    else
      match CompareWith(cs[0], hashed, password)
      case Accepted =>
        assert CompareWith(cs[0], hashed, password) == Accepted;
        Accepted
      case Panicked => Panicked
      case Rejected(_) =>
        assert forall i :: 0 <= i < |cs| - 1 ==> cs[1..][i] == cs[i + 1];
        assert NoPanic(cs, hashed, password) ==> NoPanic(cs[1..], hashed, password);
        CombinedCompareIntended(cs[1..], hashed, password)
  }

  /** Two plain-text strategies chained: the right password is refused and a wrong one is let in. */
  lemma CombinedInverted()
    ensures CombinedCompare([PlainText, PlainText], [0x61], [0x61]) == Rejected(WrongPassword)
    ensures CombinedCompare([PlainText, PlainText], [0x61], [0x62]) == Accepted
    ensures CombinedCompareIntended([PlainText, PlainText], [0x61], [0x61]) == Accepted
    ensures CombinedCompareIntended([PlainText, PlainText], [0x61], [0x62]) == Rejected(WrongPassword)
  {
  }

  /** The chain stops at the first decisive strategy: strategies after it are never consulted. */
  lemma {:induction false} CombinedPrefixDecides(a: seq<Strategy>, b: seq<Strategy>, hashed: Bytes, password: Bytes)
    requires CombinedCompare(a, hashed, password) != Rejected(WrongPassword)
    ensures CombinedCompare(a + b, hashed, password) == CombinedCompare(a, hashed, password)
  {
    assert a != [];
    GoStrings.TailOfAppend(a, b);
    var v := CompareWith(a[0], hashed, password);
    if v == Accepted {
      assert CombinedCompare(a, hashed, password) == CombinedCompare(a[1..], hashed, password);
      CombinedPrefixDecides(a[1..], b, hashed, password);
      assert CombinedCompare(a + b, hashed, password) == CombinedCompare(a[1..] + b, hashed, password);
    }
  }

  /** A chain of one strategy under the intended reading is that strategy's verdict, up to the
      error message. */
  lemma IntendedSingle(s: Strategy, hashed: Bytes, password: Bytes)
    ensures CombinedCompareIntended([s], hashed, password) == Accepted
        <==> CompareWith(s, hashed, password) == Accepted
  {
  }

  /** Without comparers the manager cannot be built (the repository panics); one comparer is used
      as is; two or more are chained in the given order. */
  function NewPasswordManager(h: Hasher, cs: seq<Strategy>): (r: Result<Manager, string>)
    ensures |cs| == 0 <==> r.Err?
    ensures |cs| == 1 ==> r == Ok(Manager(Single(cs[0]), h))
    ensures |cs| >= 2 ==> r == Ok(Manager(Combined(cs), h))
  {
    if |cs| == 0 then Err("comparers len == 0")
    else if |cs| == 1 then Ok(Manager(Single(cs[0]), h))
    else Ok(Manager(Combined(cs), h))
  }

  /** Hash with the manager's hasher. */
  function Hash(m: Manager, password: Bytes): (r: Result<Bytes, string>)
    ensures m.hasher == PlainTextHasher ==> r == Ok(password)
    ensures m.hasher == DjangoHasher ==> r.Err?
  {
    match m.hasher
    case PlainTextHasher => PlainTextHash(password)
    case DjangoHasher => DjangoHash(password)
    case ExternalHasher(f) => f(password)
  }

  /** Compare with the manager's comparer: a single strategy decides alone, a chain decides
      as CombinedCompare does. */
  function Compare(m: Manager, hashed: Bytes, password: Bytes): (r: Verdict)
    ensures m.comparer == Single(PlainText) ==> (r == Accepted <==> hashed == password)
    ensures m.comparer.Combined? && NoPanic(m.comparer.strategies, hashed, password) ==>
              (r == Accepted <==> exists i :: 0 <= i < |m.comparer.strategies|
                                   && CompareWith(m.comparer.strategies[i], hashed, password).Rejected?)
    ensures m.comparer.Combined? && r != Accepted && r != Panicked ==> r == Rejected(WrongPassword)
  {
    match m.comparer
    case Single(s) => CompareWith(s, hashed, password)
    case Combined(cs) => CombinedCompare(cs, hashed, password)
  }

  /** A manager with a single plain-text comparer and hasher accepts exactly the stored password. */
  lemma PlainTextManagerRoundTrip(p: Bytes, q: Bytes)
    ensures var m := NewPasswordManager(PlainTextHasher, [PlainText]).value;
            && Hash(m, p) == Ok(p)
            && (Compare(m, Hash(m, p).value, q) == Accepted <==> p == q)
  {
  }
}

=== FILE: strconv.dfy ===
/** The parts of Go's `strconv` package the model relies on: decimal formatting and parsing of
    integers with Go's syntax and range errors, and double-quoted string literals. */
module Strconv {
  import opened Wrappers
  import GoStrings

  /** The two ways a Go `strconv` number parse fails. */
  datatype NumError = ErrSyntax | ErrRange

  /** Go's `(value, error)` result of a number parse: on a syntax error the value is 0, on a
      range error it is the bound the input overflowed. */
  datatype NumResult = NumResult(value: int, err: Option<NumError>)

  /** Whether `n` fits Go's `int64` (and `int` on a 64-bit platform). */
  predicate IsInt64(n: int)
  {
    -0x8000_0000_0000_0000 <= n < 0x8000_0000_0000_0000
  }

  function Pow2(k: nat): (p: int)
    ensures p >= 1
  {
    if k == 0 then 1 else 2 * Pow2(k - 1)
  }

  function Pow10(k: nat): (p: nat)
    ensures p >= 1
  {
    if k == 0 then 1 else 10 * Pow10(k - 1)
  }

  predicate IsDigit(c: char) { '0' <= c <= '9' }

  predicate AllDigits(s: string)
  {
    forall i :: 0 <= i < |s| ==> IsDigit(s[i])
  }

  function DigitValue(c: char): nat
    requires IsDigit(c)
  {
    c as int - '0' as int
  }

  function DigitChar(d: nat): (c: char)
    requires d < 10
    ensures IsDigit(c) && DigitValue(c) == d
  {
    ('0' as int + d) as char
  }

  /** The number a string of decimal digits denotes, read left to right. */
  function Value(s: string): nat
    requires AllDigits(s)
  {
    if s == [] then 0 else 10 * Value(s[..|s| - 1]) + DigitValue(s[|s| - 1])
  }

  /** Decimal digits of a natural number, without leading zeros ("0" for zero). */
  function Digits(n: nat): (s: string)
    ensures |s| >= 1 && AllDigits(s)
    ensures Value(s) == n
    ensures |s| > 1 ==> s[0] != '0'
  {
    if n < 10 then [DigitChar(n)]
    else
      var s := Digits(n / 10) + [DigitChar(n % 10)];
      assert s[..|s| - 1] == Digits(n / 10);
      s
  }

  /** `strconv.FormatInt(n, 10)`, which is also what `fmt`'s `%v` and `%d` print for an
      integer. */
  function FormatInt(n: int): (s: string)
    ensures |s| >= 1
  {
    if n < 0 then "-" + Digits(-n) else Digits(n)
  }

  /** The digit loop of `strconv.ParseUint` for base 10: `acc` is the value read so far and
      `max` the largest value the bit size admits. It stops with a range error as soon as the
      value would exceed `max`, before looking at the rest of the input. */
  function ParseDigits(s: string, acc: nat, max: nat): (r: NumResult)
    requires acc <= max
    ensures 0 <= r.value <= max
    ensures r.err == Some(ErrSyntax) ==> r.value == 0
    ensures r.err == Some(ErrRange) ==> r.value == max
  {
    if s == [] then NumResult(acc, None)
    else if !IsDigit(s[0]) then NumResult(0, Some(ErrSyntax))
    else
      var n := 10 * acc + DigitValue(s[0]);
      if n > max then NumResult(max, Some(ErrRange)) else ParseDigits(s[1..], n, max)
  }

  /** `strconv.ParseUint(s, 10, bitSize)`. */
  function ParseUint(s: string, bitSize: nat): (r: NumResult)
    requires 1 <= bitSize <= 64
    ensures 0 <= r.value < Pow2(bitSize)
    ensures r.err == Some(ErrSyntax) ==> r.value == 0
    ensures r.err == Some(ErrRange) ==> r.value == Pow2(bitSize) - 1
  {
    if s == [] then NumResult(0, Some(ErrSyntax)) else ParseDigits(s, 0, Pow2(bitSize) - 1)
  }

  /** `strconv.ParseInt(s, 10, bitSize)`: an optional sign, then ParseUint on the rest, then
      the signed range check. */
  function ParseInt(s: string, bitSize: nat): (r: NumResult)
    requires 1 <= bitSize <= 64
    ensures r.err == None ==> -Pow2(bitSize - 1) <= r.value < Pow2(bitSize - 1)
    ensures r.err == Some(ErrSyntax) ==> r.value == 0
    ensures r.err == Some(ErrRange) ==> r.value == Pow2(bitSize - 1) - 1 || r.value == -Pow2(bitSize - 1)
    ensures s == [] || (s[0] != '+' && s[0] != '-' && !IsDigit(s[0])) ==> r == NumResult(0, Some(ErrSyntax))
  {
    if s == [] then NumResult(0, Some(ErrSyntax))
    else
      var neg := s[0] == '-';
      var body := if s[0] == '+' || s[0] == '-' then s[1..] else s;
      var un := ParseUint(body, bitSize);
      var cutoff := Pow2(bitSize - 1);
      assert Pow2(bitSize) == 2 * cutoff;
      if un.err == Some(ErrSyntax) then NumResult(0, Some(ErrSyntax))
      else if !neg && un.value >= cutoff then NumResult(cutoff - 1, Some(ErrRange))
      else if neg && un.value > cutoff then NumResult(-cutoff, Some(ErrRange))
      else NumResult(if neg then -un.value else un.value, None)
  }

  /** `strconv.Atoi` on a 64-bit platform: its fast path for short inputs and its fallback
      agree with ParseInt(s, 10, 64) in both value and error. */
  function Atoi(s: string): (r: NumResult)
    ensures r.err == None ==> IsInt64(r.value)
    ensures r.err == Some(ErrSyntax) ==> r.value == 0
    ensures s != [] && AllDigits(s) && Value(s) < 0x8000_0000_0000_0000 ==> r == NumResult(Value(s), None)
  {
    Pow2Facts();
    assert s != [] && AllDigits(s) && Value(s) < 0x8000_0000_0000_0000 ==> ParseInt(s, 64) == NumResult(Value(s), None) by {
      if s != [] && AllDigits(s) && Value(s) < 0x8000_0000_0000_0000 {
        assert 0 * Pow10(|s|) + Value(s) == Value(s);
        ParseDigitsValue(s, 0, Pow2(64) - 1);
        assert IsDigit(s[0]);
      }
    }
    ParseInt(s, 64)
  }

  /** Reading one more digit multiplies the value so far by ten. */
  lemma {:induction false} ValueCons(c: char, t: string)
    requires IsDigit(c) && AllDigits(t)
    ensures AllDigits([c] + t)
    ensures Value([c] + t) == DigitValue(c) * Pow10(|t|) + Value(t)
    decreases |t|
  {
    var s := [c] + t;
    assert AllDigits(s) by {
      forall i | 0 <= i < |s| ensures IsDigit(s[i]) { if i > 0 { assert s[i] == t[i - 1]; } }
    }
    if t != [] {
      var front := t[..|t| - 1];
      var last := t[|t| - 1];
      assert s[..|s| - 1] == [c] + front;
      assert s[|s| - 1] == last;
      assert AllDigits(front) by {
        forall i | 0 <= i < |front| ensures IsDigit(front[i]) { assert front[i] == t[i]; }
      }
      ValueCons(c, front);
      assert Value(s) == 10 * Value([c] + front) + DigitValue(last);
      assert Value(t) == 10 * Value(front) + DigitValue(last);
      assert Pow10(|t|) == 10 * Pow10(|front|);
      Distribute(DigitValue(c), Pow10(|front|), Value(front), DigitValue(last));
    } else {
      assert s[..|s| - 1] == [];
    }
  }

  lemma Distribute(a: nat, p: nat, v: nat, l: nat)
    ensures 10 * (a * p + v) + l == a * (10 * p) + (10 * v + l)
  {
  }

  /** The digit loop reads a digit string whose value fits without any error. */
  lemma {:induction false} ParseDigitsValue(s: string, acc: nat, max: nat)
    requires AllDigits(s) && acc <= max
    requires acc * Pow10(|s|) + Value(s) <= max
    ensures ParseDigits(s, acc, max) == NumResult(acc * Pow10(|s|) + Value(s), None)
    decreases |s|
  {
    if s != [] {
      var t := s[1..];
      assert s == [s[0]] + t;
      ValueCons(s[0], t);
      var d := DigitValue(s[0]);
      var n := 10 * acc + d;
      var p := Pow10(|t|);
      assert Pow10(|s|) == 10 * p;
      Shift(acc, d, p, Value(t), max);
      ParseDigitsValue(t, n, max);
      ParseDigitsStep(s, acc, max);
    }
  }

  /** One digit of the loop that does not overflow. */
  lemma ParseDigitsStep(s: string, acc: nat, max: nat)
    requires s != [] && IsDigit(s[0]) && acc <= 10 * acc + DigitValue(s[0]) <= max
    ensures ParseDigits(s, acc, max) == ParseDigits(s[1..], 10 * acc + DigitValue(s[0]), max)
  {
  }

  /** The arithmetic of one step: the value of the digits is the same read from either
      end, and the accumulator after the step stays within `max`. */
  lemma Shift(acc: nat, d: nat, p: nat, v: nat, max: nat)
    requires p >= 1 && acc * (10 * p) + (d * p + v) <= max
    ensures acc * (10 * p) + (d * p + v) == (10 * acc + d) * p + v
    ensures acc <= 10 * acc + d <= max
  {
    Regroup(acc, d, p, v);
    MulMono(10 * acc + d, p);
  }

  lemma Regroup(acc: nat, d: nat, p: nat, v: nat)
    ensures acc * (10 * p) + (d * p + v) == (10 * acc + d) * p + v
  {
  }

  lemma MulMono(n: nat, p: nat)
    requires p >= 1
    ensures n <= n * p
  {
  }

  lemma Pow2Facts()
    ensures Pow2(63) == 0x8000_0000_0000_0000
    ensures Pow2(64) == 0x1_0000_0000_0000_0000
  {
    assert Pow2(8) == 256;
    assert Pow2(16) == 65536;
    assert Pow2(32) == Pow2(16) * Pow2(16) by { Pow2Add(16, 16); }
    assert Pow2(63) == Pow2(32) * Pow2(31) by { Pow2Add(32, 31); }
    assert Pow2(31) == Pow2(16) * Pow2(15) by { Pow2Add(16, 15); }
  }

  lemma {:induction false} Pow2Add(a: nat, b: nat)
    ensures Pow2(a + b) == Pow2(a) * Pow2(b)
    decreases a
  {
    if a > 0 {
      Pow2Add(a - 1, b);
    }
  }

  /** Round trip: parsing the decimal form of a 64-bit integer gives it back with no error. */
  lemma ParseFormatInt(n: int)
    requires IsInt64(n)
    ensures ParseInt(FormatInt(n), 64) == NumResult(n, None)
  {
    Pow2Facts();
    var m: nat := if n < 0 then -n else n;
    var d := Digits(m);
    assert 0 * Pow10(|d|) + Value(d) == m;
    ParseDigitsValue(d, 0, Pow2(64) - 1);
    assert ParseUint(d, 64) == NumResult(m, None);
    var s := FormatInt(n);
    if n < 0 {
      assert s == "-" + d;
      ParseIntSigned(s, d);
    } else {
      assert s == d && s[0] != '+' && s[0] != '-';
    }
  }

  /** ParseInt on a minus sign before digits reads the digits and negates them. */
  lemma ParseIntSigned(s: string, d: string)
    requires s == "-" + d && ParseUint(d, 64).err == None && ParseUint(d, 64).value <= Pow2(63)
    ensures ParseInt(s, 64) == NumResult(-ParseUint(d, 64).value, None)
  {
    assert s[0] == '-' && s[1..] == d;
  }

  /** Distinct 64-bit integers have distinct decimal forms. */
  lemma FormatIntInjective(a: int, b: int)
    requires IsInt64(a) && IsInt64(b)
    ensures FormatInt(a) == FormatInt(b) ==> a == b
  {
    ParseFormatInt(a);
    ParseFormatInt(b);
  }

  const LowerHex := "0123456789abcdef"

  /** The last `width` lowercase hexadecimal digits of `n`. */
  function Hex(n: nat, width: nat): (s: string)
    ensures |s| == width
    ensures forall i :: 0 <= i < |s| ==> s[i] in LowerHex
  {
    if width == 0 then [] else Hex(n / 16, width - 1) + [LowerHex[n % 16]]
  }

  /** How `strconv.Quote` writes one rune, `isPrint` standing for `unicode.IsPrint`. */
  function EscapeRune(c: char, isPrint: char -> bool): (e: string)
    ensures |e| >= 1
    ensures e[0] == c || e[0] == '\\'
  {
    if c == '"' || c == '\\' then ['\\', c]
    else if isPrint(c) then [c]
    else if c == '\U{0007}' then "\\a"
    else if c == '\U{0008}' then "\\b"
    else if c == '\U{000C}' then "\\f"
    else if c == '\n' then "\\n"
    else if c == '\r' then "\\r"
    else if c == '\t' then "\\t"
    else if c == '\U{000B}' then "\\v"
    else if c < ' ' || c == '\U{007F}' then "\\x" + Hex(c as int, 2)
    else if (c as int) < 0x10000 then "\\u" + Hex(c as int, 4)
    else "\\U" + Hex(c as int, 8)
  }

  function EscapeAll(s: string, isPrint: char -> bool): string
  {
    if s == [] then [] else EscapeRune(s[0], isPrint) + EscapeAll(s[1..], isPrint)
  }

  /** `strconv.Quote`: the runes of `s` escaped and wrapped in double quotes. */
  function Quote(s: string, isPrint: char -> bool): (q: string)
    ensures |q| >= 2 && q[0] == '"' && q[|q| - 1] == '"'
  {
    "\"" + EscapeAll(s, isPrint) + "\""
  }

  /** Printable text without quote or backslash is only wrapped, never altered. */
  lemma {:induction false} EscapeAllPlain(s: string, isPrint: char -> bool)
    requires forall i :: 0 <= i < |s| ==> isPrint(s[i]) && s[i] != '"' && s[i] != '\\'
    ensures EscapeAll(s, isPrint) == s
  {
    if s != [] {
      EscapeAllPlain(s[1..], isPrint);
      assert s == [s[0]] + s[1..];
    }
  }

  /** Every rune costs at least one output rune, and a quote or backslash costs two. */
  lemma {:induction false} EscapeAllLength(s: string, isPrint: char -> bool)
    ensures |EscapeAll(s, isPrint)| >= |s|
  {
    if s != [] {
      EscapeAllLength(s[1..], isPrint);
    }
  }
}

=== FILE: unicode.dfy ===
/** The parts of Go's `unicode` and `unicode/utf8` packages the model relies on. */
module Unicode {

  /** Go's `unicode.IsSpace`: the Latin-1 space characters plus Unicode's White_Space runes. */
  function IsSpace(c: char): (r: bool)
    ensures c as int < 0x80 ==> (r <==> c == ' ' || 0x09 <= c as int <= 0x0D)
    ensures r ==> c as int <= 0x3000 && !('0' <= c <= '9') && !('a' <= c <= 'z') && !('A' <= c <= 'Z')
  {
    var n := c as int;
    || n == 0x09 || n == 0x0A || n == 0x0B || n == 0x0C || n == 0x0D || n == 0x20
    || n == 0x85 || n == 0xA0 || n == 0x1680 || (0x2000 <= n <= 0x200A)
    || n == 0x2028 || n == 0x2029 || n == 0x202F || n == 0x205F || n == 0x3000
  }

  /** Number of bytes the UTF-8 encoding of rune `c` takes. */
  function RuneLen(c: char): (n: nat)
    ensures 1 <= n <= 4
    ensures n == 1 <==> c as int < 0x80
  {
    if c as int < 0x80 then 1
    else if c as int < 0x800 then 2
    else if c as int < 0x10000 then 3
    else 4
  }

  /** Go's `len(s)` for a string held as a sequence of runes: its UTF-8 byte length. */
  function ByteLen(s: string): (n: nat)
    ensures |s| <= n <= 4 * |s|
  {
    if s == [] then 0 else RuneLen(s[0]) + ByteLen(s[1..])
  }

  lemma {:induction false} ByteLenAppend(a: string, b: string)
    ensures ByteLen(a + b) == ByteLen(a) + ByteLen(b)
  {
    if a == [] {
      assert a + b == b;
    } else {
      assert (a + b)[1..] == a[1..] + b;
      ByteLenAppend(a[1..], b);
    }
  }

  /** An all-ASCII string takes one byte per rune. */
  lemma {:induction false} ByteLenAscii(s: string)
    requires forall i :: 0 <= i < |s| ==> s[i] as int < 0x80
    ensures ByteLen(s) == |s|
  {
    if s != [] {
      ByteLenAscii(s[1..]);
    }
  }
}

=== FILE: user_repo.dfy ===
/** The user repository: lookups and ban flags over the user directory, and the revocation
    facts (mass-logout cutover, kick flags, recent-ban flags) kept in the cache.

    The directory stands for the SQL table; its `fault` field, when set, makes every statement
    fail with that reason. Cache commands run against `MemoryCache`, whose not-found sentinel is a
    parameter of the cache, so the same code can be read against the Redis client (`RedisNil`)
    or the in-memory backend (`MemoryNil`). */
module UserRepo {
  import opened Wrappers
  import opened Entity
  import opened MemoryCache
  import Strconv

  datatype RepoError =
    | CacheFailure(cause: CacheError)
    | ParseFailure(numError: Strconv.NumError)
    | DbFailure(reason: string)

  /** The `auth_user` table, keyed by id, and the database's availability. */
  datatype Directory = Directory(users: map<Int32, User>, fault: Option<string>)

  /** A lookup by one column: no row is `Ok(None)`, a failing statement an error. */
  type Lookup = string -> Result<Option<User>, RepoError>

  const MassLogoutKey := "users:mass_logout"

  /** Kick flags expire after six hours. */
  const KickTtl := 60 * 60 * 6 * NanosPerSecond


  function KickKey(id: Int32): string
  {
    "users:kick:" + Strconv.FormatInt(id)
  }

  function BanKey(id: Int32): string
  {
    "users:ban:" + Strconv.FormatInt(id)
  }

  /** Unix seconds of an instant given in nanoseconds (rounded down, as `time.Time.Unix` does). */
  function UnixSeconds(now: int): (s: int)
    ensures s * NanosPerSecond <= now < (s + 1) * NanosPerSecond
  {
    now / NanosPerSecond
  }

  /** Get by id: a missing row is `Ok(None)`. */
  function Get(d: Directory, id: Int32): (r: Result<Option<User>, RepoError>)
    ensures d.fault.Some? ==> r == Err(DbFailure(d.fault.value))
    ensures d.fault.None? ==> r.Ok?
    ensures r.Ok? && r.value.Some? <==> d.fault.None? && id in d.users
    ensures r.Ok? && r.value.Some? ==> r.value.value == d.users[id]
  {
    if d.fault.Some? then Err(DbFailure(d.fault.value))
    else if id in d.users then Ok(Some(d.users[id]))
    else Ok(None)
  }

  /** Ban and Unban: set the `active` column of the row with this id, if any. Updating no row
      is not an error. */
  function SetActive(d: Directory, id: Int32, active: bool): (res: (Directory, Option<RepoError>))
    ensures d.fault.Some? ==> res == (d, Some(DbFailure(d.fault.value)))
    ensures d.fault.None? ==> res.1 == None
    ensures res.0.fault == d.fault
    ensures res.0.users.Keys == d.users.Keys
    ensures forall k :: k in d.users && (k != id || d.fault.Some?) ==> res.0.users[k] == d.users[k]
    ensures d.fault.None? && id in d.users ==> res.0.users[id] == d.users[id].(active := active)
  {
    if d.fault.Some? then (d, Some(DbFailure(d.fault.value)))
    else if id in d.users then (d.(users := d.users[id := d.users[id].(active := active)]), None)
    else (d, None)
  }

  function Ban(d: Directory, id: Int32): (res: (Directory, Option<RepoError>))
    ensures res.1.Some? <==> d.fault.Some?
    ensures res.0.users.Keys == d.users.Keys
    ensures d.fault.None? && id in d.users ==> !res.0.users[id].active
  {
    SetActive(d, id, false)
  }

  function Unban(d: Directory, id: Int32): (res: (Directory, Option<RepoError>))
    ensures res.1.Some? <==> d.fault.Some?
    ensures res.0.users.Keys == d.users.Keys
    ensures d.fault.None? && id in d.users ==> res.0.users[id].active
  {
    SetActive(d, id, true)
  }

  /** A login containing '@' is first looked up as an email; a miss falls back to the username
      lookup, and an email-lookup error is returned as is. */
  function GetByLogin(login: string, byEmail: Lookup, byUsername: Lookup)
    : (r: Result<Option<User>, RepoError>)
    ensures '@' in login && byEmail(login).Err? ==> r == byEmail(login)
    ensures '@' in login && byEmail(login).Ok? && byEmail(login).value.Some? ==> r == byEmail(login)
    ensures '@' !in login || byEmail(login) == Ok(None) ==> r == byUsername(login)
  {
    if '@' in login then
      match byEmail(login)
      case Err(e) => Err(e)
      case Ok(Some(u)) => Ok(Some(u))
      case Ok(None) => byUsername(login)
    else byUsername(login)
  }

  /** Without '@' the email lookup is never consulted. */
  lemma GetByLoginUsernameOnly(login: string, e1: Lookup, e2: Lookup, byUsername: Lookup)
    requires '@' !in login
    ensures GetByLogin(login, e1, byUsername) == GetByLogin(login, e2, byUsername)
  {
  }

  /** An email hit or an email-lookup error decides the result: the username lookup is never
      consulted. */
  lemma GetByLoginEmailDecides(login: string, byEmail: Lookup, u1: Lookup, u2: Lookup)
    requires '@' in login && byEmail(login) != Ok(None)
    ensures GetByLogin(login, byEmail, u1) == GetByLogin(login, byEmail, u2)
  {
  }

  /** The cache-reply half of GetMassLogout: only `RedisNil` means "no cutover"; any other cache
      error, including the in-memory backend's own sentinel, is an error; a stored value must
      parse as a 64-bit decimal, read as Unix seconds. */
  function MassLogoutFromReply(reply: StringReply): (r: Result<Option<int>, RepoError>)
    ensures reply.err == Some(RedisNil) <==> r == Ok(None)
    ensures reply.err.Some? && reply.err != Some(RedisNil) ==> r == Err(CacheFailure(reply.err.value))
    ensures reply.err.None? ==> r != Ok(None)
    ensures r.Ok? && r.value.Some? ==> Strconv.IsInt64(r.value.value)
    ensures reply.err.None? ==>
              var p := Strconv.ParseInt(reply.value, 64);
              && (p.err.None? ==> r == Ok(Some(p.value)))
              && (p.err.Some? ==> r == Err(ParseFailure(p.err.value)))
  {
    match reply.err
    case Some(e) => if e == RedisNil then Ok(None) else Err(CacheFailure(e))
    case None =>
      var p := Strconv.ParseInt(reply.value, 64);
      Strconv.Pow2Facts();
      if p.err.Some? then Err(ParseFailure(p.err.value)) else Ok(Some(p.value))
  }

  /** The cache-reply half of IsKicked and WasRecentlyBanned: a successful read means present,
      `RedisNil` means absent, every other error propagates. */
  function PresenceFromReply(err: Option<CacheError>): (r: Result<bool, RepoError>)
    ensures r == Ok(true) <==> err.None?
    ensures r == Ok(false) <==> err == Some(RedisNil)
    ensures r.Err? <==> err.Some? && err.value != RedisNil
  {
    match err
    case None => Ok(true)
    case Some(RedisNil) => Ok(false)
    case Some(e) => Err(CacheFailure(e))
  }

  /** The cutover: absent only on the Redis not-found reply, otherwise the stored decimal
      text as a 64-bit number, or the cache's or the parser's error. */
  function GetMassLogout(c: Cache, now: int): (r: Result<Option<int>, RepoError>)
    ensures var live := MassLogoutKey in c.records && Live(c.records[MassLogoutKey], now);
            && (r == Ok(None) <==> !live && c.notFound == RedisNil)
            && (!live && c.notFound != RedisNil ==> r == Err(CacheFailure(c.notFound)))
            && (r.Ok? && r.value.Some? ==>
                  live && Strconv.ParseInt(c.records[MassLogoutKey].value, 64) == Strconv.NumResult(r.value.value, None))
            && (live ==>
                  var p := Strconv.ParseInt(c.records[MassLogoutKey].value, 64);
                  && (p.err.None? ==> r == Ok(Some(p.value)))
                  && (p.err.Some? ==> r == Err(ParseFailure(p.err.value))))
  {
    MassLogoutFromReply(MemoryCache.Get(c, MassLogoutKey, now))
  }

  /** Store the current Unix second as the cutover, for `ttl` nanoseconds. */
  function ActivateMassLogout(c: Cache, ttl: int, now: int): (res: (Cache, Option<RepoError>))
    ensures res.1 == None && res.0.notFound == c.notFound
    ensures MassLogoutKey in res.0.records
    ensures res.0.records[MassLogoutKey] == Record(Strconv.FormatInt(UnixSeconds(now)), now + ttl)
    ensures res.0.records - {MassLogoutKey} == c.records - {MassLogoutKey}
  {
    (MemoryCache.Set(c, MassLogoutKey, Strconv.FormatInt(UnixSeconds(now)), ttl, now).0, None)
  }

  function DeactivateMassLogout(c: Cache): (res: (Cache, Option<RepoError>))
    ensures res.1 == None && res.0.notFound == c.notFound
    ensures res.0.records == c.records - {MassLogoutKey}
  {
    assert KeySet([MassLogoutKey]) == {MassLogoutKey} by { assert [MassLogoutKey][1..] == []; }
    (Del(c, [MassLogoutKey]).0, None)
  }

  /** Flag the user as kicked, for six hours; the stored value is the current Unix second. */
  function Kick(c: Cache, id: Int32, now: int): (res: (Cache, Option<RepoError>))
    ensures res.1 == None && res.0.notFound == c.notFound
    ensures KickKey(id) in res.0.records
    ensures res.0.records[KickKey(id)] == Record(Strconv.FormatInt(UnixSeconds(now)), now + KickTtl)
    ensures res.0.records - {KickKey(id)} == c.records - {KickKey(id)}
  {
    (MemoryCache.Set(c, KickKey(id), Strconv.FormatInt(UnixSeconds(now)), KickTtl, now).0, None)
  }

  function Unkick(c: Cache, id: Int32): (res: (Cache, Option<RepoError>))
    ensures res.1 == None && res.0.notFound == c.notFound
    ensures res.0.records == c.records - {KickKey(id)}
  {
    assert KeySet([KickKey(id)]) == {KickKey(id)} by { assert [KickKey(id)][1..] == []; }
    (Del(c, [KickKey(id)]).0, None)
  }

  /** Kicked exactly while a live kick flag is stored; absent only on the Redis not-found
      reply. */
  function IsKicked(c: Cache, id: Int32, now: int): (r: Result<bool, RepoError>)
    ensures r == Ok(true) <==> KickKey(id) in c.records && Live(c.records[KickKey(id)], now)
    ensures r == Ok(false) <==> !(KickKey(id) in c.records && Live(c.records[KickKey(id)], now)) && c.notFound == RedisNil
    ensures r.Err? ==> r == Err(CacheFailure(c.notFound))
  {
    PresenceFromReply(MemoryCache.Get(c, KickKey(id), now).err)
  }

  /** Reads the ban flag. Nothing in the repository writes `users:ban:<id>`. */
  function WasRecentlyBanned(c: Cache, id: Int32, now: int): (r: Result<bool, RepoError>)
    ensures r == Ok(true) <==> BanKey(id) in c.records && Live(c.records[BanKey(id)], now)
    ensures r == Ok(false) <==> !(BanKey(id) in c.records && Live(c.records[BanKey(id)], now)) && c.notFound == RedisNil
    ensures r.Err? ==> r == Err(CacheFailure(c.notFound))
  {
    PresenceFromReply(MemoryCache.Get(c, BanKey(id), now).err)
  }

  /** The stored cutover is read back as the same second. */
  lemma MassLogoutRoundTrip(t: int)
    requires Strconv.IsInt64(t)
    ensures MassLogoutFromReply(StringReply(Strconv.FormatInt(t), None)) == Ok(Some(t))
  {
    Strconv.ParseFormatInt(t);
  }

  /** Kick keys of distinct ids differ, and no kick key is a ban key or the cutover key. */
  lemma KeysDistinct(a: Int32, b: Int32)
    ensures a != b ==> KickKey(a) != KickKey(b) && BanKey(a) != BanKey(b)
    ensures KickKey(a) != BanKey(b)
    ensures KickKey(a) != MassLogoutKey && BanKey(a) != MassLogoutKey
  {
    Strconv.FormatIntInjective(a, b);
    var fa, fb := Strconv.FormatInt(a), Strconv.FormatInt(b);
    if KickKey(a) == KickKey(b) {
      assert fa == KickKey(a)[11..] == KickKey(b)[11..] == fb;
    }
    if BanKey(a) == BanKey(b) {
      assert fa == BanKey(a)[10..] == BanKey(b)[10..] == fb;
    }
    assert KickKey(a)[6] == 'k' && BanKey(b)[6] == 'b' && MassLogoutKey[6] == 'm';
  }

  /** Activate, then read within the TTL: the cutover is the activation second. */
  lemma ActivateThenGet(c: Cache, ttl: int, now: int, later: int)
    requires Strconv.IsInt64(UnixSeconds(now))
    requires later <= now + ttl
    ensures GetMassLogout(ActivateMassLogout(c, ttl, now).0, later) == Ok(Some(UnixSeconds(now)))
  {
    MassLogoutRoundTrip(UnixSeconds(now));
  }

  /** After Deactivate the cutover reads as absent only when the backend's not-found is
      `RedisNil`; under the in-memory backend it reads as a cache error. */
  lemma DeactivateThenGet(c: Cache, later: int)
    ensures c.notFound == RedisNil ==> GetMassLogout(DeactivateMassLogout(c).0, later) == Ok(None)
    ensures c.notFound == MemoryNil ==>
              GetMassLogout(DeactivateMassLogout(c).0, later) == Err(CacheFailure(MemoryNil))
  {
    GetAfterDel(c, [MassLogoutKey], MassLogoutKey, later);
  }

  /** A kick is visible for six hours, then disappears (as absent or as an error, depending on
      the backend's sentinel). */
  lemma KickThenIsKicked(c: Cache, id: Int32, now: int, later: int)
    ensures later <= now + KickTtl ==> IsKicked(Kick(c, id, now).0, id, later) == Ok(true)
    ensures later > now + KickTtl ==>
              IsKicked(Kick(c, id, now).0, id, later) == PresenceFromReply(Some(c.notFound))
  {
  }

  /** After Unkick the flag is gone. */
  lemma UnkickThenIsKicked(c: Cache, id: Int32, later: int)
    ensures IsKicked(Unkick(c, id).0, id, later) == PresenceFromReply(Some(c.notFound))
  {
    GetAfterDel(c, [KickKey(id)], KickKey(id), later);
  }

  /** Kicking or unkicking one user leaves every other user's kick flag and every ban flag
      as they were. */
  lemma KickIsolated(c: Cache, id: Int32, other: Int32, now: int, later: int)
    requires other != id
    ensures IsKicked(Kick(c, id, now).0, other, later) == IsKicked(c, other, later)
    ensures IsKicked(Unkick(c, id).0, other, later) == IsKicked(c, other, later)
    ensures WasRecentlyBanned(Kick(c, id, now).0, other, later) == WasRecentlyBanned(c, other, later)
    ensures WasRecentlyBanned(Kick(c, id, now).0, id, later) == WasRecentlyBanned(c, id, later)
    ensures WasRecentlyBanned(Unkick(c, id).0, id, later) == WasRecentlyBanned(c, id, later)
    ensures WasRecentlyBanned(Unkick(c, id).0, other, later) == WasRecentlyBanned(c, other, later)
  {
    KeysDistinct(id, other);
    KeysDistinct(id, id);
    var v := Strconv.FormatInt(UnixSeconds(now));
    OtherKeysUnchanged(c, KickKey(id), KickKey(other), v, KickTtl, now, [KickKey(id)], later);
    OtherKeysUnchanged(c, KickKey(id), BanKey(other), v, KickTtl, now, [KickKey(id)], later);
    OtherKeysUnchanged(c, KickKey(id), BanKey(id), v, KickTtl, now, [KickKey(id)], later);
  }

  /** On the in-memory backend an absent flag or cutover is an error, not "no": a fresh
      in-memory cache answers every revocation query with `MemoryNil`. */
  lemma MemoryBackendAbsentIsError(id: Int32, now: int)
    ensures IsKicked(NewMemoryCache(), id, now) == Err(CacheFailure(MemoryNil))
    ensures WasRecentlyBanned(NewMemoryCache(), id, now) == Err(CacheFailure(MemoryNil))
    ensures GetMassLogout(NewMemoryCache(), now) == Err(CacheFailure(MemoryNil))
  {
  }
}

=== FILE: wrappers.dfy ===
/** Failure-carrying datatypes shared by every module of the model. */
module Wrappers {

  /** A value that may be absent, the model of a Go nil pointer or a missing map entry. */
  datatype Option<+T> = None | Some(value: T)

  /** A Go `(value, error)` pair in which exactly one half is meaningful. */
  datatype Result<+T, +E> = Ok(value: T) | Err(error: E)
}
